=== FILE: README.md ===
# yali gateway: a Dafny model of its core

The yali gateway connects an LCN home-automation bus to TCP clients. An LCN
bus has modules that drive dimmable outputs and shutter relays. On the bus
side the gateway does these things:

- It computes the one-byte frame checksum.
- It finds frames in the noisy serial byte stream.
- It queues outgoing commands and repeats them until they are acknowledged.
- It schedules delayed commands by tick.
- It turns received frames into state updates.

In its state store it keeps:

- the brightness of every configured light;
- an interval estimate of every shutter's position, built from travel times;
- a ring buffer of 8-byte history records.

On the TCP side it does these things:

- It reassembles length-prefixed packets per client.
- It dispatches requests.
- It broadcasts every state change to all connected clients.

The model also covers four pieces outside the server:

- the configuration loader;
- the packet reader of the command-line client;
- the client's database and history decoding;
- the client's brightness clamp.

The model is functional. Every record is an immutable datatype. Every C
operation that changes global state is a pure function. It takes the old
state and returns the new state together with a list of `Effect`s:

- a history record;
- a packet sent on a client socket;
- a socket closed;
- a frame written to the bus.

Anything the C code reads from the outside world becomes a parameter:

- the tick counter (`tick`);
- the wall-clock second (`now`);
- the sockets of the client slots (`slots`);
- the bytes a `read`/`recv` delivers (`input`, `read`);
- whether a bus interface is configured (`iface`);
- the configuration file's lines;
- the two `sscanf` calls (`Conf.Scanners`).

Bytes are the subset type `Bytes.Byte` (0..255). C narrowings are written
out: `ToByte`, `ToSChar`, the 16-bit packet length, the 32-bit time stamps.

Undefined behaviour in the C code is modelled as `Outcome.Undefined`. Three
examples are the free of an uninitialised pointer, a read of an uninitialised
length, and a shift by a negative count. The server's request handler can
also end in `Reply.Aborted`, which is a failed `assert`. It can end in
`Reply.Unspecified`, which covers the branches whose result the code leaves
undetermined and a database reply written past the shared 2512-byte buffer.

Where the source is evidently wrong, the model has two versions:

- one that follows the code as written;
- one that does what the code evidently intends, which the rest of the model
  uses.

The "## Findings" table lists them.

The modules follow the source files:

- `Bytes`, `Crc`: shared helpers and lcn_io.c's checksum.
- `LcnFrame`: lcnPakVerify, lcnPakValidScan and the frame builders.
- `LcnQueue`: the send queue and acknowledgements.
- `LcnRx`: lcnSerDataGet.
- `LcnProc`: lcnPakProc.
- `TimeQueue`: time_queue.c.
- `Lights`, `Shutters`, `History`: state.c.
- `NetPacket`, `NetServer`: net_io.c.
- `Serv`: yaliServ.c.
- `Conf`: conf.c.
- `Client`: yaliClient.c.
- `Effects`: the vocabulary the modules share.
- `LcnRxExample`: the concrete byte streams behind one of the findings.

### Where the code departs from its evident intent

The model follows the code in each of these places, and models the evidently
intended behaviour beside it.

- The comment "positive acknowledge to last command" (lcn_io.c:551) and the
  address check after it show that an acknowledgement from the addressed
  module is meant to clear the wait slot. The branch only looks at 8-byte
  info-0 chunks (lcn_io.c:553), but verification fixes info-0 frames at
  6 bytes (lcn_io.c:414). So an acknowledgement received cleanly, at its
  own 6 bytes, is never taken. An 8-byte info-0 chunk still reaches the
  branch in two ways. After a resync, the loop hands over a recovered
  acknowledgement together with two trailing bytes (lcn_io.c:754-765,
  `LcnProc.ResyncAckTakenAsWritten`). Eight buffered info-0 bytes older
  than one tick are flushed whole, whatever their checksum (lcn_io.c:719-723,
  `LcnProc.StaleAckTakenAsWritten`). See Findings.
- For a packet too long for the buffer, `assert(len>0)` (net_io.c:480)
  shows that the branch means to discard the packet's remaining bytes. It
  computes them from `pak.len`, a local that this call never set: see
  Findings.
- The comments "try it up to 5 times" and "error packet could not be
  delivered" (lcn_io.c:278-284) say that the waiting frame is dropped after
  5 attempts. At that moment the code frees `p`, which is not yet set in
  that call (lcn_io.c:285): see Findings.
- The export loop (state.c:132-141) skips the all-zero records that follow
  the write index, evidently so that empty slots are not sent. It stops at
  the first non-zero record, so an all-zero record further on would still
  be sent. `History.ExportAfterWrites` shows that this cannot happen when
  every record written has a non-zero kind.
- The downward branch of the shutter adaptation (state.c:528-530) computes
  the run time from the downward travel time. It then adds to both bounds,
  swapped, and divides by the upward travel time. The upward branch (state.c:519-525) just
  above it shows the evident intent: move both bounds by the run time over
  the travel time, widened by 0.1 s each way. See Findings.

## Model

Source paths are relative to the repository root. Line numbers are those of
the file.

| member | source | states |
|---|---|---|
| Bytes.BitRevInvolution | lcn_io.c:420-428 | Reversing the eight bits of a bus address twice gives the address back, so a wire byte and the address it encodes determine each other. |
| Bytes.FromMsbIsFromLsbReversed | lcn_io.c:420-428 | The loop's "shift left, add bit i" value, read most significant first, is the least-significant-first value of the reversed bit list. |
| Bytes.BitsFromLsb | lcn_io.c:420-428 | A bit list read as a number and split back into bits gives the same list, so the address decoding loses nothing. |
| Bytes.FlattenAppend | lcn_io.c:745-749 | Concatenating the byte strings of two lists of dispatched chunks is concatenation of the two results, which the byte-conservation proofs use. |
| Crc.CrcStepIsRotation | lcn_io.c:197-206 | The masked-shift checksum step equals an independent definition: the 9-bit sum rotated left by two modulo 511, with 255 subtracted above 0xFF. |
| Crc.ScrambleIsMasked | lcn_io.c:202 | The piecewise form of the step's scramble equals `(n & 0x7f) << 2 \| (n & 0x180) >> 7` written with division and remainder. |
| Crc.RotateIsScramble | lcn_io.c:202 | Multiplying the 9-bit sum by 4 modulo 511 gives exactly the scrambled value. |
| Crc.CrcCalc | lcn_io.c:214-228 | The checksum of any prefix is a byte. |
| Crc.CrcCalcLocal | lcn_io.c:214-228 | The checksum of n bytes depends only on those n bytes other than offset 2. |
| Crc.CrcIgnoresOffset2 | lcn_io.c:221 | Storing any value at offset 2, where the checksum is kept, leaves the checksum unchanged. |
| LcnFrame.ExpLen | lcn_io.c:413-418 | The frame length fixed by the info byte: 6 exactly for info 0, 8 for 4..7, 12 for 8 or 74, 20 for 12, and undetermined (0) otherwise, each as an if-and-only-if. |
| LcnFrame.Verify | lcn_io.c:400-465 | A prefix is incomplete exactly when it is shorter than 3 bytes or than the length its info byte determines. The checksum is taken over the whole prefix exactly when that length is undetermined and both addresses are known. A valid frame of determined length carries the checksum of exactly that many bytes. |
| LcnFrame.VerifyIncompleteIff | lcn_io.c:411-446 | A prefix counts as incomplete exactly when it is shorter than 3 bytes or shorter than its determined length. |
| LcnFrame.VerifyDeterminedLength | lcn_io.c:444-455 | With a determined length and enough bytes, the answer no longer depends on how many bytes were checked. It is "valid" exactly when the checksum over the determined length matches offset 2, and "known with CRC error" otherwise. |
| LcnFrame.VerifyUnknownAddress | lcn_io.c:430-455 | With an undetermined length and an unknown address, the checksum over zero bytes (0) is compared. The answer is "valid" exactly when offset 2 holds 0. |
| LcnFrame.VerifyKnownVariable | lcn_io.c:457-464 | With an undetermined length and both addresses known, the checksum over all checked bytes decides between "unknown, CRC ok" and "CRC error". |
| LcnFrame.ValidMeansSelfConsistent | lcn_io.c:444-450 | A prefix accepted as valid is at least as long as its determined length, and carries at offset 2 the checksum of that length. |
| LcnFrame.VerifyLocal | lcn_io.c:400-465 | The answer depends only on the checked bytes, and on the destination byte that the code reads even past the prefix. |
| LcnFrame.CommandFrame | lcn_io.c:103-117 | The standard command frame is `[0x80, flag, crc, 0, dest, cmd, p1, p2]`. Each argument is narrowed to a byte, and offset 2 holds the frame's own checksum. |
| LcnFrame.QueuedCommand | lcn_io.c:337-360 | The frame lcnQueueCommandSend and lcnCommandSendTimed build: 8 bytes, info 4, the four arguments as bytes. |
| LcnFrame.CommandFrameVerifies | lcn_io.c:103-117 | Every command frame the gateway builds with info 4..7 is incomplete below 8 bytes and valid at 8, whatever lights are configured. |
| LcnFrame.PakSendFrame | lcn_io.c:241-260 | lcnPakSend keeps bytes 0 and 1, moves the rest up by one, and stores the checksum of the whole new frame at offset 2. |
| LcnFrame.PakSendDeleteCrc | lcn_io.c:249-255 | Deleting the inserted checksum byte gives back the caller's bytes. |
| LcnFrame.ProbeFirst | lcn_io.c:481-488 | The probe at one start offset stops at the first length whose answer is not "incomplete", or runs out of bytes. |
| LcnFrame.ProbeUnknownAtThree | lcn_io.c:483-493 | A probe that ends on "unknown, CRC ok" ends at length 3, so the scan's "typical length" branch can never fire. |
| LcnFrame.ScanFrom | lcn_io.c:479-496 | The scan returns the first start offset it accepts, or 0 when none is accepted: both directions, and no earlier offset is accepted. |
| LcnFrame.ScanHitMeansValid | lcn_io.c:490-493 | An accepted start offset is one at which the probe ended on "valid". |
| LcnFrame.ValidScanFindsValid | lcn_io.c:473-497 | The offset lcnPakValidScan returns starts a frame that verification accepts as valid. |
| LcnQueue.Add | lcn_io.c:63-100 | A frame is appended at the tail of the send queue, and the queue before it is unchanged. |
| LcnQueue.Dequeue | lcn_io.c:293-325 | With no frame waiting, the head is taken off and written, and the counter is reset. A frame that asks for an acknowledgement becomes the waiting frame. An empty queue writes nothing. |
| LcnQueue.SendNextAsWritten | lcn_io.c:269-334 | As written, the call is undefined exactly when the waiting frame has reached its fifth repetition, because an uninitialised pointer is freed. |
| LcnQueue.SendNext | lcn_io.c:269-334 | While fewer than 5 writes are done, the waiting frame is written again. After that it is dropped and the next frame is dequeued in the same call. |
| LcnQueue.SendNextAgrees | lcn_io.c:275-291 | The corrected send step equals the code wherever the code is defined. |
| LcnQueue.Writes | lcn_io.c:316-325 | n identical bus writes of one frame. |
| LcnQueue.Retries | lcn_io.c:275-291 | A waiting frame that has been written rep+1 times is written exactly 4-rep more times in the following calls. |
| LcnQueue.UnacknowledgedFrameFiveWrites | lcn_io.c:269-334 | A frame that asks for an acknowledgement, and never gets one, is written exactly five times. The sixth call drops it and leaves the rest of the queue. |
| LcnQueue.UnacknowledgedFrameAsWritten | lcn_io.c:285-287 | As written, that sixth call is undefined behaviour. |
| LcnQueue.DrainInOrder | lcn_io.c:293-325 | Frames that ask for no acknowledgement leave the queue in FIFO order, one write per call, and the queue ends empty. |
| LcnQueue.AckClear | lcn_io.c:578-595 | The acknowledgement branch clears the waiting frame exactly when the frame matches it, and it never touches the queue. |
| LcnQueue.AckMatchesIff | lcn_io.c:559-583 | An acknowledgement matches exactly when its source is the bit-reversed destination of the waiting frame and its destination is the bit-reversed source. |
| LcnRx.Shift | lcn_io.c:745-749 | Moving bytes k..rcpos down puts exactly those bytes at the front of the buffer. |
| LcnRx.FrameLen | lcn_io.c:413-418 | A frame is accepted at no fewer than 3 bytes. |
| LcnRx.RxLoop | lcn_io.c:735-766 | The check loop keeps the buffer size, ends with everything checked, and never grows the fill level. |
| LcnRx.RxLoopConserves | lcn_io.c:735-766 | The check loop neither loses nor duplicates a byte. The dispatched chunks followed by what it leaves in the buffer are exactly the bytes it was given. |
| LcnRx.LoopDone | lcn_io.c:735 | With nothing left to check, the loop dispatches nothing and its stream is the whole fill. |
| LcnRx.SkipConserves | lcn_io.c:737-755 | The same for a round that only advances the check position: an incomplete prefix, or a rejected one with no scan hit. |
| LcnRx.ValidConserves | lcn_io.c:742-752 | The same for a round in which a valid frame is dispatched and the rest shifted down. |
| LcnRx.RecoverConserves | lcn_io.c:754-765 | The same for a round in which the scan dispatches garbage in front of a frame. |
| LcnRx.GarbageConserves | lcn_io.c:757-764 | Garbage of `s` bytes dispatched in front of the loop's run on the buffer shifted by `s` keeps the stream. |
| LcnRx.ConsConserves | lcn_io.c:745-750 | Dispatching the first k bytes in front of a run on the buffer shifted by k keeps the stream. |
| LcnRx.Prepare | lcn_io.c:710-726 | A full buffer is discarded. Buffered bytes older than one tick are dispatched as stale. The kept bytes are the dispatched bytes followed by the buffer. |
| LcnRx.Feed | lcn_io.c:728-767 | After the read and the loop, what was dispatched followed by what is buffered is the old buffer followed by the input. |
| LcnRx.StaleFlushFreesBuffer | lcn_io.c:719-726 | Buffered bytes older than one tick are dispatched whole and the buffer is emptied, so the read after may fill all of it. |
| LcnRx.SerDataGetWith | lcn_io.c:700-768 | A call keeps the buffer invariant and records the tick of the call. |
| LcnRx.SerDataGetAsWritten | lcn_io.c:700-768 | The code as written keeps the buffer invariant. |
| LcnRx.SerDataGet | lcn_io.c:700-768 | The corrected call keeps the buffer invariant. |
| LcnRx.SerDataGetConserves | lcn_io.c:700-768 | No byte is lost or duplicated by a call. What it dispatches followed by what it buffers is what it kept followed by the input. |
| LcnRx.FirstValidIsFrameLen | lcn_io.c:735-752 | The first prefix accepted as valid has exactly the frame's length. |
| LcnRx.RejectedStaysRejected | lcn_io.c:444-464 | A prefix that is neither incomplete nor valid stays invalid for every longer prefix. |
| LcnRx.RestartFramesExact | lcn_io.c:735-766 | With the corrected resynchronisation, every frame the loop dispatches has exactly its frame length. |
| LcnRx.SkipFramesExact | lcn_io.c:737-755 | The same through a round that only advances the check position: a rejected prefix rules out a valid one up to the fill level. |
| LcnRx.ValidFrameExact | lcn_io.c:742-752 | The same through a round that accepts a frame, which is dispatched at exactly its length. |
| LcnRx.RecoverFramesExact | lcn_io.c:754-765 | The same through a round in which the scan drops garbage, after which checking restarts at 0. |
| LcnRx.ConsFramesExact | lcn_io.c:742-765 | A dispatch of the right length in front of the corrected loop's run on the shifted buffer keeps every frame exact. |
| LcnRx.IncompleteStep | lcn_io.c:740 | An incomplete prefix only advances the check position. |
| LcnRx.ValidStep | lcn_io.c:742-752 | A valid prefix is dispatched, the rest is shifted down, and checking restarts at 0. |
| LcnRx.MissStep | lcn_io.c:754-755 | A rejected prefix with no frame found by the scan only advances the check position. |
| LcnRx.LastFrame | lcn_io.c:742-752 | A valid prefix that fills the buffer is the only dispatch. |
| LcnRx.RecoverStep | lcn_io.c:754-765 | A scan hit dispatches the garbage in front of the frame, and shifts the buffer by that much. |
| LcnRx.IncompleteRun | lcn_io.c:735-740 | A run of incomplete prefixes only advances the check position to the end of the run. |
| LcnRx.GarbageHead | lcn_io.c:735-765 | From a fresh check, incomplete prefixes then a rejected one with a scan hit dispatch the garbage and continue on the shifted buffer, from the carried-over or the restarted check position. |
| LcnRx.GarbageThenLast | lcn_io.c:735-765 | As written, when the rest behind the garbage is a valid frame one byte longer than the carried-over check position, the dispatches are that garbage and then the whole rest as one frame. |
| LcnRxExample.ShiftedFrameValid | lcn_io.c:413-455 | The example's 6-byte frame is incomplete below 6 bytes and valid at 6..9 bytes. |
| LcnRxExample.BurstRejectedAtEight | lcn_io.c:444-455 | Read from offset 0, the garbage byte and frame are an 8-byte command with a wrong checksum. |
| LcnRxExample.BurstScan | lcn_io.c:473-497 | The scan finds the frame one byte in. |
| LcnRxExample.AsWrittenOverlongFrame | lcn_io.c:754-765 | As written, the recovered frame is dispatched with two trailing bytes (8 bytes instead of 6). |
| LcnRxExample.ShiftedRestart | lcn_io.c:735-752 | Restarted on the shifted buffer, the loop dispatches the frame at 6 bytes and keeps the other 2. |
| LcnRxExample.RestartExactFrame | lcn_io.c:735-766 | The corrected loop dispatches the garbage byte, then the frame at exactly 6 bytes, and keeps the 2 bytes after it. |
| LcnProc.SlotAction | lcn_io.c:665-683 | Slot i of a relay command gives at most one action, a stop/up/down for shutter i+1 of the addressed module. |
| LcnProc.RelayActions | lcn_io.c:663-684 | A relay command only ever moves shutters of its destination module. |
| LcnProc.Direct | lcn_io.c:622-690 | An 8-byte command frame never yields an acknowledgement. |
| LcnProc.StatusActions | lcn_io.c:600-618 | A status report yields only light updates. |
| LcnProc.DecodeWith | lcn_io.c:553-690 | An info-0 frame of the acknowledgement length yields the acknowledgement first. No other frame, and no other position, yields one. |
| LcnProc.DecodeAsWritten | lcn_io.c:553-690 | As written, an 8-byte info-0 chunk decodes to one acknowledgement and nothing else, and no other frame yields one. A module's status report sets its three outputs to half the reported values. A frame of any other length does nothing. |
| LcnProc.Decode | lcn_io.c:553-690 | Corrected: a 6-byte info-0 frame, the acknowledgement's own length, decodes to one acknowledgement and nothing else, and no other frame yields one. An 8-byte frame decodes only as a command of info 4 or 5. Status reports decode as above, and a frame of any other length does nothing. |
| LcnProc.ExactFrameNotAckAsWritten | lcn_io.c:553 | As written, no frame handed over at exactly its own length decodes to an acknowledgement, so a cleanly received acknowledgement is ignored. |
| LcnProc.ResyncAckTakenAsWritten | lcn_io.c:553 | As written, the acknowledgement recovered by a resync is handed over with two trailing bytes and taken. The corrected loop hands it over at 6 bytes, where only the corrected decoding takes it. |
| LcnProc.StaleAckTakenAsWritten | lcn_io.c:719-723 | As written, eight info-0 bytes older than one tick are flushed whole and taken as an acknowledgement, whatever their checksum. |
| LcnProc.AckDecoded | lcn_io.c:553-596 | With acknowledgements taken at their 6-byte frame length, an info-0 frame decodes to exactly that acknowledgement. As written, it decodes to nothing. |
| LcnProc.AckAtEight | lcn_io.c:553-596 | As written, an 8-byte info-0 chunk decodes to exactly the acknowledgement of its source and destination bytes. With the 6-byte rule, it yields no acknowledgement. |
| LcnProc.RelayRoundTrip | state.c:557-563 | The start and stop frames the shutter adaptation plans for shutter 1..4 decode back to "move in that direction" and "stop" for that shutter. |
| LcnProc.DecodeRelayFrame | lcn_io.c:622-684 | An 8-byte info-4 relay frame decodes to its relay actions. |
| LcnProc.RelayDecode | lcn_io.c:663-684 | Relay bytes with only one shutter's pattern set decode to exactly that shutter's action. |
| LcnProc.LightCommandRoundTrip | net_io.c:316-342 | The frame LIGHTSTATUSSET queues for output o decodes to setting output o of that module to twice the halved value. |
| LcnProc.Step | lcn_io.c:578-690 | One decoded action keeps the tables well formed and never changes their sizes. |
| LcnProc.Apply | lcn_io.c:600-690 | Applying the actions in order keeps the tables well formed and their sizes unchanged. |
| LcnProc.PakProc | lcn_io.c:505-691 | Processing a dispatched frame keeps the tables well formed. |
| LcnProc.AckReleasesWaiting | lcn_io.c:553-596 | With the 6-byte rule, the acknowledgement from the addressed module frees the waiting frame and leaves the queue alone. |
| LcnProc.ApplyOne | lcn_io.c:600-690 | Applying one action is one step. |
| TimeQueue.Insert | time_queue.c:51-99 | Inserting makes the queue one entry longer. Where the entry goes, and what it keeps, are the lemmas below. |
| TimeQueue.InsertPos | time_queue.c:68-85 | The new entry goes after every entry due no later, and before the first entry due strictly later. |
| TimeQueue.InsertSorted | time_queue.c:51-99 | Inserting keeps the queue sorted by due tick. |
| TimeQueue.InsertCounts | time_queue.c:51-99 | Inserting adds exactly the new entry: the queue grows by one, and its multiset gains exactly that entry. |
| TimeQueue.InsertStable | time_queue.c:68-85 | Removing the new entry gives back the old queue, so the other entries keep their order. |
| TimeQueue.InsertHead | time_queue.c:68-85 | The new entry becomes the head exactly when the queue was empty or its head is due strictly later (or is that entry). |
| TimeQueue.InsertKeepsTieOrder | time_queue.c:68-85 | Entries due at the same tick leave the queue in the order they were added. |
| TimeQueue.InsertPosAfter | time_queue.c:68-85 | In a sorted queue, a new entry goes after every entry due no later than it. |
| TimeQueue.PopDue | yaliServ.c:78-94 | The head is taken off exactly when it is due. Otherwise the queue is unchanged. |
| TimeQueue.PopAsWritten | yaliServ.c:78-94 | As written, a due head is freed and the head moves to its successor. No other node changes, so the successor's `prev` still names the freed node. |
| TimeQueue.Pop | yaliServ.c:78-94 | The corrected pop frees the due head, moves the head to its successor and clears that successor's `prev`. |
| TimeQueue.PopThenAddAsWritten | yaliServ.c:82-88 | As written, after the head of a well-linked list is popped, adding an entry due before the new head writes through that head's dangling `prev`, which is undefined. |
| TimeQueue.PopThenAdd | time_queue.c:68-81 | With the corrected pop, the same add makes the new entry the head, linked in front of the old successor. |
| TimeQueue.PopThenAddExample | yaliServ.c:78-94 | Adding ticks 5 and 1, popping 1 at tick 1 and adding 3 is undefined as written. With the corrected pop, 3 becomes the head. |
| TimeQueue.AddAsWritten | time_queue.c:51-99 | Adding to an empty list makes the node the head. A walk that completes only relinks nodes: no node is created or freed, and no due time changes. |
| TimeQueue.TailAppendSelfLoop | time_queue.c:87-95 | As written, appending at the tail leaves the new node's `prev` pointing at itself. |
| TimeQueue.FirstAdd | time_queue.c:57-61 | The first node added to an empty list becomes its head with no links. |
| TimeQueue.SecondAdd | time_queue.c:63-96 | Adding a later node appends it at the tail, then the walk steps onto it and links it to itself as `prev`. |
| TimeQueue.ThirdAdd | time_queue.c:63-84 | Adding a node before that self-linked node makes the self-linked node point forward to the new one, which points back to it. |
| TimeQueue.ThirdInsertMakesCycle | time_queue.c:51-99 | As written, adding ticks 1, 5 and 3 to an empty queue leaves a list whose `next` links cycle, while the intended queue is [1, 3, 5]. |
| TimeQueue.InsertOneFiveThree | time_queue.c:51-99 | The intended insertion of ticks 1, 5 and 3 gives 1, 3, 5. |
| Lights.ChangeEffects | state.c:199-211 | A detected change emits one history record and one report per connected client. |
| Lights.Update | state.c:179-216 | Every light on (module, output) gets the time. One whose state differs from the value stores the value, narrowed to `signed char`, and emits one record and one report per client. Lights elsewhere are unchanged. |
| Lights.UpdateKeepsStates | state.c:179-216 | Light states stay within `signed char` range. |
| Lights.NoChangesAfterUpdate | state.c:199 | After an update, no light on that output differs from the value. |
| Lights.UpdateIdempotent | state.c:179-216 | Repeating a report with a value in range emits nothing and changes only the time stamps. |
| Lights.WrappedValueLogsAgain | state.c:199-202 | A value outside `signed char` range is stored wrapped, so the same report is logged again each time. |
| Lights.Find | net_io.c:351-363 | The first light on (module, output), or none exactly when no light matches. |
| Lights.DbEntry | net_io.c:248-281 | A light's database entry is 4 bytes plus its name. |
| Lights.DbPayload | net_io.c:248-281 | The light database packet is as long as the entries of all lights together, each 4 bytes plus its name. |
| Lights.DbPayloadLength | net_io.c:248-281 | The light database packet is the sum of 4 plus the name length over all lights. |
| Lights.DbPayloadAtLeast | net_io.c:258-271 | With every name at least k bytes long, the light database packet is at least 4 + k bytes per light. |
| Lights.Add | conf.c:49-80 | confLightAdd appends one light with its narrowed address, its C-string name, its `signed char` state and time 0, and keeps the earlier lights. |
| Shutters.Unwrap | state.c:232-233 | The elapsed time after undoing tick wrap-around is never negative, and is unchanged when it already was not negative. |
| Shutters.Clamp | state.c:534-537 | Clamping lands in [0, 1] and leaves values inside unchanged. |
| Shutters.ClampMonotone | state.c:534-537 | Clamping keeps the order of two bounds. |
| Shutters.Advance | state.c:232-256 | After a movement the interval stays ordered inside [0, 1]. It moves up for an upward movement, down for a downward one, and stays put for a still shutter. |
| Shutters.Update2 | state.c:220-297 | The shutter stays sane and keeps its identity. The new direction and time are recorded. The bounds move the way the old direction says. One record is always logged; reports go out only if the shutter was moving. |
| Shutters.AdvanceSound | state.c:235-256 | The estimate is sound. If the shutter really was inside the old interval and moved for a time within the jitter of the measured one, it is inside the new interval. |
| Shutters.PtrGet | state.c:464-480 | The first shutter on (module, rnum), or none exactly when no shutter matches. |
| Shutters.Get | state.c:482-494 | The position in percent, 0..100 for a known shutter, and -1 exactly when the shutter is unknown. |
| Shutters.Update | state.c:299-318 | Only the first shutter on (module, rnum) is updated; an unknown shutter changes nothing. |
| Shutters.Create | state.c:320-345 | A new shutter is put in front of the list with the given module, relay, name (cut at its first NUL) and travel times. It is still, with update time 0 and the unknown position [0, 1]. With positive travel times, a sane table stays sane. |
| Shutters.CreateFinds | state.c:333-341 | Once created, a shutter is the one found for its module and relay, and is reported at 50%, the middle of its unknown position. Every other module and relay finds what it found before. |
| Shutters.OverRun | state.c:418-435 | Comparing the position gained, run time over travel time, with what is left of the way is comparing the run time with the time the rest of the way takes. |
| Shutters.CheckOne | state.c:416-452 | The check keeps a shutter sane, with the same identity and update time. It changes the shutter exactly when it reports something. The shutter is then still and pinned at 0 or 1, and the report is its history record followed by the position broadcast. |
| Shutters.CheckOneCases | state.c:416-452 | The periodic check stops a shutter exactly when it has reached an end stop: moving up with more run time, less the jitter, than the rest of the way up takes, it is pinned to [1, 1]; the downward mirror pins it to [0, 0]; in both it emits one history record and one report per client. Every other shutter is unchanged and emits nothing. |
| Shutters.StopsAtTop | state.c:416-425 | A shutter moving up from below the top is stopped at [1, 1] once it has run longer than the rest of the way up takes, plus the jitter. |
| Shutters.StopsAtBottom | state.c:426-435 | A shutter moving down from above the bottom is stopped at [0, 0] once it has run longer than its upper bound's share of a full downward run, plus the jitter. |
| Shutters.CheckStillUnchanged | state.c:387-462 | A still shutter is never changed by the check. |
| Shutters.CheckEffects | state.c:401-459 | The effects of the check, one entry per shutter, each that shutter's own. |
| Shutters.Check | state.c:387-462 | The check treats every shutter in list order: each shutter becomes what the single-shutter check makes of it, and the effects are those of the shutters one after the other. |
| Shutters.CheckKeepsSane | state.c:387-462 | The check keeps every estimate sane. |
| Shutters.DbEntry | state.c:351-385 | A shutter's database entry is 5 bytes plus its name. |
| Shutters.DbPayloadAtLeast | state.c:360-375 | With every name at least k bytes long, the shutter database packet is at least 5 + k bytes per shutter. |
| Shutters.RunTime | state.c:517-531 | The planned relay time is never negative. |
| Shutters.Plan | state.c:557-563 | Two timed relay commands: the start one tick from now, and the stop no earlier. |
| Shutters.ShiftAsWritten | state.c:519-531 | As written, the upward branch computes what the corrected shift computes, and the downward branch raises the lower bound instead of lowering it. |
| Shutters.Shift | state.c:519-531 | The corrected shift raises the upper bound when moving up and lowers the lower bound when moving down. |
| Shutters.AdaptAsWritten | state.c:496-568 | As written, the adaptation is defined exactly when the relay shift is defined. |
| Shutters.Adapt | state.c:496-568 | The corrected adaptation keeps a sane interval and the shutter's identity. It reports the new estimate and plans one start and one later stop. |
| Shutters.ShiftOrdered | state.c:519-531 | The corrected shift keeps the lower bound below the upper one. |
| Shutters.ShiftCentres | state.c:504-531 | The corrected shift moves the interval's centre by exactly the planned distance, so it lands on the target for any target strictly between the end stops. |
| Shutters.AdaptAsWrittenInverts | state.c:526-537 | As written, moving a shutter at 50% down to 25% leaves posMin 0.76 above posMax 0.74. |
| Shutters.ShiftAsWrittenInverts | state.c:526-531 | The unclamped bounds of that example are 0.76 and 0.74. |
| Shutters.AdaptAsWrittenClamps | state.c:534-537 | The bounds the code stores are the clamped shifted bounds. |
| Shutters.TargetAsWritten | state.c:584-588 | As written, a chosen target still lies in the requested range. |
| Shutters.Target | state.c:584-588 | A chosen target lies in the requested range. A shutter whose estimate lies inside a range away from the end stops stays where it is. |
| Shutters.TargetInRange | state.c:584-588 | The chosen target always lies in the requested range. |
| Shutters.TargetStaysInside | state.c:587 | A shutter whose estimate lies inside a range away from the end stops stays where it is. |
| Shutters.TargetDisjointMidpoint | state.c:586 | A shutter whose estimate lies outside such a range goes to the middle of the range. |
| Shutters.TargetAsWrittenMisjudges | state.c:584-588 | As written, a shutter at 20% asked for 10..30% is moved anyway, and one at 50% asked for 0..30% runs to 0 instead of 15. |
| Shutters.CommandAsWritten | state.c:571-600 | As written, a command to an unknown shutter changes nothing. |
| Shutters.Command | state.c:571-600 | The corrected command keeps every estimate sane and changes only the addressed shutter. Either nothing happens, or one start and one later stop are planned. |
| Shutters.CommandInsideDoesNothing | state.c:584-588 | A range that already contains the whole estimate leaves the table alone and sends nothing. |
| History.Init | state.c:39-55 | The ring starts all zero with the write index at 0. |
| History.Record | state.c:64-84 | A record is 8 bytes: the time stamp, then kind, module, unit and value. A record with a non-zero kind is never all zero. |
| History.Write | state.c:64-113 | Writing puts the record at the write index, advances the index by 8 modulo 4096, and leaves every other slot alone. |
| History.Apply | state.c:64-113 | Applying effects keeps the ring well formed and advances the write index by 8 per history record among them, modulo 4096. Effects without a record leave the ring unchanged. |
| History.DropZeroPrefix | state.c:132-141 | Exactly the leading all-zero records are skipped, and what is left starts with a non-zero record. |
| History.Export | state.c:119-164 | The exported history is a whole number of records, at most 4096 bytes, and starts with a non-zero record. |
| History.ExportShape | state.c:119-164 | The exported history is a whole number of records, at most 4096 bytes, and starts with a non-zero record. |
| History.RotatedAfterWrite | state.c:64-113 | Read from the write index, a write drops the oldest record and appends the new one. |
| History.RotatedWriteAll | state.c:39-113 | After writing any records from the zeroed buffer, the ring read from the write index is the last 512 records, padded with zero records in front. |
| History.ExportAfterWrites | state.c:119-164 | After writing records that each carry a non-zero kind, the export is exactly the last min(n, 512) records, oldest first. |
| NetPacket.Wire | net_io.c:77-114 | A packet is its type, the 16-bit length and that many payload bytes. |
| NetPacket.Header | yaliClient.c:221-222 | A header is read exactly when 3 bytes are present, and the length is below 65536. |
| NetPacket.WireRoundTrip | net_io.c:77-114 | Reading back a sent packet gives its type, its length and its payload, for payloads below 65536 bytes. |
| NetPacket.HeaderRoundTrip | net_io.c:509-516 | Bytes that hold their declared length start with the encoding of their own type and payload. |
| NetPacket.WireTruncates | net_io.c:77-114 | A payload of 65536 bytes or more is sent with its length reduced modulo 65536. |
| NetPacket.ErrorPayload | net_io.c:172-193 | An error report is the code, at most 510 bytes of text and a NUL. |
| NetPacket.ErrorTextRecovered | net_io.c:172-193 | The message is read back whole whenever it is at most 510 bytes. |
| NetPacket.VersionPayloadOf | net_io.c:140-163 | A version reply is major, minor, the protocol byte 1, at most 508 bytes of text and a NUL. |
| NetPacket.VersionReadBack | net_io.c:140-163 | A NUL-free version text of at most 508 bytes is sent whole and read back. |
| NetPacket.VersionReply | net_io.c:140-163 | The server's reply is [1, 0, 1], its 18-byte text and a NUL: 22 bytes. |
| NetPacket.TimeRoundTrip | net_io.c:121-133 | Reading the time payload big-endian gives the clock modulo 2^32. |
| NetPacket.StatusPayload | net_io.c:203-241 | A status report is module, output and value, each a byte, and equal to them when they are in range. |
| NetServer.Declared | net_io.c:509-515 | The whole length a buffered packet declares is 3 plus its header's length. |
| NetServer.InitTable | net_io.c:616-667 | All four client slots start free and empty. |
| NetServer.FreeSlot | net_io.c:552-610 | The lowest free slot, or none exactly when all slots are taken. |
| NetServer.Accept | net_io.c:552-610 | A connection takes the lowest free slot, and nothing else changes. With no free slot, it gets the "server full" error and is closed, and the table is unchanged. |
| NetServer.Term | net_io.c:428-444 | Closing frees and empties exactly that slot and closes its socket. |
| NetServer.ConnectionsKeepTable | net_io.c:428-610 | Accepting and closing keep every slot well formed. |
| NetServer.FifthClientRefused | net_io.c:552-610 | A fifth client is refused while four are connected. Once any of them closes, a new one is accepted into that slot. |
| NetServer.Split | net_io.c:509-529 | The framing loop dispatches only packets that fit the buffer, and stops at an incomplete one. |
| NetServer.SplitConserves | net_io.c:503-529 | Nothing is lost or reordered. The dispatched packets as they arrived, followed by what stays buffered, are the bytes that were buffered. |
| NetServer.OnePacketDelivered | net_io.c:503-529 | A packet whose payload fits is dispatched whole from an empty slot, and nothing stays buffered. |
| NetServer.OverlongNeverDispatched | net_io.c:509-529 | A packet that declares more than the buffer holds is never dispatched. |
| NetServer.InsertAll | time_queue.c:51-99 | Adding timed commands keeps the queue sorted and adds exactly those commands. |
| NetServer.LightCommand | net_io.c:316-342 | The LIGHTSTATUSSET frame: the output's command, the value capped at 100 and halved, ramp 4. |
| NetServer.SetLight | net_io.c:316-349 | LIGHTSTATUSSET keeps the server well formed and leaves the clients and timed queue alone. |
| NetServer.GetLight | net_io.c:351-363 | LIGHTSTATUSGET answers with at most one report. |
| NetServer.SetShutter | net_io.c:365-391 | SHUTSTATUSSET aborts exactly on a known shutter with minimum above maximum. It is undefined only for a relay number the shift cannot take. |
| NetServer.SockProcWith | net_io.c:289-421 | Handling a packet keeps the server well formed and the client table unchanged. It aborts exactly in the SHUTSTATUSSET case above. It is undefined only for SHUTSTATUSGET, for a relay number the shift cannot take, or, as written, for a database reply longer than the 2512-byte shared buffer. |
| NetServer.SockProc | net_io.c:289-421 | With the database replies in a buffer of their own size, a database request is answered with the whole table, and the server is undefined only for SHUTSTATUSGET and for a relay number the shift cannot take. |
| NetServer.SockProcSharedBuffer | net_io.c:289-421 | With the database replies in the shared 2512-byte buffer, as written, a database reply is undefined exactly when the table does not fit. Every other request, SHUTSTATUSSET included, is answered as `NetServer.SockProc` answers it. |
| NetServer.DbReply | net_io.c:258-271 | A database reply is undefined exactly when it is written into the shared buffer and is longer than its 2512 bytes. Otherwise it is sent whole. |
| NetServer.DbGetReply | net_io.c:401-407 | LIGHTDBGET and SHUTTERDBGET send the whole table in one packet when it fits the shared buffer, or when it has a buffer of its own size. As written, a longer table is undefined. |
| NetServer.LightDbOverflowsAsWritten | net_io.c:258-271 | As written, a light table whose entries with names of at least k bytes add up to more than 2512 bytes (100 lights with 22-byte names, for one) is undefined. With a buffer of its own size it is sent whole. |
| NetServer.ShutterDbOverflowsAsWritten | state.c:360-375 | The same for the shutter table, whose entries are one byte longer. |
| NetServer.UnknownTypeRejected | net_io.c:416-419 | Every type without a branch, the raw-send type included, gets the "illegal code" error and changes nothing. |
| NetServer.LightStatusSetQueues | net_io.c:316-343 | With a bus interface, LIGHTSTATUSSET on output 1..3 only appends that frame to the send queue. |
| NetServer.LightStatusGetFirstMatch | net_io.c:351-363 | LIGHTSTATUSGET answers with the state of the first matching light, or with nothing. |
| NetServer.ProcAll | net_io.c:509-529 | Packets are handled in order, and the state stays well formed. |
| NetServer.Receive | net_io.c:503-530 | Storing a read and dispatching the complete packets keeps the server well formed. |
| NetServer.Closed | net_io.c:531-536 | A failed read closes the slot and keeps the server well formed. |
| NetServer.SockDataGetAsWritten | net_io.c:477-501 | As written, a call on a full buffer reads an uninitialised length. |
| NetServer.SockDataGet | net_io.c:454-542 | The corrected call keeps the server well formed and other slots unchanged, and closes on an empty read. With a full buffer, it discards the bytes of the overlong packet and resumes framing after them. |
| NetServer.SockDataGetAgrees | net_io.c:503-542 | The corrected call equals the code whenever the buffer is not full. |
| NetServer.OverlongPacketAsWritten | net_io.c:477-501 | As written, a packet longer than the buffer jams the slot in undefined behaviour. |
| NetServer.OverlongPacketDiscarded | net_io.c:477-501 | As intended, the rest of that packet is read and dropped, and the next packet is dispatched. |
| Serv.StatusRequest | yaliServ.c:112-118 | The status request is command 0x6E with 0xFB, 0x01 to that module. |
| Serv.ScheduleRefresh | yaliServ.c:52-63 | Every light on the module is stamped 55 seconds before now, so it falls due 545 seconds from now. Other lights are unchanged. |
| Serv.StalestFrom | yaliServ.c:98-110 | The scan returns an overdue light, or none exactly when no light is overdue. |
| Serv.Stalest | yaliServ.c:98-110 | The light to refresh is overdue, and none exists exactly when no light is overdue. |
| Serv.Refresh | yaliServ.c:66-119 | A due timed command is moved to the send queue and nothing else happens. Otherwise at most one request is queued. Only an overdue light is refreshed, to now. |
| Serv.OneRequestPerSecond | yaliServ.c:96 | A second call in the same second queues no further request. |
| Serv.RequestedLightFresh | yaliServ.c:98-118 | The light asked about is no longer overdue, and no other light changes. |
| Serv.OverdueLightTriggersRequest | yaliServ.c:96-118 | An overdue light makes the call queue one request and record the second. |
| Conf.SkipSpaces | conf.c:110-124 | Skipping white space stops at the first non-space byte and skips only spaces. |
| Conf.FindQuote | conf.c:126-132 | The scan stops at the first quote or NUL. |
| Conf.LoadLine | conf.c:108-149 | Comments and blank lines are skipped. A line whose numbers do not scan stops the load. A line that goes on only grows the tables. |
| Conf.Quoted | conf.c:126-137 | A line without an opening quote is ignored, and a light's quote leads to its entry. |
| Conf.AddEntry | conf.c:126-148 | An 'L' line appends a light, an 'S' line goes on to the travel times, and any other type is ignored. |
| Conf.AddShutter | conf.c:139-148 | A shutter line without a closing quote is undefined. One whose times do not scan stops the load. Otherwise it prepends the shutter. |
| Conf.Load | conf.c:87-154 | A file that cannot be opened returns 1 and adds nothing. Otherwise the lines are loaded. |
| Conf.LoadKeepsOrder | conf.c:87-154 | The load appends lights in file order and prepends shutters, keeping what was there. |
| Conf.FailStops | conf.c:115-124 | A line that fails stops the load with 1, and no later line is looked at. |
| Conf.CommentSkipped | conf.c:110-113 | A line whose first non-space byte is '#' is skipped. |
| Conf.LightLineAdds | conf.c:115-137 | A light line `L m o "name"` appends the light with exactly that name. |
| Conf.ShutterLineAdds | conf.c:115-148 | A shutter line `S m o "name" up down` prepends the shutter with exactly that name and those times, or stops the load when the times do not scan. |
| Conf.EntryAt | conf.c:115-132 | A typed line whose numbers scan reaches the entry with the name between its first two quotes. |
| Conf.QuotedName | conf.c:126-132 | Once the opening quote is found, the name runs up to the next quote, and the line goes on to add that entry. |
| Conf.Positions | conf.c:110-132 | In a line shaped `T numbers "name"`, white space skips past the type, the first quote search stops at the opening quote, and the second stops at the closing quote. |
| Effects.CStrCut | state.c:368-374 | The C string in a buffer is a prefix of it, holds no NUL, and is followed by the NUL that ends it whenever it is shorter than the buffer. |
| Client.Receive | yaliClient.c:206-240 | A packet is taken only once its declared length has arrived. The packet read is exactly the encoding of its type and payload, and the rest of the stream is left. |
| Client.ReceiveRoundTrip | yaliClient.c:206-240 | A packet the server sent, other than an error report, is received whole, and the stream after it is left for the next call. |
| Client.ReceiveErrorReport | yaliClient.c:233-237 | An error report is read back with its code and its message. |
| Client.ReceiveError | yaliClient.c:233-237 | An error report whose message ends in the payload is read as its code and that message. |
| Client.Await | yaliClient.c:604-612 | The wait returns only a packet of the awaited type, and consumes at least one packet. |
| Client.AwaitSkips | yaliClient.c:604-612 | A packet of another type before the awaited one is skipped. |
| Client.NameAt | yaliClient.c:620-624 | A name is the bytes up to a NUL inside the payload. |
| Client.ParseLights | yaliClient.c:614-625 | Decoding appends lights and keeps the earlier ones. |
| Client.LightDbRoundTrip | yaliClient.c:614-625 | Decoding what netLightDbSend sent gives back every light in order, with its address, state and name. |
| Client.LightEntryRead | yaliClient.c:616-624 | One light entry is read back as the light it was written from. |
| Client.ParseShutters | yaliClient.c:650-665 | Decoding puts shutters in front and keeps the earlier ones. |
| Client.SeenReversedIndex | yaliClient.c:656 | The client's i-th shutter is the server's i-th from the end. |
| Client.ShutterDbRoundTrip | yaliClient.c:650-665 | Decoding the shutter database gives the server's shutters in reverse order, with their addresses, positions and names. |
| Client.LightDbServed | net_io.c:401-407 | End to end: with a reply buffer of its own size, the server answers LIGHTDBGET with one packet, which the client receives whole and decodes to the server's light table. |
| Client.ShutterDbServed | net_io.c:401-403 | End to end, for SHUTTERDBGET: the client receives the packet whole and decodes the server's shutter table, reversed. |
| Client.ShutterEntryRead | yaliClient.c:652-664 | One shutter entry is read back as the shutter it was written from. |
| Client.ShowRecord | yaliClient.c:112-150 | A record prints at most one line, and only a light or shutter record prints. |
| Client.HistoryLinesAsWritten | yaliClient.c:112-152 | As written, a payload shorter than a record is defined exactly when its first byte is below 128 and every byte the loop reads lies inside it. A defined listing has at most one line per whole record. |
| Client.HistoryLines | yaliClient.c:85-151 | The corrected loop decodes exactly whole numbers of records, at most one line each. |
| Client.HistoryAgrees | yaliClient.c:112-150 | The loop as written equals the corrected one whenever no time stamp reaches 2^31. |
| Client.AsWrittenShowsWholeRecords | yaliClient.c:112-152 | Wherever the loop as written is defined, it prints what the corrected loop prints for the whole records, and nothing for a short last record. |
| Client.ShortTailAsWritten | yaliClient.c:114-141 | As written, a 7-byte last record of an unknown kind prints nothing, and a 6-byte one of a shutter reads past the payload. The corrected loop rejects the first. |
| Client.RecordTimeRoundTrip | yaliClient.c:114 | A record's time stamp is read back exactly as an unsigned 32-bit value. |
| Client.ExportDecodes | yaliClient.c:85-151 | Every history the server exports decodes. |
| Client.HistoryAsWrittenOverflows | yaliClient.c:114 | As written, a record stamped at 2^31 seconds overflows a signed shift, while the corrected loop prints it. |
| Client.ClampBrightness | yaliClient.c:753-755 | The brightness argument is limited to 0..100 and is unchanged inside it. |
| Client.SetRequest | yaliClient.c:318-354 | The LIGHTSTATUSSET request is 6 bytes. |
| Client.SetRequestReachesBus | yaliClient.c:318-354 | The server reads the request as a LIGHTSTATUSSET for that light and queues the bus command with the clamped value halved. |
| Client.ShownBrightness | yaliClient.c:306-314 | A value is printed as a brightness exactly when it is below 128, and then as itself. |
| Client.StateShown | yaliClient.c:306-314 | A known light state is printed as itself, and an unknown one is not printed as a brightness. |

## Left out

- I/O: the serial port, sockets, `select`, files and the timer are left out. Their inputs are parameters.
- Concurrency and signals are left out. The gateway is single-threaded, and the tick is a parameter.
- Logging of traffic, printing (lcn_print.c, `netPakPrint`, debug output) and the binary packet logs are left out.
- The history listing lines are modelled. How they are printed is left out.
- `yaliMonitor` and `yaliShutList` are printing loops and are left out.
- stateSunCalc is left out, because it is optional logging on floating point.
- parse_cmdline, argv handling, `main` and `usage` are left out. `announce` only advances the tick, which is a parameter here.
- malloc failure and the `exit` calls are left out.
- Floating point: shutter times and positions are `real`, so IEEE rounding, the `float` narrowing in stateShutAdapt and `floor` on large values are left out. `Effects.Round` is exact rounding of a real.
- Ticks and wall-clock seconds are unbounded naturals. `Shutters.Unwrap` models the 32-bit tick wrap only as far as stateShutUpdate2 does. Elsewhere `unsigned long` wrap-around is not modelled.
- The SHUTSTATUSGET branch reads an uninitialised pointer. It is modelled as `Reply.Unspecified` and not further.
- lcnPakSend is modelled as `LcnFrame.PakSendFrame`. Nothing in the server calls it. The 2512-byte scratch buffer overflow for frames over 2511 bytes is not modelled there. The same overflow in the two database replies is modelled (see Findings).
- `isspace` on bytes 128..255: C reads them as negative `char`s, which is undefined. The model treats them as non-space.
- `atoi` overflow on the client's brightness argument is left out. The argument is an unbounded integer.
- `fgets` splits lines longer than its buffer. The model takes the file as whole lines.
- The client's `recv` loops: pakReceive and Await take the whole received byte stream as a parameter, and a stream that ends before the declared length is `Pending`. On a closed connection `recv` returns 0 and pakReceive loops for ever (`i += 0`, yaliClient.c:213-218 and 226-231); `Pending` stands for that wait. On a failed `recv` pakReceive returns NULL, which every caller dereferences (yaliClient.c:102-108, 164-170, 295-300); the model has no failed read, so this is left out. pakReceive's only `exit` is on an error report, modelled by `Received.ServerError`.
- Shutters.Sane: configurations with a travel time of zero or below are left out. confLoad reads the times with `%f` (conf.c:141) and stateShutCreate stores any value, but every shutter operation requires positive travel times. With a negative travel time, stateShutUpdate2 (state.c:243-248) would lower posMin while the shutter moves up, without a clamp at 0.
- A failing `accept` and the listen setup of netServerOpen are left out. Only the initial client table is modelled.
- The syntax of the two `sscanf` formats is abstracted as `Conf.Scanners`.
- Shutters.AdaptAsWritten: it is defined only for relay numbers 1..15, the range where the C shift is defined. A relay number outside it is `Undefined` and not modelled further.
- TimeQueue.AddAsWritten: the pointer walk takes a fuel bound, and a walk that runs out of fuel is `Undefined`. The counterexample needs only three steps.
- NetServer.SockDataGet: the corrected discard reads at most the remaining bytes of the overlong packet per call. The C code would read up to 128 bytes into the discard buffer.
- NetServer.SockProcSharedBuffer: only its database replies are as written. SHUTSTATUSSET goes through the corrected `Shutters.Command`, as in `NetServer.SockProc`. The command as written (`Shutters.CommandAsWritten`) can store an inverted interval (`Shutters.AdaptAsWrittenInverts`). That breaks `NetServer.ServerOk`, the invariant every later request relies on, so the as-written command is modelled on its own, from one shutter table to the next.
- TimeQueue.PopDue: the server's delayed-command queue is modelled as a sequence, with the corrected pop. The dangling `prev` that yaliRefresh leaves (yaliServ.c:84) is modelled on the linked arena only (`TimeQueue.PopAsWritten`), not in `Serv.Refresh`.
- LcnFrame.Verify: the destination byte read past a short prefix is modelled as 0 when it lies past the caller's array, which in C is undefined.

## Findings

| source | as written | input that shows it | evidently intended | confidence | as-written member | corrected member |
|---|---|---|---|---|---|---|
| lcn_io.c:754-765 | After the scan dispatches garbage, `ckpos` is reduced by the garbage length and not reset. The next verification of the recovered frame starts at a length past the frame's own. | A zero byte followed by a 6-byte acknowledgement and two more bytes (`LcnRxExample.Burst`): the acknowledgement is dispatched as 8 bytes. | Restart checking at 0 after the shift, so the frame is dispatched at its own length. | not executed | `LcnRxExample.AsWrittenOverlongFrame` (`LcnRx.SerDataGetAsWritten`) | `LcnRxExample.RestartExactFrame`, `LcnRx.RestartFramesExact` (`LcnRx.SerDataGet`) |
| lcn_io.c:285-287 | At the fifth repetition the code frees `p`, which is not yet set in that call, instead of the waiting frame. | Any frame with info 5 that is never acknowledged: the sixth call frees an uninitialised pointer. | Free the waiting frame and clear the wait slot. | not executed | `LcnQueue.UnacknowledgedFrameAsWritten` (`LcnQueue.SendNextAsWritten`) | `LcnQueue.UnacknowledgedFrameFiveWrites` (`LcnQueue.SendNext`) |
| time_queue.c:87-95 | Appending at the tail sets the new node's `prev` to itself, and the loop goes on from the new node. | Add ticks 1, 5, 3 to an empty queue: the `next` links form a cycle. | Link the new node after the tail and stop. | not executed | `TimeQueue.ThirdInsertMakesCycle` (`TimeQueue.AddAsWritten`) | `TimeQueue.InsertSorted`, `TimeQueue.InsertCounts` (`TimeQueue.Insert`) |
| net_io.c:477-501 | With a full buffer, the remaining length is computed from `pak.len`, a local that is never set in that call. | A packet header declaring 256 payload bytes followed by 125 bytes: the next call reads an uninitialised length. | Take the length from the buffered header and discard exactly the packet's remaining bytes. | not executed | `NetServer.OverlongPacketAsWritten` (`NetServer.SockDataGetAsWritten`) | `NetServer.OverlongPacketDiscarded` (`NetServer.SockDataGet`) |
| state.c:528-530 | The downward branch adds the run time to both bounds, swapped, and divides by the upward travel time. | A still shutter at [0.5, 0.5] with 10 s travel times, sent to 25%: the estimate becomes [0.76, 0.74]. | Subtract the run time over the downward travel time, widened by 0.1 s each way. | not executed | `Shutters.AdaptAsWrittenInverts` (`Shutters.AdaptAsWritten`) | `Shutters.ShiftCentres`, `Shutters.ShiftOrdered` (`Shutters.Adapt`) |
| state.c:584-588 | The requested percentages are compared with `posMin`/`posMax`, which are fractions of 1. | A shutter at 20% asked for 10..30% is moved to 20%. One at 50% asked for 0..30% runs to 0. | Compare with the bounds in percent. | not executed | `Shutters.TargetAsWrittenMisjudges` (`Shutters.CommandAsWritten`) | `Shutters.TargetStaysInside`, `Shutters.TargetDisjointMidpoint` (`Shutters.Command`) |
| lcn_io.c:553 | An acknowledgement is taken only from an 8-byte chunk with info 0. Verification fixes info-0 frames at 6 bytes (lcn_io.c:414), so an acknowledgement received cleanly is never taken. Only an acknowledgement recovered with two trailing bytes after a resync (lcn_io.c:754-765), or 8 stale bytes (lcn_io.c:719-723), reach the branch. | Any acknowledgement from the addressed module that arrives on its own: the waiting frame is repeated five times regardless. | Take the acknowledgement at its 6-byte length. | not executed | `LcnProc.ExactFrameNotAckAsWritten`, `LcnProc.ResyncAckTakenAsWritten`, `LcnProc.StaleAckTakenAsWritten` (`LcnProc.DecodeAsWritten`) | `LcnProc.AckReleasesWaiting`, `LcnProc.AckDecoded` (`LcnProc.Decode`) |
| yaliServ.c:84 | yaliRefresh pops the due head by moving `_timeQueue` to its successor and freeing the head, but leaves the successor's `prev` pointing at the freed node. | Add ticks 5 and 1, pop tick 1 at tick 1, then add tick 3: timeQueueAdd inserts it before tick 5 and writes its `next` link into the freed node, and `_timeQueue` never reaches the new command. | Clear the new head's `prev` when popping. | not executed | `TimeQueue.PopThenAddExample`, `TimeQueue.PopThenAddAsWritten` (`TimeQueue.PopAsWritten`) | `TimeQueue.PopThenAdd` (`TimeQueue.Pop`, `TimeQueue.PopDue`) |
| net_io.c:258-271 | netLightDbSend, and likewise stateShutDbSend (state.c:360-375), assemble the whole table in the shared 2512-byte `_yaliBuf` (lcn_io.c:34) with no bound. | 100 lights with names of 22 bytes need 2600 bytes: the reply writes past the buffer, which is undefined. | Assemble the reply in a buffer as long as the table needs. | not executed | `NetServer.LightDbOverflowsAsWritten`, `NetServer.ShutterDbOverflowsAsWritten` (`NetServer.SockProcSharedBuffer`) | `NetServer.DbGetReply`, `Client.LightDbServed`, `Client.ShutterDbServed` (`NetServer.SockProc`) |
| yaliClient.c:114 | The time stamp is assembled by shifting the first byte left by 24 in a signed `int`. | A record stamped at 2^31 seconds (January 2038): the shift overflows, which is undefined. | Assemble the stamp as an unsigned 32-bit value. | not executed | `Client.HistoryAsWrittenOverflows` (`Client.HistoryLinesAsWritten`) | `Client.RecordTimeRoundTrip`, `Client.HistoryAgrees` (`Client.HistoryLines`) |

=== FILE: bytes.dfy ===
/** Byte-level helpers shared by the bus and the TCP side of the gateway:
    the byte type, C's narrowing conversions, and the bit reversal that the
    bus applies to source addresses. */
module Bytes {

  /** One octet, as stored in an `unsigned char`. */
  type Byte = x: int | 0 <= x < 256

  /** C's conversion of an `int` to `unsigned char`: reduction modulo 256
      (Dafny's `%` is Euclidean, so negative inputs wrap as in C). */
  function ToByte(x: int): (b: Byte)
    ensures x - b == 256 * (x / 256)
    ensures 0 <= x < 256 ==> b == x
  {
    x % 256
  }

  /** C's conversion of an `int` to `signed char` (two's complement wrap). */
  function ToSChar(x: int): (c: int)
    ensures -128 <= c <= 127
    ensures (x - c) % 256 == 0
    ensures -128 <= x <= 127 ==> c == x
  {
    var b := x % 256;
    if b >= 128 then b - 256 else b
  }

  /** The 8 bits of `b`, least significant first, each 0 or 1. */
  function BitsLsb(b: nat, n: nat): (s: seq<int>)
    ensures |s| == n
    ensures forall i :: 0 <= i < n ==> 0 <= s[i] <= 1
  {
    if n == 0 then [] else [b % 2] + BitsLsb(b / 2, n - 1)
  }

  /** Value of a bit list read least significant bit first. */
  function FromLsb(s: seq<int>): int
  {
    if s == [] then 0 else s[0] + 2 * FromLsb(s[1..])
  }

  /** Value of a bit list read most significant bit first: the shape of
      the `source = 2*source + bit` loop of the source. */
  function FromMsb(s: seq<int>): int
  {
    if s == [] then 0 else 2 * FromMsb(s[..|s| - 1]) + s[|s| - 1]
  }

  function Reverse(s: seq<int>): (r: seq<int>)
    ensures |r| == |s|
    ensures forall i :: 0 <= i < |s| ==> r[i] == s[|s| - 1 - i]
  {
    if s == [] then [] else Reverse(s[1..]) + [s[0]]
  }

  predicate IsBits(s: seq<int>)
  {
    forall i :: 0 <= i < |s| ==> 0 <= s[i] <= 1
  }

  function Pow2(n: nat): (p: nat)
    ensures p >= 1
  {
    if n == 0 then 1 else 2 * Pow2(n - 1)
  }

  /** The bus's address reversal: bit i of the wire byte becomes bit 7-i. */
  function BitRev(b: Byte): (r: Byte)
  {
    FromMsbBounded(BitsLsb(b, 8))
  }

  function FromMsbBounded(s: seq<int>): (v: Byte)
    requires |s| == 8 && IsBits(s)
  {
    FromMsbRange(s);
    FromMsb(s)
  }

  lemma {:induction false} FromMsbRange(s: seq<int>)
    requires IsBits(s)
    ensures 0 <= FromMsb(s) < Pow2(|s|)
  {
    if s != [] {
      FromMsbRange(s[..|s| - 1]);
    }
  }

  lemma {:induction false} FromMsbIsFromLsbReversed(s: seq<int>)
    ensures FromMsb(s) == FromLsb(Reverse(s))
  {
    if s != [] {
      var init := s[..|s| - 1];
      FromMsbIsFromLsbReversed(init);
      assert Reverse(s) == [s[|s| - 1]] + Reverse(init);
      assert Reverse(s)[1..] == Reverse(init);
    }
  }

  lemma {:induction false} FromLsbBits(b: nat, n: nat)
    requires b < Pow2(n)
    ensures FromLsb(BitsLsb(b, n)) == b
  {
    if n > 0 {
      FromLsbBits(b / 2, n - 1);
    }
  }

  lemma {:induction false} BitsFromLsb(s: seq<int>)
    requires IsBits(s)
    ensures FromLsb(s) >= 0
    ensures BitsLsb(FromLsb(s), |s|) == s
  {
    FromLsbNonNeg(s);
    if s != [] {
      BitsFromLsb(s[1..]);
      var v := FromLsb(s);
      FromLsbNonNeg(s[1..]);
      assert v % 2 == s[0] && v / 2 == FromLsb(s[1..]);
    }
  }

  lemma {:induction false} FromLsbNonNeg(s: seq<int>)
    requires IsBits(s)
    ensures FromLsb(s) >= 0
  {
    if s != [] {
      FromLsbNonNeg(s[1..]);
    }
  }

  lemma ReverseReverse(s: seq<int>)
    ensures Reverse(Reverse(s)) == s
  {
  }

  /** Reversing the bits of an address twice gives the address back, so the
      reversed-address comparisons of the acknowledgement check can be read
      in either direction. */
  lemma BitRevInvolution(b: Byte)
    ensures BitRev(BitRev(b)) == b
  {
    var s := BitsLsb(b, 8);
    FromMsbIsFromLsbReversed(s);
    var r := BitRev(b);
    assert r == FromLsb(Reverse(s));
    assert IsBits(Reverse(s));
    BitsFromLsb(Reverse(s));
    assert BitsLsb(r, 8) == Reverse(s);
    FromMsbIsFromLsbReversed(Reverse(s));
    ReverseReverse(s);
    assert Pow2(8) == 256;
    FromLsbBits(b, 8);
  }

  /** Concatenation of a list of byte strings. */
  function Flatten(xs: seq<seq<Byte>>): (r: seq<Byte>)
    ensures |r| == SumLengths(xs)
  {
    if xs == [] then [] else xs[0] + Flatten(xs[1..])
  }

  function SumLengths(xs: seq<seq<Byte>>): nat
  {
    if xs == [] then 0 else |xs[0]| + SumLengths(xs[1..])
  }

  lemma {:induction false} FlattenAppend(xs: seq<seq<Byte>>, ys: seq<seq<Byte>>)
    ensures Flatten(xs + ys) == Flatten(xs) + Flatten(ys)
  {
    if xs == [] {
      assert xs + ys == ys;
    } else {
      assert (xs + ys)[1..] == xs[1..] + ys;
      FlattenAppend(xs[1..], ys);
    }
  }
}

=== FILE: client.dfy ===
/** The decoding side of the command-line client (yaliClient.c): reading
    one packet from the server's byte stream, waiting for a reply of a
    given type, rebuilding the light and shutter tables from the database
    packets, decoding the history packet, and the brightness request.

    The stream is a parameter: `w` holds the bytes the server sends from
    the current point on. Printing is modelled by the values printed. */
module Client {
  import opened Bytes
  import opened Effects
  import opened NetPacket
  import Lights
  import Shutters
  import History
  import LcnProc
  import NetServer

  // ---------------------------------------------------------------------
  // Receiving packets (pakReceive)

  /** What one pakReceive call yields: a packet and the bytes after it, an
      error report (the client prints it and exits), or too few bytes for
      the declared length (the client keeps waiting). */
  datatype Received = Packet(kind: Byte, data: seq<Byte>, rest: seq<Byte>)
                    | ServerError(code: Byte, text: seq<Byte>)
                    | Pending

  /** pakReceive: the 3-byte header, then exactly the declared number of
      payload bytes. An error report prints its code byte and the C string
      after it; with an empty payload, or no NUL in the payload after the
      code, those reads leave the buffer: Undefined. */
  function Receive(w: seq<Byte>): (r: Outcome<Received>)
    ensures Header(w).None? ==> r == Defined(Pending)
    ensures Header(w).Some? && |w| < 3 + Header(w).value.1 ==> r == Defined(Pending)
    ensures r.Defined? && r.value.Packet? ==>
              Header(w) == Some((r.value.kind, |r.value.data|)) && r.value.kind != ErrorReport
              && w == Wire(r.value.kind, r.value.data) + r.value.rest
  {
    match Header(w)
    case None => Defined(Pending)
    case Some(h) =>
      var n := h.1;
      if |w| < 3 + n then Defined(Pending)
      else
        var data := w[3..3 + n];
        if h.0 == ErrorReport then
          if n == 0 || 0 !in data[1..] then Undefined
          else Defined(ServerError(data[0], CStr(data[1..])))
        else
          HeaderRoundTrip(w);
          assert w == w[..3 + n] + w[3 + n..];
          Defined(Packet(h.0, data, w[3 + n..]))
  }

  /** What the server sends is what the client receives: a packet of any
      type but an error report comes back whole, and the stream after it
      is left for the next call. */
  lemma ReceiveRoundTrip(kind: Byte, payload: seq<Byte>, more: seq<Byte>)
    requires kind != ErrorReport && |payload| < LenLimit
    ensures Receive(Wire(kind, payload) + more) == Defined(Packet(kind, payload, more))
  {
    var w := Wire(kind, payload) + more;
    WireRoundTrip(kind, payload);
    assert Header(w) == Header(Wire(kind, payload));
    assert w[3..3 + |payload|] == payload;
    assert w[3 + |payload|..] == more;
  }

  /** An error report from netErrorSend is read back with its code and its
      message, whenever the message fits the 510 bytes the server copies. */
  lemma ReceiveErrorReport(code: Byte, text: seq<Byte>, more: seq<Byte>)
    requires |CStr(text)| <= 510
    ensures Receive(Wire(ErrorReport, ErrorPayload(code, text)) + more)
            == Defined(ServerError(code, CStr(text)))
  {
    var p := ErrorPayload(code, text);
    var w := Wire(ErrorReport, p) + more;
    WireRoundTrip(ErrorReport, p);
    assert Header(w) == Header(Wire(ErrorReport, p));
    assert w[3..3 + |p|] == p;
    assert p[1..][|p| - 2] == 0;
    ReceiveError(w, |p|);
    ErrorTextRecovered(code, text);
  }

  /** An error report whose message ends inside the payload is read as
      its code byte and that message. */
  lemma ReceiveError(w: seq<Byte>, n: nat)
    requires Header(w) == Some((ErrorReport, n)) && 3 + n <= |w|
    requires n > 0 && 0 in w[3..3 + n][1..]
    ensures Receive(w) == Defined(ServerError(w[3], CStr(w[3..3 + n][1..])))
  {
  }

  /** The `do { p = pakReceive(...); } while (p->type != kind);` loops:
      packets of other types are read and dropped until one of type `kind`
      arrives. An error report ends the wait. */
  function Await(w: seq<Byte>, kind: Byte): (r: Outcome<Received>)
    ensures r.Defined? && r.value.Packet? ==> r.value.kind == kind && |r.value.rest| < |w|
    decreases |w|
  {
    match Receive(w)
    case Undefined => Undefined
    case Defined(Packet(k, data, rest)) =>
      if k == kind then Defined(Packet(k, data, rest))
      else
        assert |rest| < |w| by { assert |Wire(k, data)| >= 3; }
        Await(rest, kind)
    case Defined(other) => Defined(other)
  }

  /** A packet of another type before the awaited one is skipped. */
  lemma AwaitSkips(other: Byte, p1: seq<Byte>, kind: Byte, p: seq<Byte>, more: seq<Byte>)
    requires other != kind && other != ErrorReport && kind != ErrorReport
    requires |p1| < LenLimit && |p| < LenLimit
    ensures Await(Wire(other, p1) + Wire(kind, p) + more, kind) == Defined(Packet(kind, p, more))
  {
    var tail := Wire(kind, p) + more;
    var w := Wire(other, p1) + tail;
    assert Wire(other, p1) + Wire(kind, p) + more == w;
    ReceiveRoundTrip(other, p1, tail);
    AwaitPast(w, kind);
    ReceiveRoundTrip(kind, p, more);
    AwaitPast(tail, kind);
  }

  /** One round of the wait: a packet of the awaited type ends it, one of
      another type is dropped. */
  lemma AwaitPast(w: seq<Byte>, kind: Byte)
    requires Receive(w).Defined? && Receive(w).value.Packet?
    ensures Receive(w).value.kind == kind ==> Await(w, kind) == Receive(w)
    ensures Receive(w).value.kind != kind ==> Await(w, kind) == Await(Receive(w).value.rest, kind)
  {
  }

  // ---------------------------------------------------------------------
  // The light database (the LIGHTDBREPORT loop of main)

  /** The C string from `i` on, when it ends inside the buffer. */
  function NameAt(d: seq<Byte>, i: nat): (r: Option<seq<Byte>>)
    ensures r.Some? ==> i + |r.value| < |d| && r.value == d[i..i + |r.value|]
                        && 0 !in r.value && d[i + |r.value|] == 0
  {
    if i >= |d| then None
    else
      CStrCut(d[i..]);
      var s := CStr(d[i..]);
      if |s| == |d| - i then None else Some(s)
  }

  /** Decoding the light database payload `d`, appending to `acc`: per
      entry module, output and state bytes, then the name up to its NUL.
      Reading an entry whose name has no NUL inside the payload (a
      truncated entry) leaves the buffer: Undefined. */
  function ParseLights(acc: seq<Lights.Light>, d: seq<Byte>): (r: Outcome<seq<Lights.Light>>)
    ensures r.Defined? ==> |acc| <= |r.value| && r.value[..|acc|] == acc
    decreases |d|
  {
    if d == [] then Defined(acc)
    else
      match NameAt(d, 3)
      case None => Undefined
      case Some(name) => ParseLights(Lights.Add(acc, d[0], d[1], d[2], name), d[3 + |name| + 1..])
  }

  /** The light as the client knows it after the database transfer: its
      address, its name and its state, and time 0. */
  function Known(l: Lights.Light): Lights.Light
  {
    Lights.Light(l.moduleId, l.output, CStr(l.name), l.state, 0)
  }

  function KnownAll(ls: seq<Lights.Light>): (r: seq<Lights.Light>)
    ensures |r| == |ls| && forall i :: 0 <= i < |ls| ==> r[i] == Known(ls[i])
  {
    if ls == [] then [] else [Known(ls[0])] + KnownAll(ls[1..])
  }

  /** Decoding the payload the server's netLightDbSend produced gives the
      server's lights back, in the same order, each with its address, name
      and state. */
  lemma {:induction false} LightDbRoundTrip(acc: seq<Lights.Light>, ls: seq<Lights.Light>)
    requires Lights.StatesInRange(ls)
    ensures ParseLights(acc, Lights.DbPayload(ls)) == Defined(acc + KnownAll(ls))
    decreases |ls|
  {
    if ls != [] {
      var l := ls[0];
      assert Lights.DbPayload(ls) == Lights.DbEntry(l) + Lights.DbPayload(ls[1..]);
      LightEntryRead(acc, l, Lights.DbPayload(ls[1..]));
      assert Lights.StatesInRange(ls[1..]);
      LightDbRoundTrip(acc + [Known(l)], ls[1..]);
      assert acc + [Known(l)] + KnownAll(ls[1..]) == acc + KnownAll(ls);
    } else {
      assert acc + KnownAll(ls) == acc;
    }
  }

  /** One light entry is read back as the light it was written from. */
  lemma LightEntryRead(acc: seq<Lights.Light>, l: Lights.Light, rest: seq<Byte>)
    requires -128 <= l.state <= 127
    ensures ParseLights(acc, Lights.DbEntry(l) + rest) == ParseLights(acc + [Known(l)], rest)
  {
    var head := [l.moduleId, l.output, ToByte(l.state)];
    var d := Lights.DbEntry(l) + rest;
    assert d == head + CStr(l.name) + [0] + rest;
    CStrCut(l.name);
    EntryName(3, head, CStr(l.name), rest);
    CStrNulFree(CStr(l.name));
    assert d[0] == l.moduleId && d[1] == l.output && d[2] == ToByte(l.state);
    assert ToSChar(ToByte(l.state)) == l.state;
    assert Lights.Add(acc, d[0], d[1], d[2], CStr(l.name)) == acc + [Known(l)];
  }

  /** In `head + name + [0] + rest` with a NUL-free name, the name is read
      at `|head|`. */
  lemma EntryName(k: nat, head: seq<Byte>, name: seq<Byte>, rest: seq<Byte>)
    requires |head| == k && 0 !in name
    ensures NameAt(head + name + [0] + rest, k) == Some(name)
    ensures (head + name + [0] + rest)[k + |name| + 1..] == rest
  {
    var d := head + name + [0] + rest;
    assert d[k..] == name + [0] + rest;
    CStrStops(name, rest);
  }

  /** A C string is read up to its NUL, whatever follows. */
  lemma {:induction false} CStrStops(t: seq<Byte>, rest: seq<Byte>)
    requires 0 !in t
    ensures CStr(t + [0] + rest) == t
  {
    if t != [] {
      assert (t + [0] + rest)[1..] == t[1..] + [0] + rest;
      CStrStops(t[1..], rest);
    }
  }

  // ---------------------------------------------------------------------
  // The shutter database (the SHUTTERDBREPORT loop of main)

  /** Decoding the shutter database payload into `acc`: per entry module,
      shutter number, lower and upper position in percent, then the name.
      Each entry is created at the head of the list with zero travel times
      and its interval set to the two percent values. */
  function ParseShutters(acc: seq<Shutters.Shutter>, d: seq<Byte>): (r: Outcome<seq<Shutters.Shutter>>)
    ensures r.Defined? ==> |acc| <= |r.value| && r.value[|r.value| - |acc|..] == acc
    decreases |d|
  {
    if d == [] then Defined(acc)
    else
      match NameAt(d, 4)
      case None => Undefined
      case Some(name) =>
        var created := Shutters.Create(acc, d[0], d[1], name, 0.0, 0.0);
        var s := created[0].(posMin := d[2] as real, posMax := d[3] as real);
        var r := ParseShutters([s] + acc, d[4 + |name| + 1..]);
        if r.Defined? then SuffixTail(r.value, s, acc); r else r
  }

  /** A list ending in `[s] + acc` ends in `acc`. */
  lemma SuffixTail<T>(x: seq<T>, s: T, acc: seq<T>)
    requires |acc| + 1 <= |x| && x[|x| - |acc| - 1..] == [s] + acc
    ensures x[|x| - |acc|..] == acc
  {
    assert x[|x| - |acc|..] == x[|x| - |acc| - 1..][1..];
  }

  /** The shutter as the client holds it: address and name, no travel
      times, and the interval the server reported, in percent. */
  function Seen(s: Shutters.Shutter): Shutters.Shutter
  {
    Shutters.Shutter(CStr(s.name), ToByte(s.moduleId), ToByte(s.rnum), 0.0, 0.0,
                     ToByte(Round(100.0 * s.posMin)) as real, ToByte(Round(100.0 * s.posMax)) as real, 0.0, 0)
  }

  /** The server's shutters as seen by the client, last one first. */
  function SeenReversed(ss: seq<Shutters.Shutter>): (r: seq<Shutters.Shutter>)
    ensures |r| == |ss|
  {
    if ss == [] then [] else SeenReversed(ss[1..]) + [Seen(ss[0])]
  }

  /** The i-th shutter of the client is the server's i-th from the end. */
  lemma {:induction false} SeenReversedIndex(ss: seq<Shutters.Shutter>, i: nat)
    requires i < |ss|
    ensures SeenReversed(ss)[i] == Seen(ss[|ss| - 1 - i])
    decreases |ss|
  {
    if i < |ss| - 1 {
      SeenReversedIndex(ss[1..], i);
    }
  }

  /** The client's shutter list is the server's in reverse order: every
      entry is prepended as it is read. */
  lemma {:induction false} ShutterDbRoundTrip(acc: seq<Shutters.Shutter>, ss: seq<Shutters.Shutter>)
    ensures ParseShutters(acc, Shutters.DbPayload(ss)) == Defined(SeenReversed(ss) + acc)
    decreases |ss|
  {
    if ss != [] {
      var s := ss[0];
      var rest := Shutters.DbPayload(ss[1..]);
      assert Shutters.DbPayload(ss) == Shutters.DbEntry(s) + rest;
      ShutterEntryRead(acc, s, rest);
      ShutterDbRoundTrip([Seen(s)] + acc, ss[1..]);
      ReversedStep(SeenReversed(ss[1..]), Seen(s), acc);
    } else {
      assert SeenReversed(ss) + acc == acc;
    }
  }

  lemma ReversedStep(front: seq<Shutters.Shutter>, x: Shutters.Shutter, acc: seq<Shutters.Shutter>)
    ensures front + ([x] + acc) == (front + [x]) + acc
  {
  }

  /** One shutter entry is read back as the shutter it was written from,
      placed at the head of the list. */
  lemma ShutterEntryRead(acc: seq<Shutters.Shutter>, s: Shutters.Shutter, rest: seq<Byte>)
    ensures ParseShutters(acc, Shutters.DbEntry(s) + rest) == ParseShutters([Seen(s)] + acc, rest)
  {
    var head := [ToByte(s.moduleId), ToByte(s.rnum), ToByte(Round(100.0 * s.posMin)), ToByte(Round(100.0 * s.posMax))];
    var d := Shutters.DbEntry(s) + rest;
    assert d == head + CStr(s.name) + [0] + rest;
    CStrCut(s.name);
    EntryName(4, head, CStr(s.name), rest);
    CStrNulFree(CStr(s.name));
    assert d[..4] == head;
    var created := Shutters.Create(acc, d[0], d[1], CStr(s.name), 0.0, 0.0);
    assert created[0].(posMin := d[2] as real, posMax := d[3] as real) == Seen(s);
  }

  // ---------------------------------------------------------------------
  // The history report (yaliHistory)

  /** One line the history listing prints: the time stamp, the name of the
      light or shutter and its value. */
  datatype Shown = LightShown(time: nat, name: seq<Byte>, value: Byte)
                 | ShutterShown(time: nat, name: seq<Byte>, value: Byte)

  /** The line printed for one record, given its time stamp: records of a
      light or a shutter the client knows are printed, all others are
      skipped. */
  function ShowRecord(rec: seq<Byte>, tm: nat, lights: seq<Lights.Light>, ss: seq<Shutters.Shutter>): (r: seq<Shown>)
    requires |rec| == 8
    ensures |r| <= 1
    ensures rec[4] != LightKind && rec[4] != ShutterKind ==> r == []
  {
    if rec[4] == LightKind then
      match Lights.Find(lights, rec[5], rec[6])
      case Some(k) => [LightShown(tm, lights[k].name, rec[7])]
      case None => []
    else if rec[4] == ShutterKind then
      match Shutters.PtrGet(ss, rec[5], rec[6])
      case Some(k) => [ShutterShown(tm, ss[k].name, rec[7])]
      case None => []
    else []
  }

  /** A trailing record of fewer than 8 bytes, read the way yaliHistory's
      loop reads it: the time stamp and the kind always; for a light, the
      module byte while a light is left to compare, the output byte once a
      light's module matches, and the value once both match; for a shutter,
      the module and output bytes, and the value once stateShutPtrGet
      finds it. The predicate holds when every byte the loop reads lies
      inside the payload. */
  predicate TailReadsInside(rec: seq<Byte>, lights: seq<Lights.Light>, ss: seq<Shutters.Shutter>)
    requires |rec| < 8
  {
    |rec| >= 5
    && (rec[4] == LightKind ==>
          lights == []
          || (|rec| >= 6
              && ((forall j :: 0 <= j < |lights| ==> lights[j].moduleId != rec[5])
                  || (|rec| >= 7 && Lights.Find(lights, rec[5], rec[6]).None?))))
    && (rec[4] == ShutterKind ==> |rec| >= 7 && Shutters.PtrGet(ss, rec[5], rec[6]).None?)
  }

  /** yaliHistory's loop as written. The time stamp is
      `(d[i] << 24) + (d[i+1] << 16) + ...` on `int`: a first byte of 128
      or more overflows the signed shift, which C leaves undefined. The
      loop steps by 8 while `i < len`, so a payload whose length is not a
      multiple of 8 leaves a short last record; it is undefined when the
      loop reads a byte past the payload, and prints nothing otherwise. */
  function HistoryLinesAsWritten(d: seq<Byte>, lights: seq<Lights.Light>, ss: seq<Shutters.Shutter>): (r: Outcome<seq<Shown>>)
    ensures r.Defined? ==> |r.value| <= |d| / 8
    ensures 0 < |d| < 8 ==> (r.Defined? <==> d[0] < 128 && TailReadsInside(d, lights, ss))
    decreases |d|
  {
    if d == [] then Defined([])
    else if d[0] >= 128 then Undefined
    else if |d| < 8 then
      if TailReadsInside(d, lights, ss) then Defined([]) else Undefined
    else
      match HistoryLinesAsWritten(d[8..], lights, ss)
      case Undefined => Undefined
      case Defined(more) => Defined(ShowRecord(d[..8], Be32(d), lights, ss) + more)
  }

  /** yaliHistory with the time stamp read as the unsigned 32-bit value the
      server wrote. */
  function HistoryLines(d: seq<Byte>, lights: seq<Lights.Light>, ss: seq<Shutters.Shutter>): (r: Outcome<seq<Shown>>)
    ensures r.Defined? <==> |d| % 8 == 0
    ensures r.Defined? ==> |r.value| <= |d| / 8
    decreases |d|
  {
    if d == [] then Defined([])
    else if |d| < 8 then Undefined
    else
      match HistoryLines(d[8..], lights, ss)
      case Undefined => Undefined
      case Defined(more) => Defined(ShowRecord(d[..8], Be32(d), lights, ss) + more)
  }

  /** The two agree wherever no record's time stamp reaches 2^31. */
  lemma {:induction false} HistoryAgrees(d: seq<Byte>, lights: seq<Lights.Light>, ss: seq<Shutters.Shutter>)
    requires |d| % 8 == 0
    requires forall i :: 0 <= i < |d| / 8 ==> d[8 * i] < 128
    ensures HistoryLinesAsWritten(d, lights, ss) == HistoryLines(d, lights, ss)
    decreases |d|
  {
    if d != [] {
      assert d[8 * 0] < 128;
      forall i | 0 <= i < |d[8..]| / 8
        ensures d[8..][8 * i] < 128
      {
        assert d[8..][8 * i] == d[8 * (i + 1)];
      }
      HistoryAgrees(d[8..], lights, ss);
    }
  }

  /** Wherever the loop as written is defined, it prints what the corrected
      loop prints for the whole records: a short last record prints
      nothing. */
  lemma {:induction false} AsWrittenShowsWholeRecords(d: seq<Byte>, lights: seq<Lights.Light>, ss: seq<Shutters.Shutter>)
    requires HistoryLinesAsWritten(d, lights, ss).Defined?
    ensures HistoryLinesAsWritten(d, lights, ss) == HistoryLines(d[..|d| / 8 * 8], lights, ss)
    decreases |d|
  {
    if |d| < 8 {
      assert d[..|d| / 8 * 8] == [];
    } else {
      var k := |d| / 8 * 8;
      assert |d[8..]| / 8 * 8 == k - 8;
      AsWrittenShowsWholeRecords(d[8..], lights, ss);
      var w := d[..k];
      assert w[8..] == d[8..][..k - 8];
      assert w[..8] == d[..8];
      assert w[0] == d[0] && w[1] == d[1] && w[2] == d[2] && w[3] == d[3];
      assert Be32(w) == Be32(d);
    }
  }

  /** A short last record is skipped when its kind is neither a light nor
      a shutter, and undefined when it is a shutter's and stops before the
      relay byte. */
  lemma ShortTailAsWritten(lights: seq<Lights.Light>, ss: seq<Shutters.Shutter>)
    ensures HistoryLinesAsWritten([0, 0, 0, 0, 3, 0, 0], lights, ss) == Defined([])
    ensures HistoryLinesAsWritten([0, 0, 0, 0, ShutterKind, 0], lights, ss).Undefined?
    ensures HistoryLines([0, 0, 0, 0, 3, 0, 0], lights, ss).Undefined?
  {
  }

  /** The time stamp of a record the server wrote is read back exactly:
      the server writes the clock modulo 2^32 big-endian. */
  lemma RecordTimeRoundTrip(tm: nat, kind: Byte, m: Byte, u: Byte, v: Byte)
    requires tm < 0x1_0000_0000
    ensures Be32(History.Record(tm, kind, m, u, v)) == tm
  {
    BigEndianDigits(tm);
    var r := History.Record(tm, kind, m, u, v);
    assert r[0] == tm / 0x100_0000 && r[1] == (tm / 0x1_0000) % 256 && r[2] == (tm / 0x100) % 256 && r[3] == tm % 256;
  }

  /** Every history the server exports decodes: it is a whole number of
      records. */
  lemma ExportDecodes(h: History.Hist, lights: seq<Lights.Light>, ss: seq<Shutters.Shutter>)
    requires History.Valid(h)
    ensures HistoryLines(History.Export(h), lights, ss).Defined?
  {
    History.ExportShape(h);
  }

  /** A light record stamped at or after 2^31 seconds (January 2038) makes
      the loop as written undefined, while the corrected loop prints it. */
  lemma HistoryAsWrittenOverflows(l: Lights.Light, v: Byte)
    ensures HistoryLinesAsWritten(History.Record(0x8000_0000, LightKind, l.moduleId, l.output, v), [l], []).Undefined?
    ensures HistoryLines(History.Record(0x8000_0000, LightKind, l.moduleId, l.output, v), [l], [])
            == Defined([LightShown(0x8000_0000, l.name, v)])
  {
    var rec := History.Record(0x8000_0000, LightKind, l.moduleId, l.output, v);
    RecordTimeRoundTrip(0x8000_0000, LightKind, l.moduleId, l.output, v);
    assert rec[0] == 128;
    assert rec[4] == LightKind && rec[5] == l.moduleId && rec[6] == l.output && rec[7] == v;
    assert rec[8..] == [] && rec[..8] == rec;
    assert HistoryLines(rec[8..], [l], []) == Defined([]);
    assert ShowRecord(rec, 0x8000_0000, [l], []) == [LightShown(0x8000_0000, l.name, v)];
    assert HistoryLines(rec, [l], []) == Defined(ShowRecord(rec[..8], Be32(rec), [l], []) + []);
    assert [LightShown(0x8000_0000, l.name, v)] + [] == [LightShown(0x8000_0000, l.name, v)];
    assert Lights.Find([l], l.moduleId, l.output) == Some(0);
  }

  // ---------------------------------------------------------------------
  // Brightness (main's parameter handling, yaliLightStatSet/Print)

  /** The brightness argument limited to 0..100. */
  function ClampBrightness(n: int): (v: int)
    ensures 0 <= v <= 100
    ensures 0 <= n <= 100 ==> v == n
    ensures n > 100 ==> v == 100
    ensures n < 0 ==> v == 0
  {
    if n < 0 then 0 else if n > 100 then 100 else n
  }

  /** The LIGHTSTATUSSET request for light `l` at brightness `n`. */
  function SetRequest(l: Lights.Light, n: int): (w: seq<Byte>)
    ensures |w| == 6
  {
    Wire(LightStatusSet, [l.moduleId, l.output, ToByte(ClampBrightness(n))])
  }

  /** End to end: the server answers LIGHTDBGET with one packet that the
      client receives whole and decodes to the server's light table. */
  lemma LightDbServed(sv: NetServer.Server, sock: int, p: Pak, env: NetServer.Env, more: seq<Byte>)
    requires NetServer.ServerOk(sv) && |p.data| >= 4 && p.kind == LightDbGet
    requires |Lights.DbPayload(sv.tables.lights)| < LenLimit
    ensures var r := NetServer.SockProc(sv, sock, p, env);
            r.Done? && r.sv == sv && |r.effects| == 1 && r.effects[0].Send? && r.effects[0].sock == sock
            && var e := r.effects[0];
               Receive(Wire(e.kind, e.payload) + more) == Defined(Packet(LightDbReport, e.payload, more))
               && ParseLights([], e.payload) == Defined(KnownAll(sv.tables.lights))
  {
    var payload := Lights.DbPayload(sv.tables.lights);
    NetServer.DbGetReply(sv, sock, p, env, NetServer.Sized);
    ReceiveRoundTrip(LightDbReport, payload, more);
    LightDbRoundTrip([], sv.tables.lights);
    assert [] + KnownAll(sv.tables.lights) == KnownAll(sv.tables.lights);
  }

  /** The same for SHUTTERDBGET: the client's list is the server's table in
      reverse order. */
  lemma ShutterDbServed(sv: NetServer.Server, sock: int, p: Pak, env: NetServer.Env, more: seq<Byte>)
    requires NetServer.ServerOk(sv) && |p.data| >= 4 && p.kind == ShutterDbGet
    requires |Shutters.DbPayload(sv.tables.shutters)| < LenLimit
    ensures var r := NetServer.SockProc(sv, sock, p, env);
            r.Done? && r.sv == sv && |r.effects| == 1 && r.effects[0].Send? && r.effects[0].sock == sock
            && var e := r.effects[0];
               Receive(Wire(e.kind, e.payload) + more) == Defined(Packet(ShutterDbReport, e.payload, more))
               && ParseShutters([], e.payload) == Defined(SeenReversed(sv.tables.shutters))
  {
    var payload := Shutters.DbPayload(sv.tables.shutters);
    NetServer.DbGetReply(sv, sock, p, env, NetServer.Sized);
    ReceiveRoundTrip(ShutterDbReport, payload, more);
    ShutterDbRoundTrip([], sv.tables.shutters);
    assert SeenReversed(sv.tables.shutters) + [] == SeenReversed(sv.tables.shutters);
  }

  /** The server reads the request as a LIGHTSTATUSSET for that light's
      address with the clamped brightness, and, with the bus coupler
      attached and an output of 1 to 3, queues the bus command that sets
      the output to that brightness rounded down to even. */
  lemma SetRequestReachesBus(sv: NetServer.Server, sock: int, l: Lights.Light, n: int, stale: seq<Byte>, env: NetServer.Env)
    requires NetServer.ServerOk(sv) && env.iface && |stale| >= 1 && 1 <= l.output <= 3
    ensures Header(SetRequest(l, n)) == Some((LightStatusSet, 3))
    ensures var p := Pak(LightStatusSet, 3, SetRequest(l, n)[3..] + stale);
            var r := NetServer.SockProc(sv, sock, p, env);
            var q := r.sv.tables.sendq.queue;
            r.Done? && |q| == |sv.tables.sendq.queue| + 1
            && LcnProc.Decode(q[|q| - 1]) == [LcnProc.LightSet(l.moduleId, l.output, 2 * (ClampBrightness(n) / 2))]
  {
    var payload := [l.moduleId, l.output, ToByte(ClampBrightness(n))];
    WireRoundTrip(LightStatusSet, payload);
    var p := Pak(LightStatusSet, 3, SetRequest(l, n)[3..] + stale);
    assert p.data[..3] == payload;
    NetServer.LightStatusSetQueues(sv, sock, p, env);
  }

  /** The brightness yaliLightStatPrint prints: the report's value byte as
      a signed `char`, or "?" (None) when it is negative. */
  function ShownBrightness(b: Byte): (r: Option<int>)
    ensures r.Some? <==> b < 128
    ensures r.Some? ==> r.value == b
  {
    if ToSChar(b) >= 0 then Some(ToSChar(b)) else None
  }

  /** A light state the server reports is printed as itself when known,
      and as "?" when unknown (-1). */
  lemma StateShown(state: int)
    requires -128 <= state <= 127
    ensures ShownBrightness(StatusPayload(0, 0, state)[2]) == (if state >= 0 then Some(state) else None)
  {
  }
}

=== FILE: conf.dfy ===
/** The configuration loader of conf.c: confLightAdd, and confLoad's
    handling of one line of the configuration file.

    A line is the bytes fgets stored, without the terminating NUL; reading
    at its end gives that NUL. The number syntax of sscanf is not modelled:
    a `Scanners` value stands for the two `sscanf` calls. Opening the file
    is a parameter too: None is a file that cannot be opened. */
module Conf {
  import opened Bytes
  import opened Effects
  import Lights
  import Shutters

  /** The two sscanf calls: `"%i %i"` for module and output, read after the
      type character, and `" %f %f"` for the travel times, read after the
      name. Each gets the C string from its starting point on. */
  datatype Scanners = Scanners(ints: seq<Byte> -> Option<(int, int)>, reals: seq<Byte> -> Option<(real, real)>)

  /** The tables a configuration fills. */
  datatype Config = Config(lights: seq<Lights.Light>, shutters: seq<Shutters.Shutter>)

  /** How one line ends: the load goes on, or it stops and returns 1. */
  datatype LineResult = Next(conf: Config) | Fail

  const Quote: Byte := 0x22
  const Hash: Byte := 0x23
  const LightType: Byte := 0x4C   // 'L'
  const ShutterType: Byte := 0x53 // 'S'

  /** `cbuf[i]`: the byte at `i`, or the terminating NUL at the end. */
  function At(line: seq<Byte>, i: nat): Byte
  {
    if i < |line| then line[i] else 0
  }

  /** isspace in the C locale. Bytes from 128 on are negative `char`s and
      are taken as not spaces. */
  predicate IsSpace(b: Byte)
  {
    b == 0x20 || 0x09 <= b <= 0x0D
  }

  /** `while (isspace(cbuf[i])) i++;` */
  function SkipSpaces(line: seq<Byte>, i: nat): (j: nat)
    ensures i <= j && (j <= |line| || j == i)
    ensures !IsSpace(At(line, j))
    ensures forall k :: i <= k < j ==> IsSpace(At(line, k))
    decreases |line| - i
  {
    if IsSpace(At(line, i)) then SkipSpaces(line, i + 1) else i
  }

  /** The first quote or NUL at or after `i` (the two `while` loops that
      delimit the name). */
  function FindQuote(line: seq<Byte>, i: nat): (j: nat)
    ensures i <= j && (j <= |line| || j == i)
    ensures At(line, j) == Quote || At(line, j) == 0
    ensures forall k :: i <= k < j ==> At(line, k) != Quote && At(line, k) != 0
    decreases |line| - i
  {
    if At(line, i) == Quote || At(line, i) == 0 then i else FindQuote(line, i + 1)
  }

  /** The C string starting at `i`. */
  function From(line: seq<Byte>, i: nat): seq<Byte>
  {
    if i <= |line| then CStr(line[i..]) else []
  }

  /** A comment or blank line: its first byte that is not a space is '#'
      or, read as a signed `char`, below 32. The end of the line counts as
      the NUL, so an empty or all-space line is skipped too. */
  predicate Skipped(line: seq<Byte>)
  {
    var c := At(line, SkipSpaces(line, 0));
    c == Hash || ToSChar(c) < 32
  }

  /** The per-line logic of confLoad: skip comments and blank lines, read
      the type character and the two numbers, then the quoted name. */
  function LoadLine(st: Config, line: seq<Byte>, sc: Scanners): (r: Outcome<LineResult>)
    ensures Skipped(line) ==> r == Defined(Next(st))
    ensures !Skipped(line) && sc.ints(From(line, SkipSpaces(line, SkipSpaces(line, 0) + 1))).None? ==>
              r == Defined(Fail)
    ensures r.Defined? && r.value.Next? ==> Grows(st, r.value.conf)
  {
    var i0 := SkipSpaces(line, 0);
    var kind := At(line, i0);
    if kind == Hash || ToSChar(kind) < 32 then Defined(Next(st))
    else
      var i := SkipSpaces(line, i0 + 1);
      match sc.ints(From(line, i))
      case None => Defined(Fail)
      case Some(mo) => Quoted(st, kind, mo.0, mo.1, line, FindQuote(line, i), sc)
  }

  /** A step of the load appends at most one light and prepends at most
      one shutter. */
  predicate Grows(st: Config, c: Config)
  {
    (c.lights == st.lights
     || (|c.lights| == |st.lights| + 1 && c.lights[..|st.lights|] == st.lights))
    && (c.shutters == st.shutters
        || (|c.shutters| == |st.shutters| + 1 && c.shutters[1..] == st.shutters))
  }

  /** The rest of a line once module `m` and output `o` are read and the
      search for the opening quote stopped at `q`: a line without a quote
      there adds nothing; otherwise the name runs to the next quote or the
      end of the line. */
  function Quoted(st: Config, kind: Byte, m: int, o: int, line: seq<Byte>, q: nat, sc: Scanners): (r: Outcome<LineResult>)
    ensures At(line, q) == 0 ==> r == Defined(Next(st))
    ensures kind == LightType && At(line, q) == Quote ==>
              r.Defined? && r.value.Next? && |r.value.conf.lights| == |st.lights| + 1
    ensures r.Defined? && r.value.Next? ==> Grows(st, r.value.conf)
  {
    if At(line, q) == 0 then Defined(Next(st))
    else
      AddEntry(st, kind, m, o, line, q, FindQuote(line, q + 1), sc)
  }

  /** The name runs from after the opening quote at `q` to `y`; the type
      decides the table it goes to, and unknown types add nothing. */
  function AddEntry(st: Config, kind: Byte, m: int, o: int, line: seq<Byte>, q: nat, y: nat, sc: Scanners): (r: Outcome<LineResult>)
    requires q < y <= |line|
    ensures kind == LightType ==>
              r.Defined? && r.value.Next? && r.value.conf.shutters == st.shutters
              && |r.value.conf.lights| == |st.lights| + 1 && r.value.conf.lights[..|st.lights|] == st.lights
    ensures kind != LightType && kind != ShutterType ==> r == Defined(Next(st))
    ensures r.Defined? && r.value.Next? ==> Grows(st, r.value.conf)
  {
    var name := line[q + 1..y];
    if kind == LightType then
      Defined(Next(st.(lights := Lights.Add(st.lights, m, o, -1, name))))
    else if kind == ShutterType then AddShutter(st, m, o, name, line, y, sc)
    else Defined(Next(st))
  }

  /** An 'S' line: the travel times are scanned after the closing quote at
      `y`. When the name ran to the end of the line, there is no closing
      quote and the scan starts past the line's NUL, in bytes a previous
      line left or none initialised: Undefined. */
  function AddShutter(st: Config, m: int, o: int, name: seq<Byte>, line: seq<Byte>, y: nat, sc: Scanners): (r: Outcome<LineResult>)
    ensures r.Undefined? <==> y >= |line|
    ensures y < |line| && sc.reals(From(line, y + 1)).None? ==> r == Defined(Fail)
    ensures r.Defined? && r.value.Next? ==>
              r.value.conf.lights == st.lights && |r.value.conf.shutters| == |st.shutters| + 1
              && r.value.conf.shutters[1..] == st.shutters && r.value.conf.shutters[0].name == CStr(name)
  {
    if y >= |line| then Undefined
    else
      match sc.reals(From(line, y + 1))
      case None => Defined(Fail)
      case Some(ud) => Defined(Next(st.(shutters := Shutters.Create(st.shutters, m, o, name, ud.0, ud.1))))
  }

  /** The lines in file order. The result is confLoad's return value (0
      or 1) with the tables as far as they were filled: a failing line
      stops the load, and what earlier lines added stays. */
  function LoadLines(st: Config, lines: seq<seq<Byte>>, sc: Scanners): (r: Outcome<(int, Config)>)
    decreases |lines|
  {
    if lines == [] then Defined((0, st))
    else
      match LoadLine(st, lines[0], sc)
      case Undefined => Undefined
      case Defined(Fail) => Defined((1, st))
      case Defined(Next(st1)) => LoadLines(st1, lines[1..], sc)
  }

  /** confLoad: a file that cannot be opened returns 1 and adds nothing. */
  function Load(st: Config, file: Option<seq<seq<Byte>>>, sc: Scanners): (r: Outcome<(int, Config)>)
    ensures file.None? ==> r == Defined((1, st))
    ensures file.Some? ==> r == LoadLines(st, file.value, sc)
  {
    match file
    case None => Defined((1, st))
    case Some(lines) => LoadLines(st, lines, sc)
  }

  /** The load adds lights at the end, in file order, and shutters at the
      front, in reverse file order: the tables it started with survive as
      a prefix and a suffix. */
  lemma {:induction false} LoadKeepsOrder(st: Config, lines: seq<seq<Byte>>, sc: Scanners)
    requires LoadLines(st, lines, sc).Defined?
    ensures var c := LoadLines(st, lines, sc).value.1;
            |st.lights| <= |c.lights| && c.lights[..|st.lights|] == st.lights
            && |st.shutters| <= |c.shutters| && c.shutters[|c.shutters| - |st.shutters|..] == st.shutters
    decreases |lines|
  {
    if lines != [] {
      var r := LoadLine(st, lines[0], sc);
      if r.value.Next? {
        var st1 := r.value.conf;
        assert LoadLines(st, lines, sc) == LoadLines(st1, lines[1..], sc);
        LoadKeepsOrder(st1, lines[1..], sc);
        GrowsChain(st, st1, LoadLines(st1, lines[1..], sc).value.1);
      }
    }
  }

  /** One step that grows the tables, then a prefix/suffix extension. */
  lemma GrowsChain(st: Config, st1: Config, c: Config)
    requires Grows(st, st1)
    requires |st1.lights| <= |c.lights| && c.lights[..|st1.lights|] == st1.lights
    requires |st1.shutters| <= |c.shutters| && c.shutters[|c.shutters| - |st1.shutters|..] == st1.shutters
    ensures |st.lights| <= |c.lights| && c.lights[..|st.lights|] == st.lights
    ensures |st.shutters| <= |c.shutters| && c.shutters[|c.shutters| - |st.shutters|..] == st.shutters
  {
    assert c.lights[..|st.lights|] == st1.lights[..|st.lights|];
    if st1.shutters != st.shutters {
      assert c.shutters[|c.shutters| - |st.shutters|..] == st1.shutters[1..];
    }
  }

  /** A line that fails stops the load with 1: no later line is looked at. */
  lemma FailStops(st: Config, bad: seq<Byte>, rest: seq<seq<Byte>>, sc: Scanners)
    requires LoadLine(st, bad, sc) == Defined(Fail)
    ensures LoadLines(st, [bad] + rest, sc) == Defined((1, st))
  {
  }

  /** A line whose first byte after leading white space is '#' is a
      comment and leaves the tables alone, whatever follows. */
  lemma CommentSkipped(st: Config, line: seq<Byte>, blanks: seq<Byte>, rest: seq<Byte>, sc: Scanners)
    requires line == blanks + [Hash] + rest
    requires forall k :: 0 <= k < |blanks| ==> IsSpace(blanks[k])
    ensures LoadLine(st, line, sc) == Defined(Next(st))
  {
    forall k | 0 <= k < |blanks|
      ensures IsSpace(At(line, k))
    {
      assert line[k] == blanks[k];
    }
    assert At(line, |blanks|) == Hash;
    SkipSpacesTo(line, 0, |blanks|);
  }

  lemma {:induction false} SkipSpacesTo(line: seq<Byte>, i: nat, p: nat)
    requires i <= p && !IsSpace(At(line, p))
    requires forall k :: i <= k < p ==> IsSpace(At(line, k))
    ensures SkipSpaces(line, i) == p
    decreases p - i
  {
    if i < p {
      SkipSpacesTo(line, i + 1, p);
    }
  }

  /** The shape of a typed line: the type byte first, no quote and no NUL
      before the opening quote at `p`, then `name`, which holds neither,
      and the closing quote. */
  predicate QuotedAt(line: seq<Byte>, kind: Byte, p: nat, name: seq<Byte>)
  {
    0 < p && p + 1 + |name| < |line| && line[0] == kind
    && Plain(line[..p])
    && line[p] == Quote && line[p + 1..p + 1 + |name|] == name && line[p + 1 + |name|] == Quote
    && Plain(name)
  }

  /** Text that holds neither a quote nor a NUL. */
  predicate Plain(s: seq<Byte>)
  {
    forall k :: 0 <= k < |s| ==> s[k] != Quote && s[k] != 0
  }

  /** `pre + "name" + post` has that shape when `pre` holds no quote and
      no NUL, and what follows the closing quote is `post`. */
  lemma QuotedShape(pre: seq<Byte>, name: seq<Byte>, post: seq<Byte>)
    requires |pre| > 0 && Plain(pre) && Plain(name)
    ensures QuotedAt(pre + [Quote] + name + [Quote] + post, pre[0], |pre|, name)
    ensures From(pre + [Quote] + name + [Quote] + post, |pre| + 2 + |name|) == CStr(post)
  {
    var line := pre + [Quote] + name + [Quote] + post;
    LineShape(line, pre, name, post);
  }

  /** Where the parts of `pre + "name" + post` sit. */
  lemma LineShape(line: seq<Byte>, pre: seq<Byte>, name: seq<Byte>, post: seq<Byte>)
    requires line == pre + [Quote] + name + [Quote] + post
    ensures |line| == |pre| + |name| + 2 + |post|
    ensures line[..|pre|] == pre && line[|pre|] == Quote
    ensures line[|pre| + 1..|pre| + 1 + |name|] == name && line[|pre| + 1 + |name|] == Quote
    ensures line[|pre| + 2 + |name|..] == post && From(line, |pre| + 2 + |name|) == CStr(post)
  {
  }

  /** The name is the text between the first two quotes after the numbers.
      A light line `L <m> <o> "<name>"` with the scanner reading (m, o)
      appends that light, unknown (-1), with time 0. */
  lemma LightLineAdds(st: Config, line: seq<Byte>, p: nat, name: seq<Byte>, sc: Scanners, m: int, o: int)
    requires QuotedAt(line, LightType, p, name)
    requires sc.ints(From(line, SkipSpaces(line, 1))) == Some((m, o))
    ensures LoadLine(st, line, sc)
              == Defined(Next(st.(lights := st.lights + [Lights.Light(ToByte(m), ToByte(o), CStr(name), -1, 0)])))
  {
    var i := Positions(line, LightType, p, name);
    EntryAt(st, line, LightType, i, p, p + 1 + |name|, sc, m, o);
    LightEntry(st, m, o, line, p, name, sc);
  }

  /** AddEntry for a light whose name lies after the quote at `p`. */
  lemma LightEntry(st: Config, m: int, o: int, line: seq<Byte>, p: nat, name: seq<Byte>, sc: Scanners)
    requires p + 1 + |name| <= |line| && line[p + 1..p + 1 + |name|] == name
    ensures AddEntry(st, LightType, m, o, line, p, p + 1 + |name|, sc)
              == Defined(Next(st.(lights := st.lights + [Lights.Light(ToByte(m), ToByte(o), CStr(name), -1, 0)])))
  {
    var added := Lights.Add(st.lights, m, o, -1, name);
    assert added == st.lights + [Lights.Light(ToByte(m), ToByte(o), CStr(name), -1, 0)];
  }

  /** A shutter line `S <m> <o> "<name>" <up> <down>` prepends a shutter of
      that name in an unknown position, with the travel times scanned
      after the closing quote; without them the load fails. */
  lemma ShutterLineAdds(st: Config, line: seq<Byte>, p: nat, name: seq<Byte>, sc: Scanners, m: int, o: int)
    requires QuotedAt(line, ShutterType, p, name)
    requires sc.ints(From(line, SkipSpaces(line, 1))) == Some((m, o))
    ensures match sc.reals(From(line, p + 2 + |name|))
            case None => LoadLine(st, line, sc) == Defined(Fail)
            case Some(ud) =>
              LoadLine(st, line, sc)
                == Defined(Next(st.(shutters := [Shutters.Shutter(CStr(name), m, o, ud.0, ud.1, 0.0, 1.0, 0.0, 0)] + st.shutters)))
  {
    var i := Positions(line, ShutterType, p, name);
    EntryAt(st, line, ShutterType, i, p, p + 1 + |name|, sc, m, o);
    ShutterEntry(st, m, o, line, p, name, sc);
    ShutterTimes(st, m, o, name, line, p + 1 + |name|, sc);
  }

  /** AddEntry for a shutter whose name lies after the quote at `p`. */
  lemma ShutterEntry(st: Config, m: int, o: int, line: seq<Byte>, p: nat, name: seq<Byte>, sc: Scanners)
    requires p + 1 + |name| <= |line| && line[p + 1..p + 1 + |name|] == name
    ensures AddEntry(st, ShutterType, m, o, line, p, p + 1 + |name|, sc)
              == AddShutter(st, m, o, name, line, p + 1 + |name|, sc)
  {
  }

  /** AddShutter with a closing quote: the scanned travel times go into
      the new shutter. */
  lemma ShutterTimes(st: Config, m: int, o: int, name: seq<Byte>, line: seq<Byte>, y: nat, sc: Scanners)
    requires y < |line|
    ensures match sc.reals(From(line, y + 1))
            case None => AddShutter(st, m, o, name, line, y, sc) == Defined(Fail)
            case Some(ud) =>
              AddShutter(st, m, o, name, line, y, sc)
                == Defined(Next(st.(shutters := [Shutters.Shutter(CStr(name), m, o, ud.0, ud.1, 0.0, 1.0, 0.0, 0)] + st.shutters)))
  {
  }

  /** Where LoadLine looks in a typed line: it starts with its type
      character, the numbers are scanned from `i`, and the quote search
      from there stops at `p` and from `p + 1` at `y`. */
  predicate Located(line: seq<Byte>, kind: Byte, i: nat, p: nat, y: nat)
  {
    SkipSpaces(line, 0) == 0 && At(line, 0) == kind && (kind == LightType || kind == ShutterType)
    && i == SkipSpaces(line, 1) && FindQuote(line, i) == p
    && p < y < |line| && line[p] == Quote && FindQuote(line, p + 1) == y
  }

  /** The same with the positions given. */
  lemma EntryAt(st: Config, line: seq<Byte>, kind: Byte, i: nat, p: nat, y: nat, sc: Scanners, m: int, o: int)
    requires Located(line, kind, i, p, y)
    requires sc.ints(From(line, SkipSpaces(line, 1))) == Some((m, o))
    ensures LoadLine(st, line, sc) == AddEntry(st, kind, m, o, line, p, y, sc)
  {
    TypedLine(st, line, kind, i, p, sc, m, o);
    QuotedName(st, kind, m, o, line, p, y, sc);
  }

  /** A line of type 'L' or 'S' whose numbers scan goes on to the quote
      search. */
  lemma TypedLine(st: Config, line: seq<Byte>, kind: Byte, i: nat, p: nat, sc: Scanners, m: int, o: int)
    requires SkipSpaces(line, 0) == 0 && At(line, 0) == kind && (kind == LightType || kind == ShutterType)
    requires i == SkipSpaces(line, 1) && sc.ints(From(line, i)) == Some((m, o)) && FindQuote(line, i) == p
    ensures LoadLine(st, line, sc) == Quoted(st, kind, m, o, line, p, sc)
  {
  }

  /** With the opening quote at `p` and the closing one at `y`, the rest
      of the line is the entry named by what lies between. */
  lemma {:induction false} QuotedName(st: Config, kind: Byte, m: int, o: int, line: seq<Byte>, p: nat, y: nat, sc: Scanners)
    requires p < y < |line| && line[p] == Quote && FindQuote(line, p + 1) == y
    ensures Quoted(st, kind, m, o, line, p, sc) == AddEntry(st, kind, m, o, line, p, y, sc)
  {
    assert At(line, p) == Quote;
  }

  /** In a line of that shape the numbers are scanned from a point `i`
      before the opening quote, and the quote search finds both quotes. */
  lemma Positions(line: seq<Byte>, kind: Byte, p: nat, name: seq<Byte>) returns (i: nat)
    requires kind == LightType || kind == ShutterType
    requires QuotedAt(line, kind, p, name)
    ensures Located(line, kind, i, p, p + 1 + |name|)
  {
    i := TypeThenNumbers(line, kind, p);
    forall k | i <= k < p
      ensures line[k] != Quote && line[k] != 0
    {
      assert line[k] == line[..p][k];
    }
    NameBetweenQuotes(line, i, p, name);
  }

  /** A line that starts with its type character and has a quote at `p`:
      the numbers are scanned from a point before `p`. */
  lemma TypeThenNumbers(line: seq<Byte>, kind: Byte, p: nat) returns (i: nat)
    requires kind == LightType || kind == ShutterType
    requires 0 < p < |line| && line[0] == kind && line[p] == Quote
    ensures SkipSpaces(line, 0) == 0 && At(line, 0) == kind
    ensures i == SkipSpaces(line, 1) && 1 <= i <= p
  {
    assert At(line, 0) == kind;
    i := SkipSpaces(line, 1);
    assert !IsSpace(At(line, p));
  }

  /** Scanning from `i` inside `pre` finds the opening quote at `|pre|` and
      the closing one right after the name. */
  lemma NameBetweenQuotes(line: seq<Byte>, i: nat, p: nat, name: seq<Byte>)
    requires i <= p < |line| && line[p] == Quote
    requires forall k :: i <= k < p ==> line[k] != Quote && line[k] != 0
    requires p + 1 + |name| < |line| && line[p + 1..p + 1 + |name|] == name && line[p + 1 + |name|] == Quote
    requires Plain(name)
    ensures FindQuote(line, i) == p
    ensures FindQuote(line, p + 1) == p + 1 + |name|
  {
    FindQuoteAt(line, i, p);
    forall k | p + 1 <= k < p + 1 + |name|
      ensures line[k] != Quote && line[k] != 0
    {
      assert line[k] == name[k - p - 1];
    }
    FindQuoteAt(line, p + 1, p + 1 + |name|);
  }

  lemma {:induction false} FindQuoteAt(line: seq<Byte>, i: nat, p: nat)
    requires i <= p < |line| && line[p] == Quote
    requires forall k :: i <= k < p ==> line[k] != Quote && line[k] != 0
    ensures FindQuote(line, i) == p
    decreases p - i
  {
    if i < p {
      FindQuoteAt(line, i + 1, p);
    }
  }
}

=== FILE: crc.dfy ===
/** The bus's one-byte checksum (lcn_io.c `lcnCrcStep`, `lcnCrcCalc`). */
module Crc {
  import opened Bytes

  /** The 9-bit sum of a step, `(n & 0x7f) << 2 | (n & 0x180) >> 7`,
      written case by case on the top two bits of `n` (which is below 511
      for byte inputs), so that it stays linear arithmetic. */
  function Scramble(n: int): (t: int)
    requires 0 <= n < 511
    ensures 0 <= t < 511
  {
    if n < 128 then 4 * n
    else if n < 256 then 4 * (n - 128) + 1
    else if n < 384 then 4 * (n - 256) + 2
    else 4 * (n - 384) + 3
  }

  /** The masks of the source: `(n & 0x7f) << 2` is `4 * (n % 128)`,
      `(n & 0x180) >> 7` is `(n / 128) % 4`, and the two never share a bit,
      so their `|` is their sum. */
  lemma ScrambleIsMasked(n: int)
    requires 0 <= n < 511
    ensures Scramble(n) == 4 * (n % 128) + (n / 128) % 4
  {
  }

  /** One checksum step (lcnCrcStep): scramble the sum and reduce a result
      above 0xFF by 0xFF. With byte inputs the result is a byte again, so
      the `unsigned char` the checksum is finally stored in loses nothing. */
  function CrcStep(x: Byte, store: Byte): (c: int)
    ensures 0 <= c <= 255
  {
    var t := Scramble(x + store);
    if t > 0xff then t - 0xff else t
  }

  /** Reference definition of a step: a 9-bit rotation left by two
      (multiplication by 4 modulo 511), folded into a byte. */
  function Rotate9Fold(v: int): int
    requires 0 <= v < 511
  {
    var r := (4 * v) % 511;
    if r > 0xff then r - 0xff else r
  }

  /** The masked-shift step and the rotation agree on every pair of bytes:
      the step really is "rotate the 9-bit sum left by two, then fold". */
  lemma CrcStepIsRotation(x: Byte, store: Byte)
    ensures CrcStep(x, store) == Rotate9Fold(x + store)
  {
    RotateIsScramble(x + store);
  }

  /** Multiplying by 4 modulo 511 is the scramble: each band of 128 values
      wraps around 511 the number of times the band's index says. */
  lemma RotateIsScramble(v: int)
    requires 0 <= v < 511
    ensures (4 * v) % 511 == Scramble(v)
  {
    if v < 128 {
      ModOf(4 * v, 0, 4 * v);
    } else if v < 256 {
      ModOf(4 * v, 1, 4 * (v - 128) + 1);
    } else if v < 384 {
      ModOf(4 * v, 2, 4 * (v - 256) + 2);
    } else {
      ModOf(4 * v, 3, 4 * (v - 384) + 3);
    }
  }

  lemma ModOf(a: int, k: int, t: int)
    requires a == 511 * k + t && 0 <= t < 511
    ensures a % 511 == t
  {
  }

  /** Checksum of the first `n` bytes of `d`, skipping offset 2 where the
      checksum itself is carried (lcnCrcCalc). */
  function CrcCalc(d: seq<Byte>, n: nat): (r: int)
    requires n <= |d|
    ensures 0 <= r <= 255
  {
    if n == 0 then 0
    else if n - 1 == 2 then CrcCalc(d, n - 1)
    else CrcStep(d[n - 1], CrcCalc(d, n - 1))
  }

  /** The checksum over `n` bytes depends only on the bytes below `n`
      other than offset 2. */
  lemma {:induction false} CrcCalcLocal(d: seq<Byte>, e: seq<Byte>, n: nat)
    requires n <= |d| && n <= |e|
    requires forall i :: 0 <= i < n && i != 2 ==> d[i] == e[i]
    ensures CrcCalc(d, n) == CrcCalc(e, n)
  {
    if n > 0 {
      CrcCalcLocal(d, e, n - 1);
    }
  }

  /** Writing any value at offset 2 leaves the checksum unchanged, so a
      frame whose offset 2 holds its own checksum stays consistent. */
  lemma CrcIgnoresOffset2(d: seq<Byte>, n: nat, v: Byte)
    requires 2 < |d| && n <= |d|
    ensures CrcCalc(d[2 := v], n) == CrcCalc(d, n)
  {
    CrcCalcLocal(d[2 := v], d, n);
  }
}

=== FILE: effects.dfy ===
/** Vocabulary shared by the gateway's modules: optional values, outcomes of
    code that can reach undefined behaviour in C, the packet types of the
    gateway's TCP protocol (net_io.h), and the effects an operation emits.

    The gateway mutates globals and writes to sockets, the serial line and
    the history buffer. Here every operation is a pure function that
    returns its new state together with the sequence of effects it
    produced, in the order the C code produces them. */
module Effects {
  import opened Bytes

  datatype Option<T> = None | Some(value: T)

  /** The result of C code that may reach undefined behaviour (reading an
      uninitialised variable, freeing an uninitialised pointer). */
  datatype Outcome<T> = Defined(value: T) | Undefined

  // Packet types of the gateway protocol (net_io.h:28-47).
  const EmptyType: Byte := 0x00
  const VersionGet: Byte := 0x01
  const LightStatusGet: Byte := 0x02
  const LightStatusSet: Byte := 0x03
  const TimeGet: Byte := 0x04
  const ShutterDbGet: Byte := 0x05
  const LightDbGet: Byte := 0x06
  const NetHistGet: Byte := 0x07
  const ShutStatusGet: Byte := 0x08
  const ShutStatusSet: Byte := 0x09
  const VersionReport: Byte := 0x81
  const LightStatusReport: Byte := 0x82
  const TimeReport: Byte := 0x84
  const ShutterDbReport: Byte := 0x85
  const LightDbReport: Byte := 0x86
  const NetHistReport: Byte := 0x87
  const ShutStatusReport: Byte := 0x88
  const RawSend: Byte := 0x70
  const ErrorReport: Byte := 0xFF

  // Error codes of an error report (net_io.h:51-52).
  const ErrServerFull: Byte := 0x01
  const ErrIllType: Byte := 0x02

  /** The kinds of history record (state.c stateLightLog, stateShutLog). */
  const LightKind: Byte := 1
  const ShutterKind: Byte := 2

  datatype Effect =
      /** One 8-byte history record; the wall-clock stamp is added when the
          record is written into the ring. */
    | Log(kind: Byte, moduleId: Byte, unit: Byte, value: Byte)
      /** One gateway packet sent on a client socket (netPakSend). */
    | Send(sock: int, kind: Byte, payload: seq<Byte>)
      /** A socket closed by the gateway. */
    | Close(sock: int)
      /** One frame written to the bus coupler. */
    | BusWrite(frame: seq<Byte>)

  /** Sockets of the occupied client slots, in slot order (a free slot holds
      -1). */
  function Active(slots: seq<int>): (a: seq<int>)
    ensures |a| <= |slots|
    ensures forall i :: 0 <= i < |a| ==> a[i] != -1 && a[i] in slots
    ensures forall s :: s in slots && s != -1 ==> s in a
  {
    if slots == [] then []
    else if slots[0] == -1 then Active(slots[1..])
    else [slots[0]] + Active(slots[1..])
  }

  /** The same packet sent to every occupied client slot, lowest slot first
      (the `for (i=0; i<CLI_NUM; i++) if (_cli[i].sf != -1)` loops). */
  function Broadcast(slots: seq<int>, kind: Byte, payload: seq<Byte>): (es: seq<Effect>)
    ensures |es| == |Active(slots)|
    ensures forall i :: 0 <= i < |es| ==> es[i] == Send(Active(slots)[i], kind, payload)
  {
    seq(|Active(slots)|, i requires 0 <= i < |Active(slots)| => Send(Active(slots)[i], kind, payload))
  }

  /** `floor(0.5 + x)`: rounding to the nearest integer, halves up. Exact
      IEEE rounding is not modelled; this is the rounding on reals. */
  function Round(x: real): (n: int)
    ensures x - 0.5 < n as real <= x + 0.5
  {
    (0.5 + x).Floor
  }

  /** The C string held in a name buffer: the bytes before the first NUL. */
  function CStr(s: seq<Byte>): seq<Byte>
  {
    if s == [] || s[0] == 0 then [] else [s[0]] + CStr(s[1..])
  }

  /** The C string is a prefix without NUL bytes, cut at the first NUL. */
  lemma {:induction false} CStrCut(s: seq<Byte>)
    ensures |CStr(s)| <= |s| && CStr(s) == s[..|CStr(s)|]
    ensures 0 !in CStr(s)
    ensures |CStr(s)| < |s| ==> s[|CStr(s)|] == 0
  {
    if s != [] && s[0] != 0 {
      CStrCut(s[1..]);
    }
  }

  /** A name without NUL bytes is its own C string. */
  lemma {:induction false} CStrNulFree(s: seq<Byte>)
    requires 0 !in s
    ensures CStr(s) == s
  {
    if s != [] {
      CStrNulFree(s[1..]);
    }
  }
}

=== FILE: history.dfy ===
/** The state history ring of state.c: a 4096-byte buffer of 8-byte
    records written round-robin (stateLightLog, stateShutLog) and exported
    oldest-first (stateLightHistGet).

    The write index only ever moves by 8 modulo 4096 from 0, so the buffer
    is modelled as 512 record slots; `ptr` is still the byte index of the
    source. The byte buffer itself is `Flatten(slots)`. */
module History {
  import opened Bytes
  import opened Effects

  const BufSize: nat := 4096   // STATE_BUF_SIZE, 8*512 (state.h:31)
  const SlotCount: nat := 512
  const ZeroRecord: seq<Byte> := [0, 0, 0, 0, 0, 0, 0, 0]

  datatype Hist = Hist(slots: seq<seq<Byte>>, ptr: nat)

  predicate Valid(h: Hist)
  {
    && |h.slots| == SlotCount
    && (forall i :: 0 <= i < |h.slots| ==> |h.slots[i]| == 8)
    && h.ptr % 8 == 0 && h.ptr < BufSize
  }

  predicate AllZero(r: seq<Byte>)
  {
    forall i :: 0 <= i < |r| ==> r[i] == 0
  }

  function Zeros(n: nat): (z: seq<seq<Byte>>)
    ensures |z| == n && forall i :: 0 <= i < n ==> z[i] == ZeroRecord
  {
    seq(n, i => ZeroRecord)
  }

  /** stateBufInit: every byte zero, write index 0. */
  function Init(): (h: Hist)
    ensures Valid(h) && h.ptr == 0
    ensures forall i :: 0 <= i < |h.slots| ==> AllZero(h.slots[i])
  {
    Hist(Zeros(SlotCount), 0)
  }

  /** The record `[t>>24, t>>16, t>>8, t, kind, moduleId, unit, value]`, each
      byte masked with 0xFF: the timestamp big-endian. */
  function Record(tm: nat, kind: Byte, moduleId: Byte, unit: Byte, value: Byte): (r: seq<Byte>)
    ensures |r| == 8
    ensures r[4..] == [kind, moduleId, unit, value]
    ensures kind != 0 ==> !AllZero(r)
  {
    var r: seq<Byte> := [(tm / 0x100_0000) % 256, (tm / 0x1_0000) % 256, (tm / 0x100) % 256, tm % 256,
                         kind, moduleId, unit, value];
    assert r[4] == kind;
    r
  }

  /** Writing one record at the write index and advancing it by 8 modulo
      the buffer size: the index stays a multiple of 8 below 4096 and only
      the slot under it changes. */
  function Write(h: Hist, rec: seq<Byte>): (h': Hist)
    requires Valid(h) && |rec| == 8
    ensures Valid(h')
    ensures h'.ptr == (h.ptr + 8) % BufSize
    ensures h'.slots[h.ptr / 8] == rec
    ensures forall i :: 0 <= i < SlotCount && i != h.ptr / 8 ==> h'.slots[i] == h.slots[i]
  {
    Hist(h.slots[h.ptr / 8 := rec], (h.ptr + 8) % BufSize)
  }

  /** The number of history records among `effects`. */
  function LogCount(effects: seq<Effect>): nat
  {
    if effects == [] then 0 else (if effects[0].Log? then 1 else 0) + LogCount(effects[1..])
  }

  /** Applies the history records among `effects`, stamped with `now`
      (stateLightLog / stateShutLog read the wall clock just before
      writing). Other effects do not touch the ring. */
  function Apply(h: Hist, now: nat, effects: seq<Effect>): (h': Hist)
    requires Valid(h)
    ensures Valid(h')
    ensures h'.ptr == (h.ptr + 8 * LogCount(effects)) % BufSize
    ensures LogCount(effects) == 0 ==> h' == h
    decreases |effects|
  {
    if effects == [] then h
    else
      var e := effects[0];
      var h1 := if e.Log? then Write(h, Record(now, e.kind, e.moduleId, e.unit, e.value)) else h;
      var n := if e.Log? then 1 else 0;
      assert h1.ptr == (h.ptr + 8 * n) % BufSize;
      ModAdd(h.ptr + 8 * n, 8 * LogCount(effects[1..]));
      Apply(h1, now, effects[1..])
  }

  /** Reducing modulo the buffer size before adding does not change the
      sum modulo the buffer size. */
  lemma ModAdd(a: nat, c: nat)
    ensures (a % BufSize + c) % BufSize == (a + c) % BufSize
  {
    var q := a / BufSize;
    assert a + c == (a % BufSize + c) + q * BufSize;
  }

  /** The slots read starting at the write index (the oldest record first). */
  function Rotated(h: Hist): (r: seq<seq<Byte>>)
    requires Valid(h)
    ensures |r| == SlotCount
  {
    h.slots[h.ptr / 8..] + h.slots[..h.ptr / 8]
  }

  /** The slots after the leading run of all-zero ones. */
  function DropZeroPrefix(rs: seq<seq<Byte>>): (r: seq<seq<Byte>>)
    ensures |r| <= |rs| && r == rs[|rs| - |r|..]
    ensures r != [] ==> !AllZero(r[0])
    ensures forall i :: 0 <= i < |rs| - |r| ==> AllZero(rs[i])
  {
    if rs == [] || !AllZero(rs[0]) then rs else DropZeroPrefix(rs[1..])
  }

  /** stateLightHistGet: skip the all-zero records that follow the write
      index, then copy the remaining `4096 - i` bytes cyclically. */
  function Export(h: Hist): (data: seq<Byte>)
    requires Valid(h)
    ensures |data| % 8 == 0 && |data| <= BufSize
    ensures |data| > 0 ==> |data| >= 8 && !AllZero(data[..8])
  {
    var d := DropZeroPrefix(Rotated(h));
    RotatedEights(h);
    DropEights(Rotated(h));
    FlattenEights(d);
    EightsMod(|d|);
    if d != [] then FlattenHead(d); Flatten(d) else Flatten(d)
  }

  lemma {:induction false} FlattenEights(rs: seq<seq<Byte>>)
    requires forall i :: 0 <= i < |rs| ==> |rs[i]| == 8
    ensures |Flatten(rs)| == 8 * |rs|
  {
    if rs != [] {
      FlattenEights(rs[1..]);
    }
  }

  /** The exported history is a whole number of records, at most the whole
      buffer, and the first exported record is not empty. */
  lemma ExportShape(h: Hist)
    requires Valid(h)
    ensures |Export(h)| % 8 == 0 && |Export(h)| <= BufSize
    ensures |Export(h)| > 0 ==> |Export(h)| >= 8 && !AllZero(Export(h)[..8])
  {
    RotatedEights(h);
    var d := DropZeroPrefix(Rotated(h));
    DropEights(Rotated(h));
    FlattenEights(d);
    EightsMod(|d|);
    if d != [] {
      FlattenHead(d);
    }
  }

  lemma EightsMod(k: nat)
    ensures (8 * k) % 8 == 0
  {
  }

  lemma RotatedEights(h: Hist)
    requires Valid(h)
    ensures forall i :: 0 <= i < SlotCount ==> |Rotated(h)[i]| == 8
  {
    var s := h.ptr / 8;
    forall i | 0 <= i < SlotCount
      ensures |Rotated(h)[i]| == 8
    {
      if i < SlotCount - s {
        assert Rotated(h)[i] == h.slots[s + i];
      } else {
        assert Rotated(h)[i] == h.slots[i - (SlotCount - s)];
      }
    }
  }

  lemma {:induction false} DropEights(rs: seq<seq<Byte>>)
    requires forall i :: 0 <= i < |rs| ==> |rs[i]| == 8
    ensures forall i :: 0 <= i < |DropZeroPrefix(rs)| ==> |DropZeroPrefix(rs)[i]| == 8
  {
    if rs != [] && AllZero(rs[0]) {
      DropEights(rs[1..]);
    }
  }

  lemma FlattenHead(d: seq<seq<Byte>>)
    requires d != [] && |d[0]| == 8
    ensures |Flatten(d)| >= 8 && Flatten(d)[..8] == d[0]
  {
    assert Flatten(d) == d[0] + Flatten(d[1..]);
  }

  // ---------------------------------------------------------------------
  // Writing a sequence of records into a fresh buffer

  function WriteAll(h: Hist, recs: seq<seq<Byte>>): (h': Hist)
    requires Valid(h)
    requires forall i :: 0 <= i < |recs| ==> |recs[i]| == 8
    ensures Valid(h')
  {
    if recs == [] then h
    else Write(WriteAll(h, recs[..|recs| - 1]), recs[|recs| - 1])
  }

  /** The last `min(|recs|, 512)` records, oldest first. */
  function Last(recs: seq<seq<Byte>>): seq<seq<Byte>>
  {
    if |recs| <= SlotCount then recs else recs[|recs| - SlotCount..]
  }

  /** What the ring holds, read from the write index, after `recs` were
      written into a zeroed buffer. */
  function Window(recs: seq<seq<Byte>>): (w: seq<seq<Byte>>)
  {
    if |recs| <= SlotCount then Zeros(SlotCount - |recs|) + recs else Last(recs)
  }

  lemma RotatedAfterWrite(h: Hist, rec: seq<Byte>)
    requires Valid(h) && |rec| == 8
    ensures Rotated(Write(h, rec)) == Rotated(h)[1..] + [rec]
  {
    var s := h.ptr / 8;
    var h' := Write(h, rec);
    assert h'.slots == h.slots[..s] + [rec] + h.slots[s + 1..];
    if s < SlotCount - 1 {
      assert h'.ptr / 8 == s + 1;
      assert h'.slots[s + 1..] == h.slots[s + 1..];
      assert h'.slots[..s + 1] == h.slots[..s] + [rec];
      assert Rotated(h)[1..] == h.slots[s + 1..] + h.slots[..s];
    } else {
      assert h'.ptr == 0;
      assert h'.slots == h.slots[..s] + [rec];
      assert Rotated(h)[1..] == h.slots[..s];
    }
  }

  lemma WindowStep(recs: seq<seq<Byte>>, rec: seq<Byte>)
    ensures Window(recs + [rec]) == Window(recs)[1..] + [rec]
  {
    var k := |recs|;
    if k < SlotCount {
      assert Zeros(SlotCount - k)[1..] == Zeros(SlotCount - (k + 1));
    } else if k == SlotCount {
      assert Window(recs) == recs;
      assert (recs + [rec])[1..] == recs[1..] + [rec];
    } else {
      assert (recs + [rec])[k + 1 - SlotCount..] == recs[k - SlotCount..][1..] + [rec];
    }
  }

  /** Invariant of the ring: after writing `recs` from the zeroed buffer,
      the slots read from the write index are the window of `recs`. */
  lemma {:induction false} RotatedWriteAll(recs: seq<seq<Byte>>)
    requires forall i :: 0 <= i < |recs| ==> |recs[i]| == 8
    ensures Rotated(WriteAll(Init(), recs)) == Window(recs)
  {
    if recs == [] {
      assert Init().slots[0..] == Init().slots;
    } else {
      var init := recs[..|recs| - 1];
      var last := recs[|recs| - 1];
      assert init + [last] == recs;
      var h0 := WriteAll(Init(), init);
      RotatedWriteAll(init);
      RotatedAfterWrite(h0, last);
      WindowStep(init, last);
      calc {
        Rotated(WriteAll(Init(), recs));
        Rotated(Write(h0, last));
        Rotated(h0)[1..] + [last];
        Window(init)[1..] + [last];
        Window(recs);
      }
    }
  }

  lemma {:induction false} DropZeros(n: nat, rs: seq<seq<Byte>>)
    requires rs != [] ==> !AllZero(rs[0])
    ensures DropZeroPrefix(Zeros(n) + rs) == rs
  {
    if n > 0 {
      assert (Zeros(n) + rs)[0] == ZeroRecord;
      assert (Zeros(n) + rs)[1..] == Zeros(n - 1) + rs;
      DropZeros(n - 1, rs);
    } else {
      assert Zeros(n) + rs == rs;
    }
  }

  /** From a zeroed buffer, after writing any records that each carry a
      non-zero kind byte, the export is exactly the last min(k, 512)
      records, oldest first. */
  lemma ExportAfterWrites(recs: seq<seq<Byte>>)
    requires forall i :: 0 <= i < |recs| ==> |recs[i]| == 8 && recs[i][4] != 0
    ensures Export(WriteAll(Init(), recs)) == Flatten(Last(recs))
  {
    RotatedWriteAll(recs);
    var l := Last(recs);
    assert l != [] ==> l[0][4] != 0;
    if |recs| <= SlotCount {
      DropZeros(SlotCount - |recs|, recs);
    } else {
      DropZeros(0, l);
    }
  }
}

=== FILE: lcn_frame.dfy ===
/** Bus frames: the length catalogue, the frame builders, validation of a
    received prefix (lcnPakVerify) and the resynchronisation scan
    (lcnPakValidScan) of lcn_io.c. Offsets follow `struct lcnPak_s`:
    0 src (bit-reversed), 1 info, 2 crc, 3 dstSeg, 4 dst, 5 cmd, 6 p1, 7 p2. */
module LcnFrame {
  import opened Bytes
  import opened Crc

  /** The answers of lcnPakVerify: 0 crc-error, 1 unknown+crcOk,
      2 incomplete, 3 valid, 4 known+crcError. */
  datatype Status = CrcError | UnknownCrcOk | Incomplete | Valid | KnownCrcError

  /** Frame length determined by the info byte, 0 when undetermined. */
  function ExpLen(info: Byte): (n: nat)
    ensures n in {0, 6, 8, 12, 20}
    ensures n == 6 <==> info == 0
    ensures n == 8 <==> 4 <= info <= 7
    ensures n == 12 <==> info == 8 || info == 74
    ensures n == 20 <==> info == 12
  {
    if info == 0 then 6
    else if 4 <= info <= 7 then 8
    else if info == 8 then 12
    else if info == 74 then 12
    else if info == 12 then 20
    else 0
  }

  /** A module address is known when some configured light sits on it, or
      it is the broadcast address 1. */
  predicate KnownModule(modules: seq<int>, m: int)
  {
    m == 1 || m in modules
  }

  /** Byte `k` of the caller's array. The source reads the destination
      field at offset 4 even when fewer bytes have been checked; past the end
      of the array that read is undefined in C and reads 0 here. */
  function Field(p: seq<Byte>, k: nat): Byte
  {
    if k < |p| then p[k] else 0
  }

  /** The source address of a frame, decoded from its bit-reversed wire
      form. */
  function Source(p: seq<Byte>): Byte
    requires |p| >= 1
  {
    BitRev(p[0])
  }

  /** lcnPakVerify(p, inLen) with the light modules it consults: a prefix
      is incomplete exactly when it is shorter than 3 bytes or than its
      determined length, and the checksum is taken over the whole prefix
      only when the length is undetermined and both addresses are known. */
  function Verify(p: seq<Byte>, inLen: nat, modules: seq<int>): (st: Status)
    requires inLen <= |p|
    ensures st == Incomplete <==> inLen < 3 || inLen < ExpLen(p[1])
    ensures st in {UnknownCrcOk, CrcError} <==>
              inLen >= 3 && ExpLen(p[1]) == 0 && BothKnown(p, modules)
    ensures inLen >= 3 && st == Valid && ExpLen(p[1]) != 0 ==> CrcCalc(p, ExpLen(p[1])) == p[2]
  {
    if inLen < 3 then Incomplete
    else
      var e := ExpLen(p[1]);
      var srcOk := KnownModule(modules, Source(p));
      var dstOk := KnownModule(modules, Field(p, 4));
      if e != 0 || !srcOk || !dstOk then
        if inLen < e then Incomplete
        else if CrcCalc(p, e) == p[2] then Valid
        else KnownCrcError
      else if CrcCalc(p, inLen) == p[2] then UnknownCrcOk
      else CrcError
  }

  /** Both addresses of the frame are known (the only case in which the
      checksum is taken over the whole supplied length). */
  predicate BothKnown(p: seq<Byte>, modules: seq<int>)
    requires |p| >= 1
  {
    KnownModule(modules, Source(p)) && KnownModule(modules, Field(p, 4))
  }

  /** A prefix is incomplete exactly when it is shorter than 3 bytes or
      shorter than the length its info byte determines. */
  lemma VerifyIncompleteIff(p: seq<Byte>, inLen: nat, modules: seq<int>)
    requires inLen <= |p|
    ensures Verify(p, inLen, modules) == Incomplete
            <==> inLen < 3 || inLen < ExpLen(p[1])
  {
  }

  /** With a determined length, the answer is fixed once that many bytes
      are present: valid exactly when offset 2 holds the checksum of exactly
      the first ExpLen bytes, and unchanged by any longer prefix. */
  lemma VerifyDeterminedLength(p: seq<Byte>, inLen: nat, modules: seq<int>)
    requires 3 <= |p| && inLen <= |p|
    requires ExpLen(p[1]) != 0 && inLen >= ExpLen(p[1])
    ensures Verify(p, inLen, modules) == Verify(p, ExpLen(p[1]), modules)
    ensures Verify(p, inLen, modules) == Valid <==> CrcCalc(p, ExpLen(p[1])) == p[2]
    ensures Verify(p, inLen, modules) in {Valid, KnownCrcError}
  {
  }

  /** Undetermined length with an unknown address: the answer does not
      depend on the length and is valid exactly when offset 2 is zero. */
  lemma VerifyUnknownAddress(p: seq<Byte>, inLen: nat, modules: seq<int>)
    requires 3 <= inLen <= |p|
    requires ExpLen(p[1]) == 0 && !BothKnown(p, modules)
    ensures Verify(p, inLen, modules) == (if p[2] == 0 then Valid else KnownCrcError)
  {
  }

  /** Undetermined length with both addresses known: the checksum is taken
      over the whole prefix and the answer is 1 or 0, never valid or
      incomplete. */
  lemma VerifyKnownVariable(p: seq<Byte>, inLen: nat, modules: seq<int>)
    requires 3 <= inLen <= |p|
    requires ExpLen(p[1]) == 0 && BothKnown(p, modules)
    ensures Verify(p, inLen, modules) in {UnknownCrcOk, CrcError}
    ensures Verify(p, inLen, modules) == UnknownCrcOk <==> CrcCalc(p, inLen) == p[2]
  {
  }

  /** A valid prefix carries at offset 2 the checksum of its first
      ExpLen bytes (ExpLen 0 giving checksum 0). */
  lemma ValidMeansSelfConsistent(p: seq<Byte>, inLen: nat, modules: seq<int>)
    requires inLen <= |p|
    requires Verify(p, inLen, modules) == Valid
    ensures inLen >= 3 && inLen >= ExpLen(p[1])
    ensures p[2] == CrcCalc(p, ExpLen(p[1]))
  {
  }

  /** The answer for a prefix depends only on the bytes checked so far and
      on the destination field. */
  lemma VerifyLocal(p: seq<Byte>, q: seq<Byte>, inLen: nat, modules: seq<int>)
    requires inLen <= |p| && inLen <= |q|
    requires p[..inLen] == q[..inLen] && Field(p, 4) == Field(q, 4)
    ensures Verify(p, inLen, modules) == Verify(q, inLen, modules)
  {
    if inLen >= 3 {
      assert p[0] == q[0] && p[1] == q[1] && p[2] == q[2];
      var e := ExpLen(p[1]);
      if e <= inLen {
        CrcCalcLocal(p, q, e);
      }
      CrcCalcLocal(p, q, inLen);
    }
  }

  // ---------------------------------------------------------------------
  // Frame builders

  /** The standard 8-byte command `[0x80, flag, crc, 0, dest, cmd, p1, p2]`
      with the `int` arguments narrowed to bytes as the C assignments do. */
  function CommandFrame(flag: Byte, dest: int, cmd: int, p1: int, p2: int): (f: seq<Byte>)
    ensures |f| == 8
    ensures f[0] == 0x80 && f[1] == flag && f[3] == 0
    ensures f[4] == ToByte(dest) && f[5] == ToByte(cmd)
    ensures f[6] == ToByte(p1) && f[7] == ToByte(p2)
    ensures f[2] == CrcCalc(f, 8)
  {
    var b: seq<Byte> := [0x80, flag, 0, 0, ToByte(dest), ToByte(cmd), ToByte(p1), ToByte(p2)];
    var c := CrcCalc(b, 8);
    CrcIgnoresOffset2(b, 8, c);
    b[2 := c]
  }

  /** The frame queued by lcnQueueCommandSend and scheduled by
      lcnCommandSendTimed: info 4, no acknowledgement requested. */
  function QueuedCommand(dest: int, cmd: int, p1: int, p2: int): (f: seq<Byte>)
    ensures |f| == 8 && f[0] == 0x80 && f[1] == 4 && f[3] == 0
    ensures f[4] == ToByte(dest) && f[5] == ToByte(cmd)
    ensures f[6] == ToByte(p1) && f[7] == ToByte(p2)
  {
    CommandFrame(4, dest, cmd, p1, p2)
  }

  /** Every command frame the gateway builds is recognised as valid, at
      exactly its 8 bytes, whatever lights are configured. */
  lemma CommandFrameVerifies(flag: Byte, dest: int, cmd: int, p1: int, p2: int, modules: seq<int>)
    requires 4 <= flag <= 7
    ensures Verify(CommandFrame(flag, dest, cmd, p1, p2), 8, modules) == Valid
    ensures forall n :: 0 <= n < 8 ==> Verify(CommandFrame(flag, dest, cmd, p1, p2), n, modules) == Incomplete
  {
  }

  /** lcnPakSend: bytes 0 and 1 are kept, the rest move up by one and the
      checksum of the whole result is inserted at offset 2. */
  function PakSendFrame(data: seq<Byte>): (r: seq<Byte>)
    requires |data| > 5
    ensures |r| == |data| + 1
    ensures r[..2] == data[..2] && r[3..] == data[2..]
    ensures r[2] == CrcCalc(r, |r|)
  {
    var b: seq<Byte> := data[..2] + [0] + data[2..];
    var c := CrcCalc(b, |b|);
    CrcIgnoresOffset2(b, |b|, c);
    b[2 := c]
  }

  /** Deleting offset 2 of a sent frame gives back the caller's data. */
  lemma PakSendDeleteCrc(data: seq<Byte>)
    requires |data| > 5
    ensures PakSendFrame(data)[..2] + PakSendFrame(data)[3..] == data
  {
    var r := PakSendFrame(data);
    assert data == data[..2] + data[2..];
  }

  // ---------------------------------------------------------------------
  // Resynchronisation scan

  /** The inner loop of lcnPakValidScan at one start offset: grow `len`
      from the given value while the answer is "incomplete" and at most
      `max` bytes are available. Returns the last answer and length. */
  function Probe(q: seq<Byte>, len: nat, max: nat, ret: Status, modules: seq<int>): (res: (Status, nat))
    requires max <= |q|
    requires 1 <= len
    decreases max + 1 - len
  {
    if len <= max then
      var r := Verify(q, len, modules);
      if r != Incomplete then (r, len) else Probe(q, len + 1, max, r, modules)
    else (ret, len)
  }

  /** lcnPakValidScan accepts start offset `start`. */
  predicate ScanHit(p: seq<Byte>, start: nat, inLen: nat, modules: seq<int>)
    requires 1 <= start < inLen <= |p|
  {
    var (r, len) := Probe(p[start..], 1, inLen - start, CrcError, modules);
    r == Valid || (r == UnknownCrcOk && len in {6, 8, 12, 20})
  }

  /** lcnPakValidScan from offset `start` on: the first accepted offset,
      or 0 when none is. */
  function ScanFrom(p: seq<Byte>, start: nat, inLen: nat, modules: seq<int>): (r: nat)
    requires 1 <= start && inLen <= |p|
    ensures r == 0 || start <= r < inLen
    ensures r == 0 <==> forall s :: start <= s < inLen ==> !ScanHit(p, s, inLen, modules)
    ensures r != 0 ==> ScanHit(p, r, inLen, modules)
    ensures r != 0 ==> forall s :: start <= s < r ==> !ScanHit(p, s, inLen, modules)
    decreases inLen - start
  {
    if start >= inLen then 0
    else if ScanHit(p, start, inLen, modules) then start
    else ScanFrom(p, start + 1, inLen, modules)
  }

  /** lcnPakValidScan: number of garbage bytes before the first frame
      found, 0 if there is none. */
  function ValidScan(p: seq<Byte>, inLen: nat, modules: seq<int>): (r: nat)
    requires inLen <= |p|
    ensures r == 0 || 1 <= r < inLen
  {
    ScanFrom(p, 1, inLen, modules)
  }

  /** The probe at one start offset stops at the first non-incomplete
      answer: every shorter length from `len` on was incomplete. */
  lemma {:induction false} ProbeFirst(q: seq<Byte>, len: nat, max: nat, ret: Status, modules: seq<int>)
    requires max <= |q| && 1 <= len <= max + 1
    ensures var (r, l) := Probe(q, len, max, ret, modules);
            len <= l <= max + 1
            && (forall j :: len <= j < l ==> Verify(q, j, modules) == Incomplete)
            && (l <= max ==> r == Verify(q, l, modules) && r != Incomplete)
            && (l == max + 1 ==> r == (if len <= max then Incomplete else ret))
    decreases max + 1 - len
  {
    if len <= max && Verify(q, len, modules) == Incomplete {
      ProbeFirst(q, len + 1, max, Verify(q, len, modules), modules);
    }
  }

  /** A probe from length 1 that ends on "unknown, checksum ok" ends at
      length 3: an undetermined-length prefix is answered as soon as three
      bytes are present. */
  lemma ProbeUnknownAtThree(q: seq<Byte>, max: nat, modules: seq<int>)
    requires 1 <= max <= |q|
    requires Probe(q, 1, max, CrcError, modules).0 == UnknownCrcOk
    ensures Probe(q, 1, max, CrcError, modules).1 == 3
  {
    ProbeFirst(q, 1, max, CrcError, modules);
    var (r, l) := Probe(q, 1, max, CrcError, modules);
    assert ExpLen(q[1]) == 0 && BothKnown(q, modules);
    assert Verify(q, 3, modules) != Incomplete;
  }

  /** The "valid checksum, typical length" branch of lcnPakValidScan never
      fires: 3 is not a typical length. So every accepted offset is one where
      verification answered "valid". */
  lemma ScanHitMeansValid(p: seq<Byte>, start: nat, inLen: nat, modules: seq<int>)
    requires 1 <= start < inLen <= |p|
    requires ScanHit(p, start, inLen, modules)
    ensures Probe(p[start..], 1, inLen - start, CrcError, modules).0 == Valid
    ensures var l := Probe(p[start..], 1, inLen - start, CrcError, modules).1;
            3 <= l <= inLen - start && Verify(p[start..], l, modules) == Valid
  {
    var q := p[start..];
    ProbeFirst(q, 1, inLen - start, CrcError, modules);
    if Probe(q, 1, inLen - start, CrcError, modules).0 == UnknownCrcOk {
      ProbeUnknownAtThree(q, inLen - start, modules);
    }
  }

  /** Every offset the scan returns starts a frame that verification
      accepts within the scanned bytes. */
  lemma ValidScanFindsValid(p: seq<Byte>, inLen: nat, modules: seq<int>)
    requires inLen <= |p|
    requires ValidScan(p, inLen, modules) != 0
    ensures var s := ValidScan(p, inLen, modules);
            exists l :: 3 <= l <= inLen - s && Verify(p[s..], l, modules) == Valid
  {
    var s := ValidScan(p, inLen, modules);
    ScanHitMeansValid(p, s, inLen, modules);
  }
}

=== FILE: lcn_proc.dfy ===
/** What the gateway does with a frame received from the bus (lcnPakProc in
    lcn_io.c): an acknowledgement releases the waiting frame, a module's
    output status report and direct output commands update the lights,
    relay commands update the shutters, and any other command makes the
    addressed module due for a status refresh.

    Decoding is separated from its effect: `Decode` turns the frame into
    actions, `Apply` performs them in order. */
module LcnProc {
  import opened Bytes
  import opened Effects
  import opened LcnFrame
  import opened LcnRx
  import opened LcnRxExample
  import opened Lights
  import opened Shutters
  import opened LcnQueue
  import opened Serv

  datatype Action =
    | Ack(src: Byte, dst: Byte)               // raw wire bytes 0 and 4 of an acknowledgement
    | LightSet(m: int, o: int, v: int)        // stateLightUpdate(m, o, v)
    | ShutMove(m: int, r: int, dir: int)      // stateShutUpdate(m, r, dir)
    | Refresh(m: int)                         // yaliScheduleRefresh(m)

  /** Relay patterns of one shutter in a relay command (0x13): the upper
      two bits from p1, the lower two from p2. */
  const Stop: int := 0x11

  /** The two-bit slot `i` of a relay byte: `(b >> 2i) & 3`. */
  function Slot(b: Byte, i: nat): int
  {
    (b / Pow4(i)) % 4
  }

  /** What slot `i` of a relay command means for shutter `i + 1`: stop,
      up, down, or nothing. */
  function SlotAction(dst: int, p1: Byte, p2: Byte, i: nat): (acts: seq<Action>)
    ensures |acts| <= 1
    ensures forall k :: 0 <= k < |acts| ==> acts[k].ShutMove? && acts[k].m == dst && acts[k].r == i + 1
  {
    var tmp := Slot(p1, i) * 16 + Slot(p2, i);
    if tmp == Stop then [ShutMove(dst, i + 1, 0)]
    else if tmp == Up then [ShutMove(dst, i + 1, 1)]
    else if tmp == Down then [ShutMove(dst, i + 1, -1)]
    else []
  }

  /** The shutter actions of relay command p1, p2, shutters 1 to 4 in
      order. */
  function RelayActions(dst: int, p1: Byte, p2: Byte): (acts: seq<Action>)
    ensures forall k :: 0 <= k < |acts| ==> acts[k].ShutMove? && acts[k].m == dst
  {
    SlotAction(dst, p1, p2, 0) + SlotAction(dst, p1, p2, 1)
      + SlotAction(dst, p1, p2, 2) + SlotAction(dst, p1, p2, 3)
  }

  /** An 8-byte command frame (info 4 or 5) addressed to module `p[4]`. */
  function Direct(p: seq<Byte>): (acts: seq<Action>)
    requires |p| == 8
    ensures forall k :: 0 <= k < |acts| ==> !acts[k].Ack?
  {
    var dst := p[4] as int;
    var cmd := p[5];
    var p1: int := p[6];
    var p2 := p[7];
    if cmd == 4 && p1 <= 0xFA then [LightSet(dst, 1, p1 * 2)]
    else if cmd == 5 && p1 <= 0xFA then [LightSet(dst, 2, p1 * 2)]
    else if cmd == 3 && p1 <= 0xFA then [LightSet(dst, 3, p1 * 2)]
    else if cmd == 1 && p1 == 0xFA then [LightSet(dst, 1, 0), LightSet(dst, 2, 0), LightSet(dst, 3, 0)]
    else if cmd == 1 && p1 == 0xF8 then [LightSet(dst, 1, 100), LightSet(dst, 2, 100), LightSet(dst, 3, 100)]
    else if cmd == 1 && p1 == 0xCC && p2 == 0xCC then [LightSet(dst, 1, 100), LightSet(dst, 2, 100)]
    else if cmd == 1 && p1 == 0xFD && p2 == 0xFD then [LightSet(dst, 1, 100), LightSet(dst, 2, 100)]
    else if cmd == 1 && p1 == 0x00 && p2 == 0x00 then [LightSet(dst, 1, 0), LightSet(dst, 2, 0)]
    else if cmd == 19 then RelayActions(dst, p[6], p2)
    else [Refresh(dst)]
  }

  /** A module's output status report: 20 bytes, info 12, command 0x6E with
      0x7B, 0x01; outputs 1..3 at bytes 8, 11 and 14, in half percent. */
  predicate IsStatusReport(p: seq<Byte>)
  {
    |p| == 20 && p[1] == 12 && p[5] == 0x6E && p[6] == 0x7B && p[7] == 0x01
  }

  /** The frame lengths at which an acknowledgement (info 0) is taken. */
  type AckRule = n: nat | n == 6 || n == 8 witness 8

  /** The three outputs of a status report, in half percent halved, for
      the module the report comes from. */
  function StatusActions(p: seq<Byte>): (acts: seq<Action>)
    ensures forall k :: 0 <= k < |acts| ==> acts[k].LightSet?
  {
    if IsStatusReport(p)
    then var src := BitRev(p[0]) as int;
         [LightSet(src, 1, p[8] / 2), LightSet(src, 2, p[11] / 2), LightSet(src, 3, p[14] / 2)]
    else []
  }

  /** lcnPakProc(p, |p|) as actions, taking acknowledgements of length
      `ackLen`: the source checks for 8 bytes. An acknowledgement, when
      taken, is the first action and the only one. */
  function DecodeWith(p: seq<Byte>, ackLen: AckRule): (acts: seq<Action>)
    ensures |p| == ackLen && p[1] == 0 ==> |acts| >= 1 && acts[0] == Ack(p[0], p[4])
    ensures forall k :: 0 <= k < |acts| && acts[k].Ack? ==> k == 0 && |p| == ackLen && p[1] == 0
  {
    var ack := if |p| == ackLen && p[1] == 0 then [Ack(p[0], p[4])] else [];
    var direct := if |p| == 8 && (p[1] == 4 || p[1] == 5) then Direct(p) else [];
    ack + (StatusActions(p) + direct)
  }

  /** lcnPakProc as written: acknowledgements are taken at 8 bytes. An
      8-byte info-0 chunk is an acknowledgement and nothing else, and no
      other frame is one; a module's status report sets its three outputs;
      a frame of any other length does nothing. */
  function DecodeAsWritten(p: seq<Byte>): (acts: seq<Action>)
    ensures |p| == 8 && p[1] == 0 ==> acts == [Ack(p[0], p[4])]
    ensures forall k :: 0 <= k < |acts| && acts[k].Ack? ==> |p| == 8 && p[1] == 0
    ensures IsStatusReport(p) ==>
              |acts| == 3 && forall k :: 0 <= k < 3 ==> acts[k] == LightSet(BitRev(p[0]) as int, k + 1, p[3 * k + 8] / 2)
    ensures |p| != 8 && !IsStatusReport(p) ==> acts == []
  {
    DecodeWith(p, 8)
  }

  /** Acknowledgements taken at their frame length, 6 bytes: a 6-byte
      info-0 frame is an acknowledgement and nothing else, and no other
      frame is one. Status reports and 8-byte commands decode as in
      `DecodeAsWritten`; a frame of any other length does nothing. */
  function Decode(p: seq<Byte>): (acts: seq<Action>)
    ensures |p| == 6 && p[1] == 0 ==> acts == [Ack(p[0], p[4])]
    ensures forall k :: 0 <= k < |acts| && acts[k].Ack? ==> |p| == 6 && p[1] == 0
    ensures IsStatusReport(p) ==>
              |acts| == 3 && forall k :: 0 <= k < 3 ==> acts[k] == LightSet(BitRev(p[0]) as int, k + 1, p[3 * k + 8] / 2)
    ensures |p| == 8 ==> acts == (if p[1] == 4 || p[1] == 5 then Direct(p) else [])
    ensures |p| != 6 && |p| != 8 && !IsStatusReport(p) ==> acts == []
  {
    DecodeWith(p, 6)
  }

  /** As written, a frame handed over at exactly its own length is never
      taken as an acknowledgement: an info-0 frame is 6 bytes long and the
      check wants 8. Every frame of the corrected loop has its own length
      (`RestartFramesExact`), so a cleanly received acknowledgement is
      ignored. */
  lemma ExactFrameNotAckAsWritten(p: seq<Byte>)
    requires |p| >= 3 && |p| == FrameLen(p)
    ensures forall k :: 0 <= k < |DecodeAsWritten(p)| ==> !DecodeAsWritten(p)[k].Ack?
  {
    assert ExpLen(0) == 6;
  }

  /** What does reach the 8-byte check as written: the acknowledgement of
      the example burst, which the loop as written hands over with two
      trailing bytes after the resync. The corrected loop hands it over at
      6 bytes, where the corrected decoding takes it. */
  lemma ResyncAckTakenAsWritten(b: seq<Byte>, sh: seq<Byte>)
    requires b == Burst && sh == Shifted
    ensures var ds := RxLoop(b, 9, 0, [], KeepChecked).3;
            |ds| == 2 && ds[1].Frame? && !FramesExact(ds)
            && DecodeAsWritten(ds[1].bytes) == [Ack(4, 0)]
    ensures var ds := RxLoop(b, 9, 0, [], Restart).3;
            |ds| == 2 && ds[1].Frame? && Decode(ds[1].bytes) == [Ack(4, 0)]
            && DecodeAsWritten(ds[1].bytes) == []
  {
    ShiftBurst();
    AsWrittenOverlongFrame(b, sh);
    var p := sh[..8];
    AckAtEight(p);
    assert |p| != FrameLen(p);
    RestartExactFrame(b, sh);
    AckDecoded(sh[..6]);
  }

  /** An 8-byte info-0 chunk is taken as an acknowledgement as written and
      is not one with the 6-byte rule. */
  lemma AckAtEight(p: seq<Byte>)
    requires |p| == 8 && p[1] == 0
    ensures DecodeAsWritten(p) == [Ack(p[0], p[4])]
    ensures forall k :: 0 <= k < |Decode(p)| ==> !Decode(p)[k].Ack?
  {
  }

  /** The other way in, as written: eight info-0 bytes left in the buffer
      for more than a tick are flushed whole and taken as an
      acknowledgement, whatever their checksum. */
  lemma StaleAckTakenAsWritten(st: RxState, tick: int)
    requires RxInv(st) && st.rcpos == 8 && st.buf[1] == 0 && tick - st.ltime > 1
    ensures var ds := Prepare(st, tick).1;
            ds == [Stale(st.buf[..8])]
            && DecodeAsWritten(ds[0].bytes)[0] == Ack(st.buf[0], st.buf[4])
  {
    StaleFlushFreesBuffer(st, tick);
  }

  /** With the 6-byte rule, an acknowledgement accepted by the receive loop
      is decoded as exactly one action; as written it yields nothing. */
  lemma AckDecoded(p: seq<Byte>)
    requires |p| == 6 && p[1] == 0
    ensures Decode(p) == [Ack(p[0], p[4])]
    ensures DecodeAsWritten(p) == []
  {
  }

  // ---------------------------------------------------------------------
  // Round trips against the frames the gateway itself sends

  /** The start pattern of a direction (0x32 up, 0x30 down) or the stop
      pattern 0x11, and the direction a shutter is then seen to move in. */
  predicate IsPattern(cmd: int)
  {
    cmd == Up || cmd == Down || cmd == Stop
  }

  function PatternDir(cmd: int): int
  {
    if cmd == Up then 1 else if cmd == Down then -1 else 0
  }

  /** The relay frames stateShutAdapt plans for shutter `r` of 1..4 decode
      back to a movement of that shutter alone, in the planned direction;
      the stop frame (pattern 0x11) decodes to a stop of that shutter. */
  lemma RelayRoundTrip(m: int, r: int, cmd: int)
    requires 1 <= r <= 4 && IsPattern(cmd)
    ensures var i := Pow4(r - 1);
            Decode(QueuedCommand(m, 0x13, ((cmd / 16) % 4) * i, (cmd % 4) * i))
              == [ShutMove(ToByte(m), r, PatternDir(cmd))]
  {
    var i := Pow4(r - 1);
    var p1 := ((cmd / 16) % 4) * i;
    var p2 := (cmd % 4) * i;
    RelayDecode(ToByte(m), r, cmd);
    var f := QueuedCommand(m, 0x13, p1, p2);
    assert f[5] == 19 && f[6] == p1 && f[7] == p2;
    DecodeRelayFrame(f);
  }

  lemma DecodeRelayFrame(f: seq<Byte>)
    requires |f| == 8 && f[1] == 4 && f[5] == 19
    ensures Decode(f) == RelayActions(f[4], f[6], f[7])
  {
  }

  /** Relay bytes with only one shutter's bits set decode to that
      shutter's pattern only. */
  lemma RelayDecode(dst: int, r: int, cmd: int)
    requires 1 <= r <= 4 && IsPattern(cmd)
    ensures var i := Pow4(r - 1);
            0 <= ((cmd / 16) % 4) * i < 256 && 0 <= (cmd % 4) * i < 256
            && RelayActions(dst, ((cmd / 16) % 4) * i, (cmd % 4) * i) == [ShutMove(dst, r, PatternDir(cmd))]
  {
    assert Pow4(0) == 1 && Pow4(1) == 4 && Pow4(2) == 16 && Pow4(3) == 64;
    var hi := (cmd / 16) % 4;
    var lo := cmd % 4;
    assert cmd == Up ==> hi == 3 && lo == 2;
    assert cmd == Down ==> hi == 3 && lo == 0;
    assert cmd == Stop ==> hi == 1 && lo == 1;
    RelayDecodeAt(dst, r, Pow4(r - 1), hi, lo, PatternDir(cmd));
  }

  /** The same with the shift `i` of shutter `r` and the two-bit pattern
      `hi`/`lo` given as numbers. */
  lemma RelayDecodeAt(dst: int, r: int, i: int, hi: int, lo: int, dir: int)
    requires (r, i) in [(1, 1), (2, 4), (3, 16), (4, 64)]
    requires (hi, lo, dir) in [(3, 2, 1), (3, 0, -1), (1, 1, 0)]
    ensures 0 <= hi * i < 256 && 0 <= lo * i < 256
    ensures RelayActions(dst, hi * i, lo * i) == [ShutMove(dst, r, dir)]
  {
    if r == 1 {
      RelayDecode1(dst, hi, lo, dir);
    } else if r == 2 {
      RelayDecode2(dst, hi, lo, dir);
    } else if r == 3 {
      RelayDecode3(dst, hi, lo, dir);
    } else if r == 4 {
      RelayDecode4(dst, hi, lo, dir);
    }
  }

  lemma RelayDecode1(dst: int, hi: int, lo: int, dir: int)
    requires (hi, lo, dir) in [(3, 2, 1), (3, 0, -1), (1, 1, 0)]
    ensures 0 <= hi * 1 < 256 && 0 <= lo * 1 < 256
    ensures RelayActions(dst, hi * 1, lo * 1) == [ShutMove(dst, 1, dir)]
  {
    if (hi, lo, dir) == (3, 2, 1) {
      assert RelayActions(dst, 3, 2) == [ShutMove(dst, 1, 1)];
    } else if (hi, lo, dir) == (3, 0, -1) {
      assert RelayActions(dst, 3, 0) == [ShutMove(dst, 1, -1)];
    } else if (hi, lo, dir) == (1, 1, 0) {
      assert RelayActions(dst, 1, 1) == [ShutMove(dst, 1, 0)];
    }
  }

  lemma RelayDecode2(dst: int, hi: int, lo: int, dir: int)
    requires (hi, lo, dir) in [(3, 2, 1), (3, 0, -1), (1, 1, 0)]
    ensures 0 <= hi * 4 < 256 && 0 <= lo * 4 < 256
    ensures RelayActions(dst, hi * 4, lo * 4) == [ShutMove(dst, 2, dir)]
  {
    if (hi, lo, dir) == (3, 2, 1) {
      assert RelayActions(dst, 12, 8) == [ShutMove(dst, 2, 1)];
    } else if (hi, lo, dir) == (3, 0, -1) {
      assert RelayActions(dst, 12, 0) == [ShutMove(dst, 2, -1)];
    } else if (hi, lo, dir) == (1, 1, 0) {
      assert RelayActions(dst, 4, 4) == [ShutMove(dst, 2, 0)];
    }
  }

  lemma RelayDecode3(dst: int, hi: int, lo: int, dir: int)
    requires (hi, lo, dir) in [(3, 2, 1), (3, 0, -1), (1, 1, 0)]
    ensures 0 <= hi * 16 < 256 && 0 <= lo * 16 < 256
    ensures RelayActions(dst, hi * 16, lo * 16) == [ShutMove(dst, 3, dir)]
  {
    if (hi, lo, dir) == (3, 2, 1) {
      assert RelayActions(dst, 48, 32) == [ShutMove(dst, 3, 1)];
    } else if (hi, lo, dir) == (3, 0, -1) {
      assert RelayActions(dst, 48, 0) == [ShutMove(dst, 3, -1)];
    } else if (hi, lo, dir) == (1, 1, 0) {
      assert RelayActions(dst, 16, 16) == [ShutMove(dst, 3, 0)];
    }
  }

  lemma RelayDecode4(dst: int, hi: int, lo: int, dir: int)
    requires (hi, lo, dir) in [(3, 2, 1), (3, 0, -1), (1, 1, 0)]
    ensures 0 <= hi * 64 < 256 && 0 <= lo * 64 < 256
    ensures RelayActions(dst, hi * 64, lo * 64) == [ShutMove(dst, 4, dir)]
  {
    if (hi, lo, dir) == (3, 2, 1) {
      assert RelayActions(dst, 192, 128) == [ShutMove(dst, 4, 1)];
    } else if (hi, lo, dir) == (3, 0, -1) {
      assert RelayActions(dst, 192, 0) == [ShutMove(dst, 4, -1)];
    } else if (hi, lo, dir) == (1, 1, 0) {
      assert RelayActions(dst, 64, 64) == [ShutMove(dst, 4, 0)];
    }
  }

  /** What a client's LIGHTSTATUSSET for output `o` queues (command 4, 5
      or 3 with the value halved, capped at 100) is read back from the bus
      as the same output set to the even value at or below the request. */
  lemma LightCommandRoundTrip(m: int, o: int, v: Byte)
    requires 1 <= o <= 3
    ensures var cmd := if o == 1 then 4 else if o == 2 then 5 else 3;
            var half := (if v > 100 then 100 else v) / 2;
            Decode(QueuedCommand(m, cmd, half, 4)) == [LightSet(ToByte(m), o, 2 * half)]
  {
    var cmd := if o == 1 then 4 else if o == 2 then 5 else 3;
    var half := (if v > 100 then 100 else v) / 2;
    var f := QueuedCommand(m, cmd, half, 4);
    assert f[1] == 4 && f[4] == ToByte(m) && f[5] == cmd && f[6] == half;
  }

  // ---------------------------------------------------------------------
  // Performing the actions

  /** The tables lcnPakProc changes. */
  datatype Tables = Tables(lights: seq<Light>, shutters: seq<Shutter>, sendq: SendQueue)

  predicate TablesOk(t: Tables)
  {
    AllSane(t.shutters) && StatesInRange(t.lights)
  }

  /** The acknowledgement branch: both bytes bit-reversed and compared with
      the waiting frame's destination and source. */
  function AckFrame(a: Action): seq<Byte>
    requires a.Ack?
  {
    [a.src, 0, 0, 0, a.dst, 0]
  }

  /** One action at wall-clock second `now` and tick `tick`, with the
      client slots `slots` to report to. */
  function Step(t: Tables, a: Action, now: int, tick: nat, slots: seq<int>): (r: (Tables, seq<Effect>))
    requires TablesOk(t)
    ensures TablesOk(r.0)
    ensures |r.0.lights| == |t.lights| && |r.0.shutters| == |t.shutters|
  {
    match a
    case Ack(_, _) => (t.(sendq := AckClear(t.sendq, AckFrame(a))), [])
    case LightSet(m, o, v) =>
      UpdateKeepsStates(t.lights, m, o, v, now, slots);
      var (ls, es) := Lights.Update(t.lights, m, o, v, now, slots);
      (t.(lights := ls), es)
    case ShutMove(m, r, dir) =>
      var (ss, es) := Shutters.Update(t.shutters, m, r, dir, tick, slots);
      (t.(shutters := ss), es)
    case Refresh(m) => (t.(lights := ScheduleRefresh(t.lights, m, now)), [])
  }

  function Apply(t: Tables, acts: seq<Action>, now: int, tick: nat, slots: seq<int>): (r: (Tables, seq<Effect>))
    requires TablesOk(t)
    ensures TablesOk(r.0)
    ensures |r.0.lights| == |t.lights| && |r.0.shutters| == |t.shutters|
    decreases |acts|
  {
    if acts == [] then (t, [])
    else
      var (t1, e1) := Step(t, acts[0], now, tick, slots);
      var (t2, e2) := Apply(t1, acts[1..], now, tick, slots);
      (t2, e1 + e2)
  }

  /** lcnPakProc on a dispatched frame: the wall clock is read first
      (yaliTimeAdapt), so `now` is that reading. */
  function PakProc(t: Tables, p: seq<Byte>, now: int, tick: nat, slots: seq<int>): (r: (Tables, seq<Effect>))
    requires TablesOk(t)
    ensures TablesOk(r.0)
  {
    Apply(t, Decode(p), now, tick, slots)
  }

  /** With the 6-byte rule, the acknowledgement that the addressed module
      sends back for the waiting frame releases it. */
  lemma AckReleasesWaiting(t: Tables, p: seq<Byte>, now: int, tick: nat, slots: seq<int>)
    requires TablesOk(t)
    requires t.sendq.wait.Some? && |t.sendq.wait.value| >= 6
    requires |p| == 6 && p[1] == 0
    requires p[0] == BitRev(t.sendq.wait.value[4]) && p[4] == BitRev(t.sendq.wait.value[0])
    ensures PakProc(t, p, now, tick, slots).0.sendq.wait.None?
    ensures PakProc(t, p, now, tick, slots).0.sendq.queue == t.sendq.queue
  {
    AckDecoded(p);
    ApplyOne(t, Ack(p[0], p[4]), now, tick, slots);
    var w := t.sendq.wait.value;
    AckMatchesIff(w, AckFrame(Ack(p[0], p[4])));
  }

  lemma ApplyOne(t: Tables, a: Action, now: int, tick: nat, slots: seq<int>)
    requires TablesOk(t)
    ensures Apply(t, [a], now, tick, slots) == Step(t, a, now, tick, slots)
  {
    assert [a][1..] == [];
    var (t1, e1) := Step(t, a, now, tick, slots);
    assert Apply(t1, [], now, tick, slots) == (t1, []);
    assert e1 + [] == e1;
  }
}

=== FILE: lcn_queue.dfy ===
/** The outgoing bus queue of lcn_io.c: frames waiting to be written to the
    bus coupler, the one frame (if any) waiting for an acknowledgement, and
    its repetition count (`_lcnSendQueue`, `_lcnSendAcqWait`,
    `_lcnSendRepCount`). lcnSendNext runs once per tick. */
module LcnQueue {
  import opened Bytes
  import opened Effects

  datatype SendQueue = SendQueue(queue: seq<seq<Byte>>, wait: Option<seq<Byte>>, rep: int)

  const Empty: SendQueue := SendQueue([], None, 0)

  /** How often a frame waiting for an acknowledgement is written in all. */
  const Tries: nat := 5

  /** lcnQueueAdd on the send queue: append at the tail. */
  function Add(s: SendQueue, frame: seq<Byte>): (s': SendQueue)
    ensures |s'.queue| == |s.queue| + 1 && s'.wait == s.wait && s'.rep == s.rep
    ensures s'.queue[..|s.queue|] == s.queue && s'.queue[|s.queue|] == frame
  {
    s.(queue := s.queue + [frame])
  }

  /** A frame with info byte 5 asks the receiver for an acknowledgement. */
  predicate NeedsAck(frame: seq<Byte>)
  {
    |frame| >= 6 && frame[1] == 5
  }

  /** The bus write of a frame, when a bus interface is configured. */
  function Emit(frame: seq<Byte>, iface: bool): seq<Effect>
  {
    if iface then [BusWrite(frame)] else []
  }

  /** lcnQueueGet, then the frame is written; one that asks for an
      acknowledgement is kept as the waiting frame. */
  function Dequeue(s: SendQueue, iface: bool): (r: (SendQueue, seq<Effect>))
    requires s.wait.None?
    ensures r.0.rep == 0
    ensures s.queue == [] ==> r == (s.(rep := 0), [])
    ensures s.queue != [] ==>
              r.0.queue == s.queue[1..] && r.1 == Emit(s.queue[0], iface)
              && (r.0.wait.Some? <==> NeedsAck(s.queue[0]))
              && (r.0.wait.Some? ==> r.0.wait.value == s.queue[0])
  {
    if s.queue == [] then (s.(rep := 0), [])
    else
      var p := s.queue[0];
      (SendQueue(s.queue[1..], if NeedsAck(p) then Some(p) else None, 0), Emit(p, iface))
  }

  /** lcnSendNext as written. A waiting frame is repeated while the
      incremented count stays below 5; at 5 the code frees its local
      pointer before anything was assigned to it, which is undefined. */
  function SendNextAsWritten(s: SendQueue, iface: bool): (r: Outcome<(SendQueue, seq<Effect>)>)
    ensures r.Undefined? <==> s.wait.Some? && s.rep + 1 >= Tries
  {
    match s.wait
    case Some(w) =>
      if s.rep + 1 < Tries then Defined((s.(rep := s.rep + 1), Emit(w, iface)))
      else Undefined
    case None => Defined(Dequeue(s, iface))
  }

  /** lcnSendNext as intended: at the fifth repetition the waiting frame is
      dropped, and the next queued frame is sent in the same call. */
  function SendNext(s: SendQueue, iface: bool): (r: (SendQueue, seq<Effect>))
    ensures s.wait.Some? && s.rep + 1 < Tries ==>
              r == (s.(rep := s.rep + 1), Emit(s.wait.value, iface))
    ensures s.wait.None? || s.rep + 1 >= Tries ==> r == Dequeue(s.(wait := None), iface)
  {
    match s.wait
    case Some(w) =>
      if s.rep + 1 < Tries then (s.(rep := s.rep + 1), Emit(w, iface))
      else Dequeue(s.(wait := None), iface)
    case None => Dequeue(s, iface)
  }

  /** Both agree wherever the code is defined. */
  lemma SendNextAgrees(s: SendQueue, iface: bool)
    requires SendNextAsWritten(s, iface).Defined?
    ensures SendNextAsWritten(s, iface).value == SendNext(s, iface)
  {
  }

  /** `n` consecutive calls, one per tick, with the effects concatenated. */
  function Run(s: SendQueue, n: nat, iface: bool): (SendQueue, seq<Effect>)
    decreases n
  {
    if n == 0 then (s, [])
    else
      var (s1, e1) := SendNext(s, iface);
      var (s2, e2) := Run(s1, n - 1, iface);
      (s2, e1 + e2)
  }

  function Writes(frame: seq<Byte>, n: nat): (es: seq<Effect>)
    ensures |es| == n && forall i :: 0 <= i < n ==> es[i] == BusWrite(frame)
  {
    if n == 0 then [] else [BusWrite(frame)] + Writes(frame, n - 1)
  }

  /** A waiting frame that has been written `rep + 1` times is written
      again in each of the next `4 - rep` calls, and nothing else happens. */
  lemma {:induction false} Retries(rest: seq<seq<Byte>>, w: seq<Byte>, rep: nat)
    requires rep < Tries
    ensures Run(SendQueue(rest, Some(w), rep), Tries - 1 - rep, true)
            == (SendQueue(rest, Some(w), Tries - 1), Writes(w, Tries - 1 - rep))
    decreases Tries - rep
  {
    if rep < Tries - 1 {
      Retries(rest, w, rep + 1);
    }
  }

  /** A frame asking for an acknowledgement that never comes is written
      five times in five calls; the sixth call gives up on it and sends the
      next queued frame instead. */
  lemma UnacknowledgedFrameFiveWrites(w: seq<Byte>, rest: seq<seq<Byte>>)
    requires NeedsAck(w)
    ensures var (s5, es) := Run(SendQueue([w] + rest, None, 0), Tries, true);
            s5 == SendQueue(rest, Some(w), Tries - 1) && es == Writes(w, Tries)
            && SendNext(s5, true).1 == (if rest == [] then [] else [BusWrite(rest[0])])
            && SendNext(s5, true).0.queue == (if rest == [] then [] else rest[1..])
  {
    var s0 := SendQueue([w] + rest, None, 0);
    assert s0.queue[1..] == rest;
    var (s1, e1) := SendNext(s0, true);
    assert s1 == SendQueue(rest, Some(w), 0) && e1 == [BusWrite(w)];
    Retries(rest, w, 0);
    assert Writes(w, Tries) == [BusWrite(w)] + Writes(w, Tries - 1);
  }

  /** As written, that sixth call is undefined behaviour. */
  lemma UnacknowledgedFrameAsWritten(w: seq<Byte>, rest: seq<seq<Byte>>, iface: bool)
    ensures SendNextAsWritten(SendQueue(rest, Some(w), Tries - 1), iface).Undefined?
  {
  }

  predicate NoAckWanted(q: seq<seq<Byte>>)
  {
    forall i :: 0 <= i < |q| ==> !NeedsAck(q[i])
  }

  /** Frames that ask for no acknowledgement leave the queue in FIFO order,
      one per call, and the queue is then empty. */
  lemma {:induction false} DrainInOrder(q: seq<seq<Byte>>, rep: int)
    requires NoAckWanted(q)
    ensures Run(SendQueue(q, None, rep), |q|, true).1 == seq(|q|, i requires 0 <= i < |q| => BusWrite(q[i]))
    ensures |q| > 0 ==> Run(SendQueue(q, None, rep), |q|, true).0 == Empty
  {
    if q != [] {
      DrainInOrder(q[1..], 0);
      var (s1, e1) := SendNext(SendQueue(q, None, rep), true);
      assert s1 == SendQueue(q[1..], None, 0) && e1 == [BusWrite(q[0])];
      var expected := seq(|q|, i requires 0 <= i < |q| => BusWrite(q[i]));
      var tail := seq(|q[1..]|, i requires 0 <= i < |q[1..]| => BusWrite(q[1..][i]));
      assert expected == [BusWrite(q[0])] + tail;
    }
  }

  // ---------------------------------------------------------------------
  // Acknowledgement (the info-0 branch of lcnPakProc)

  /** An acknowledgement frame `f` (offsets as in `struct lcnPak_s`)
      releases the waiting frame `w` when the ack's source, decoded from
      its bit-reversed wire form, is the waiting frame's destination and the
      ack's destination, bit-reversed, equals the waiting frame's raw source
      byte. */
  predicate AckMatches(w: seq<Byte>, f: seq<Byte>)
    requires |w| >= 6 && |f| >= 6
  {
    w[4] == BitRev(f[0]) && w[0] == BitRev(f[4])
  }

  function AckClear(s: SendQueue, f: seq<Byte>): (s': SendQueue)
    requires |f| >= 6
    ensures s'.queue == s.queue
    ensures s.wait.None? ==> s' == s
    ensures s.wait.Some? && |s.wait.value| >= 6 ==>
              (s'.wait.None? <==> AckMatches(s.wait.value, f))
              && (s'.wait.None? ==> s'.rep == 0)
              && (s'.wait.Some? ==> s' == s)
  {
    match s.wait
    case Some(w) =>
      if |w| >= 6 && AckMatches(w, f) then s.(wait := None, rep := 0) else s
    case None => s
  }

  /** The ack matches exactly the frame sent back by the addressed module:
      its source byte is the destination in wire form, and its destination
      byte is the wire form of the waiting frame's source. */
  lemma AckMatchesIff(w: seq<Byte>, f: seq<Byte>)
    requires |w| >= 6 && |f| >= 6
    ensures AckMatches(w, f) <==> f[0] == BitRev(w[4]) && f[4] == BitRev(w[0])
  {
    BitRevInvolution(f[0]);
    BitRevInvolution(f[4]);
    BitRevInvolution(w[0]);
    BitRevInvolution(w[4]);
  }
}

=== FILE: lcn_rx.dfy ===
/** Reassembly of bus frames from the serial byte stream (the buffer logic
    of lcnSerDataGet in lcn_io.c): a 128-byte receive buffer, a fill level
    `rcpos` and a checked length `ckpos`. */
module LcnRx {
  import opened Bytes
  import opened LcnFrame

  const RxSize: nat := 128

  /** What the loop hands to lcnPakProc, tagged by the branch that did so:
      a prefix verification accepted, garbage in front of a frame the scan
      found, or a stale partial frame flushed after a pause. */
  datatype Dispatch = Frame(bytes: seq<Byte>) | Garbage(bytes: seq<Byte>) | Stale(bytes: seq<Byte>)

  /** How the loop continues after the scan found a frame behind garbage. */
  datatype Resync =
    | KeepChecked   // as written: ckpos -= ret
    | Restart       // corrected: the shifted buffer is checked from length 0

  datatype RxState = RxState(buf: seq<Byte>, rcpos: nat, ckpos: nat, ltime: int)

  predicate RxInv(st: RxState)
  {
    |st.buf| == RxSize && st.ckpos <= st.rcpos <= RxSize
  }

  function Payloads(ds: seq<Dispatch>): seq<seq<Byte>>
  {
    if ds == [] then [] else [ds[0].bytes] + Payloads(ds[1..])
  }

  lemma {:induction false} BytesCons(d: Dispatch, ds: seq<Dispatch>)
    ensures Flatten(Payloads([d] + ds)) == d.bytes + Flatten(Payloads(ds))
  {
    assert ([d] + ds)[1..] == ds;
  }

  /** Moving bytes `k..rcpos` down to index 0; the tail of the array keeps
      its stale contents, as the copy loop of the source leaves it. */
  function Shift(buf: seq<Byte>, k: nat, rcpos: nat): (r: seq<Byte>)
    requires k <= rcpos <= |buf|
    ensures |r| == |buf|
    ensures r[..rcpos - k] == buf[k..rcpos]
  {
    buf[k..rcpos] + buf[rcpos - k..]
  }

  /** The first length at which a frame with this header is accepted:
      its determined length, or 3 for an undetermined one. */
  function FrameLen(f: seq<Byte>): (n: nat)
    requires |f| >= 2
    ensures n >= 3
  {
    if ExpLen(f[1]) == 0 then 3 else ExpLen(f[1])
  }

  /** The `while (ckpos < rcpos)` loop of lcnSerDataGet. Returns the
      buffer, fill level and checked length after the loop, and what was
      dispatched, in order. */
  function RxLoop(buf: seq<Byte>, rcpos: nat, ckpos: nat, modules: seq<int>, rule: Resync)
    : (res: (seq<Byte>, nat, nat, seq<Dispatch>))
    requires ckpos <= rcpos <= |buf|
    ensures |res.0| == |buf| && res.2 == res.1 <= rcpos
    decreases rcpos, rcpos - ckpos
  {
    if ckpos >= rcpos then (buf, rcpos, ckpos, [])
    else
      var ck := ckpos + 1;
      var ret := Verify(buf, ck, modules);
      if ret == Incomplete then RxLoop(buf, rcpos, ck, modules, rule)
      else if ret == Valid then
        var (b, r, c, ds) := RxLoop(Shift(buf, ck, rcpos), rcpos - ck, 0, modules, rule);
        (b, r, c, [Frame(buf[..ck])] + ds)
      else
        var s := ValidScan(buf, ck, modules);
        if s == 0 then RxLoop(buf, rcpos, ck, modules, rule)
        else
          var ck' := if rule == KeepChecked then ck - s else 0;
          var (b, r, c, ds) := RxLoop(Shift(buf, s, rcpos), rcpos - s, ck', modules, rule);
          (b, r, c, [Garbage(buf[..s])] + ds)
  }

  /** What a run of the check loop dispatches followed by what it leaves
      buffered. */
  function Stream(res: (seq<Byte>, nat, nat, seq<Dispatch>)): seq<Byte>
    requires res.1 <= |res.0|
  {
    Flatten(Payloads(res.3)) + res.0[..res.1]
  }

  /** The check loop neither loses nor duplicates a byte: the dispatched
      bytes followed by what stays buffered are the bytes it started with. */
  lemma {:induction false} RxLoopConserves(buf: seq<Byte>, rcpos: nat, ckpos: nat, modules: seq<int>, rule: Resync)
    requires ckpos <= rcpos <= |buf|
    ensures Stream(RxLoop(buf, rcpos, ckpos, modules, rule)) == buf[..rcpos]
    decreases rcpos, rcpos - ckpos, 2
  {
    if ckpos == rcpos {
      LoopDone(buf, rcpos, ckpos, modules, rule);
    } else {
      var ret := Verify(buf, ckpos + 1, modules);
      if ret == Valid {
        ValidConserves(buf, rcpos, ckpos, modules, rule);
      } else if ret == Incomplete || ValidScan(buf, ckpos + 1, modules) == 0 {
        SkipConserves(buf, rcpos, ckpos, modules, rule);
      } else {
        RecoverConserves(buf, rcpos, ckpos, modules, rule, ValidScan(buf, ckpos + 1, modules));
      }
    }
  }

  /** With nothing left to check, the loop dispatches nothing and keeps
      the whole fill. */
  lemma {:induction false} LoopDone(buf: seq<Byte>, rcpos: nat, ckpos: nat, modules: seq<int>, rule: Resync)
    requires rcpos == ckpos <= |buf|
    ensures Stream(RxLoop(buf, rcpos, ckpos, modules, rule)) == buf[..rcpos]
  {
    assert RxLoop(buf, rcpos, ckpos, modules, rule).3 == [];
  }

  /** A round that only advances the check position (an incomplete prefix,
      or a rejected one the scan finds nothing behind) keeps the stream. */
  lemma {:induction false} SkipConserves(buf: seq<Byte>, rcpos: nat, ckpos: nat, modules: seq<int>, rule: Resync)
    requires ckpos < rcpos <= |buf|
    requires Verify(buf, ckpos + 1, modules) != Valid
    requires Verify(buf, ckpos + 1, modules) == Incomplete || ValidScan(buf, ckpos + 1, modules) == 0
    ensures Stream(RxLoop(buf, rcpos, ckpos, modules, rule)) == buf[..rcpos]
    decreases rcpos, rcpos - ckpos, 0
  {
    if Verify(buf, ckpos + 1, modules) == Incomplete {
      IncompleteStep(buf, rcpos, ckpos, modules, rule);
    } else {
      MissStep(buf, rcpos, ckpos, modules, rule);
    }
    RxLoopConserves(buf, rcpos, ckpos + 1, modules, rule);
  }

  /** A round that dispatches a valid frame and shifts the rest down keeps
      the stream. */
  lemma {:induction false} ValidConserves(buf: seq<Byte>, rcpos: nat, ckpos: nat, modules: seq<int>, rule: Resync)
    requires ckpos < rcpos <= |buf| && Verify(buf, ckpos + 1, modules) == Valid
    ensures Stream(RxLoop(buf, rcpos, ckpos, modules, rule)) == buf[..rcpos]
    decreases rcpos, rcpos - ckpos, 0
  {
    var k := ckpos + 1;
    var rest := Shift(buf, k, rcpos);
    var res := RxLoop(rest, rcpos - k, 0, modules, rule);
    RxLoopConserves(rest, rcpos - k, 0, modules, rule);
    ValidStep(buf, rcpos, ckpos, modules, rule);
    ConsConserves(RxLoop(buf, rcpos, ckpos, modules, rule), res, Frame(buf[..k]), buf, k, rcpos);
  }

  /** A round in which the scan dispatches the garbage in front of a frame
      keeps the stream. */
  lemma {:induction false} RecoverConserves(buf: seq<Byte>, rcpos: nat, ckpos: nat, modules: seq<int>, rule: Resync, s: nat)
    requires ckpos < rcpos <= |buf|
    requires Verify(buf, ckpos + 1, modules) !in {Incomplete, Valid}
    requires ValidScan(buf, ckpos + 1, modules) == s && s != 0
    ensures Stream(RxLoop(buf, rcpos, ckpos, modules, rule)) == buf[..rcpos]
    decreases rcpos, rcpos - ckpos, 1
  {
    RecoverStep(buf, rcpos, ckpos, modules, rule, s);
    GarbageConserves(RxLoop(buf, rcpos, ckpos, modules, rule), buf, rcpos,
                     if rule == KeepChecked then ckpos + 1 - s else 0, modules, rule, s);
  }

  /** Dispatching `s` bytes of garbage in front of the rest of the loop's
      run keeps the stream. */
  lemma {:induction false} GarbageConserves(x: (seq<Byte>, nat, nat, seq<Dispatch>), buf: seq<Byte>, rcpos: nat,
                                            ck': nat, modules: seq<int>, rule: Resync, s: nat)
    requires 1 <= s <= rcpos <= |buf| && ck' <= rcpos - s
    requires var r := RxLoop(Shift(buf, s, rcpos), rcpos - s, ck', modules, rule);
             x == (r.0, r.1, r.2, [Garbage(buf[..s])] + r.3)
    ensures Stream(x) == buf[..rcpos]
    decreases rcpos, 0, 0
  {
    var rest := Shift(buf, s, rcpos);
    RxLoopConserves(rest, rcpos - s, ck', modules, rule);
    ConsConserves(x, RxLoop(rest, rcpos - s, ck', modules, rule), Garbage(buf[..s]), buf, s, rcpos);
  }

  /** Dispatching the first `k` bytes and shifting the rest down keeps the
      byte stream intact. */
  lemma {:induction false} ConsConserves(x: (seq<Byte>, nat, nat, seq<Dispatch>), res: (seq<Byte>, nat, nat, seq<Dispatch>),
                                         d: Dispatch, buf: seq<Byte>, k: nat, rcpos: nat)
    requires x == (res.0, res.1, res.2, [d] + res.3) && res.1 <= |res.0|
    requires k <= rcpos <= |buf| && d.bytes == buf[..k]
    requires Stream(res) == Shift(buf, k, rcpos)[..rcpos - k]
    ensures Stream(x) == buf[..rcpos]
  {
    BytesCons(d, res.3);
    assert buf[..rcpos] == buf[..k] + buf[k..rcpos];
  }

  /** The contents a call keeps: nothing when the buffer was full. */
  function Kept(st: RxState): seq<Byte>
    requires RxInv(st)
  {
    if st.rcpos >= RxSize then [] else st.buf[..st.rcpos]
  }

  /** The part of lcnSerDataGet before the read: a full buffer is discarded
      without being dispatched, and a partial frame older than one tick is
      flushed to lcnPakProc. */
  function Prepare(st: RxState, tick: int): (res: (RxState, seq<Dispatch>))
    requires RxInv(st)
    ensures RxInv(res.0) && res.0.ltime == tick && res.0.rcpos == |Kept(st)| - SumLengths(Payloads(res.1))
    ensures Flatten(Payloads(res.1)) + res.0.buf[..res.0.rcpos] == Kept(st)
  {
    var st1 := if st.rcpos >= RxSize then st.(rcpos := 0, ckpos := 0) else st;
    var stale := tick - st1.ltime > 1 && st1.rcpos != 0;
    if stale then
      BytesCons(Stale(st1.buf[..st1.rcpos]), []);
      (st1.(rcpos := 0, ckpos := 0, ltime := tick), [Stale(st1.buf[..st1.rcpos])])
    else
      (st1.(ltime := tick), [])
  }

  /** A partial frame older than one tick is flushed whole, so the read
      that follows may fill the entire buffer. */
  lemma StaleFlushFreesBuffer(st: RxState, tick: int)
    requires RxInv(st) && 0 < st.rcpos < RxSize && tick - st.ltime > 1
    ensures Prepare(st, tick).0.rcpos == 0
    ensures Prepare(st, tick).1 == [Stale(st.buf[..st.rcpos])]
  {
  }

  /** The read and the check loop: `input` is appended at the fill level. */
  function Feed(st: RxState, input: seq<Byte>, modules: seq<int>, rule: Resync)
    : (res: (RxState, seq<Dispatch>))
    requires RxInv(st) && |input| <= RxSize - st.rcpos
    ensures RxInv(res.0) && res.0.ltime == st.ltime
    ensures Flatten(Payloads(res.1)) + res.0.buf[..res.0.rcpos] == st.buf[..st.rcpos] + input
  {
    if |input| == 0 then (st, [])
    else
      var buf := st.buf[..st.rcpos] + input + st.buf[st.rcpos + |input|..];
      assert buf[..st.rcpos + |input|] == st.buf[..st.rcpos] + input;
      RxLoopConserves(buf, st.rcpos + |input|, st.ckpos, modules, rule);
      var (b, r, c, ds) := RxLoop(buf, st.rcpos + |input|, st.ckpos, modules, rule);
      assert Stream((b, r, c, ds)) == Flatten(Payloads(ds)) + b[..r];
      (RxState(b, r, c, st.ltime), ds)
  }

  /** One call of lcnSerDataGet: `tick` is the tick counter at the call and
      `input` the bytes the read returned (empty for a failed or empty
      read). Returns the new state and the dispatches in order. */
  function SerDataGetWith(st: RxState, tick: int, input: seq<Byte>, modules: seq<int>, rule: Resync)
    : (res: (RxState, seq<Dispatch>))
    requires RxInv(st)
    requires |input| <= RxSize - Prepare(st, tick).0.rcpos
    ensures RxInv(res.0) && res.0.ltime == tick
  {
    var (st2, pre) := Prepare(st, tick);
    var (st', ds) := Feed(st2, input, modules, rule);
    (st', pre + ds)
  }

  /** lcnSerDataGet as written. */
  function SerDataGetAsWritten(st: RxState, tick: int, input: seq<Byte>, modules: seq<int>)
    : (res: (RxState, seq<Dispatch>))
    requires RxInv(st)
    requires |input| <= RxSize - Prepare(st, tick).0.rcpos
    ensures RxInv(res.0)
  {
    SerDataGetWith(st, tick, input, modules, KeepChecked)
  }

  /** lcnSerDataGet with the resynchronisation corrected. */
  function SerDataGet(st: RxState, tick: int, input: seq<Byte>, modules: seq<int>)
    : (res: (RxState, seq<Dispatch>))
    requires RxInv(st)
    requires |input| <= RxSize - Prepare(st, tick).0.rcpos
    ensures RxInv(res.0)
  {
    SerDataGetWith(st, tick, input, modules, Restart)
  }

  lemma {:induction false} PayloadsAppend(xs: seq<Dispatch>, ys: seq<Dispatch>)
    ensures Payloads(xs + ys) == Payloads(xs) + Payloads(ys)
  {
    if xs != [] {
      assert (xs + ys)[1..] == xs[1..] + ys;
      PayloadsAppend(xs[1..], ys);
    } else {
      assert xs + ys == ys;
    }
  }

  /** No byte is lost or duplicated: what is dispatched followed by what
      stays buffered is exactly the kept buffer contents followed by the
      new input. Only a buffer that was already full is dropped. */
  lemma SerDataGetConserves(st: RxState, tick: int, input: seq<Byte>, modules: seq<int>, rule: Resync)
    requires RxInv(st)
    requires |input| <= RxSize - Prepare(st, tick).0.rcpos
    ensures var (st', ds) := SerDataGetWith(st, tick, input, modules, rule);
            Flatten(Payloads(ds)) + st'.buf[..st'.rcpos] == Kept(st) + input
  {
    var p := Prepare(st, tick);
    var f := Feed(p.0, input, modules, rule);
    assert SerDataGetWith(st, tick, input, modules, rule) == (f.0, p.1 + f.1);
    PayloadsAppend(p.1, f.1);
    FlattenAppend(Payloads(p.1), Payloads(f.1));
    SplicePrefix(Flatten(Payloads(p.1)), p.0.buf[..p.0.rcpos], Kept(st),
                 Flatten(Payloads(f.1)), f.0.buf[..f.0.rcpos], input);
  }

  lemma SplicePrefix(pre: seq<Byte>, mid: seq<Byte>, kept: seq<Byte>,
                     out: seq<Byte>, rest: seq<Byte>, input: seq<Byte>)
    requires pre + mid == kept && out + rest == mid + input
    ensures (pre + out) + rest == kept + input
  {
    assert (pre + out) + rest == pre + (out + rest);
  }

  // ---------------------------------------------------------------------
  // The corrected loop dispatches every accepted frame at exactly its length

  /** No prefix up to `n` bytes is accepted as valid. */
  ghost predicate NoValidUpTo(buf: seq<Byte>, n: nat, modules: seq<int>)
    requires n <= |buf|
  {
    forall j :: 1 <= j <= n ==> Verify(buf, j, modules) != Valid
  }

  /** The first accepted prefix has exactly the frame's length. */
  lemma FirstValidIsFrameLen(buf: seq<Byte>, n: nat, modules: seq<int>)
    requires 1 <= n <= |buf|
    requires Verify(buf, n, modules) == Valid
    requires NoValidUpTo(buf, n - 1, modules)
    ensures n == FrameLen(buf[..n])
  {
    var e := ExpLen(buf[1]);
    if e != 0 {
      VerifyDeterminedLength(buf, n, modules);
      assert Verify(buf, e, modules) == Valid;
    } else {
      assert !BothKnown(buf, modules);
      VerifyUnknownAddress(buf, 3, modules);
      VerifyUnknownAddress(buf, n, modules);
    }
  }

  /** A prefix that is neither incomplete nor valid stays invalid for all
      longer prefixes. */
  lemma RejectedStaysRejected(buf: seq<Byte>, n: nat, m: nat, modules: seq<int>)
    requires 1 <= n <= m <= |buf|
    requires Verify(buf, n, modules) !in {Incomplete, Valid}
    ensures Verify(buf, m, modules) != Valid
  {
    var e := ExpLen(buf[1]);
    if e != 0 {
      VerifyDeterminedLength(buf, n, modules);
      VerifyDeterminedLength(buf, m, modules);
    } else if !BothKnown(buf, modules) {
      VerifyUnknownAddress(buf, n, modules);
      VerifyUnknownAddress(buf, m, modules);
    } else {
      VerifyKnownVariable(buf, m, modules);
    }
  }

  /** Every dispatched frame has exactly its frame length. */
  predicate FramesExact(ds: seq<Dispatch>)
  {
    forall i :: 0 <= i < |ds| && ds[i].Frame? ==>
      |ds[i].bytes| >= 3 && |ds[i].bytes| == FrameLen(ds[i].bytes)
  }

  lemma FramesExactCons(d: Dispatch, ds: seq<Dispatch>)
    requires FramesExact(ds)
    requires d.Frame? ==> |d.bytes| >= 3 && |d.bytes| == FrameLen(d.bytes)
    ensures FramesExact([d] + ds)
  {
    forall i | 0 <= i < |[d] + ds| && ([d] + ds)[i].Frame?
      ensures |([d] + ds)[i].bytes| >= 3
    {
      if i > 0 { assert ([d] + ds)[i] == ds[i - 1]; }
    }
  }

  /** Every frame the corrected loop accepts is dispatched at exactly its
      length, when checking started from a state where nothing shorter was
      accepted. */
  lemma {:induction false} RestartFramesExact(buf: seq<Byte>, rcpos: nat, ckpos: nat, modules: seq<int>)
    requires ckpos <= rcpos <= |buf|
    requires NoValidUpTo(buf, ckpos, modules)
    requires forall j :: 1 <= j <= ckpos && Verify(buf, j, modules) != Incomplete ==> NoValidUpTo(buf, rcpos, modules)
    ensures FramesExact(RxLoop(buf, rcpos, ckpos, modules, Restart).3)
    decreases rcpos, rcpos - ckpos, 2
  {
    if ckpos < rcpos {
      var ret := Verify(buf, ckpos + 1, modules);
      if ret == Valid {
        ValidFrameExact(buf, rcpos, ckpos, modules);
      } else if ret == Incomplete || ValidScan(buf, ckpos + 1, modules) == 0 {
        SkipFramesExact(buf, rcpos, ckpos, modules);
      } else {
        RecoverFramesExact(buf, rcpos, ckpos, modules, ValidScan(buf, ckpos + 1, modules));
      }
    }
  }

  /** A round that only advances the check position keeps the premises:
      a rejected prefix rules out every valid one up to the fill level. */
  lemma {:induction false} SkipFramesExact(buf: seq<Byte>, rcpos: nat, ckpos: nat, modules: seq<int>)
    requires ckpos < rcpos <= |buf|
    requires NoValidUpTo(buf, ckpos, modules)
    requires forall j :: 1 <= j <= ckpos && Verify(buf, j, modules) != Incomplete ==> NoValidUpTo(buf, rcpos, modules)
    requires Verify(buf, ckpos + 1, modules) != Valid
    requires Verify(buf, ckpos + 1, modules) == Incomplete || ValidScan(buf, ckpos + 1, modules) == 0
    ensures FramesExact(RxLoop(buf, rcpos, ckpos, modules, Restart).3)
    decreases rcpos, rcpos - ckpos, 1
  {
    var ck := ckpos + 1;
    if Verify(buf, ck, modules) == Incomplete {
      IncompleteStep(buf, rcpos, ckpos, modules, Restart);
    } else {
      forall m | ck <= m <= rcpos
        ensures Verify(buf, m, modules) != Valid
      {
        RejectedStaysRejected(buf, ck, m, modules);
      }
      MissStep(buf, rcpos, ckpos, modules, Restart);
    }
    RestartFramesExact(buf, rcpos, ck, modules);
  }

  /** A round that accepts a frame dispatches it at exactly its length. */
  lemma {:induction false} ValidFrameExact(buf: seq<Byte>, rcpos: nat, ckpos: nat, modules: seq<int>)
    requires ckpos < rcpos <= |buf|
    requires NoValidUpTo(buf, ckpos, modules)
    requires Verify(buf, ckpos + 1, modules) == Valid
    ensures FramesExact(RxLoop(buf, rcpos, ckpos, modules, Restart).3)
    decreases rcpos, rcpos - ckpos, 1
  {
    FirstValidIsFrameLen(buf, ckpos + 1, modules);
    ValidStep(buf, rcpos, ckpos, modules, Restart);
    ConsFramesExact(RxLoop(buf, rcpos, ckpos, modules, Restart), buf, rcpos, ckpos + 1, Frame(buf[..ckpos + 1]), modules);
  }

  /** A round in which the scan drops garbage restarts checking at 0. */
  lemma {:induction false} RecoverFramesExact(buf: seq<Byte>, rcpos: nat, ckpos: nat, modules: seq<int>, s: nat)
    requires ckpos < rcpos <= |buf|
    requires Verify(buf, ckpos + 1, modules) !in {Incomplete, Valid}
    requires ValidScan(buf, ckpos + 1, modules) == s && s != 0
    ensures FramesExact(RxLoop(buf, rcpos, ckpos, modules, Restart).3)
    decreases rcpos, rcpos - ckpos, 1
  {
    RecoverStep(buf, rcpos, ckpos, modules, Restart, s);
    ConsFramesExact(RxLoop(buf, rcpos, ckpos, modules, Restart), buf, rcpos, s, Garbage(buf[..s]), modules);
  }

  /** One dispatch of the right length in front of the corrected loop's run
      on the shifted buffer keeps every frame exact. */
  lemma {:induction false} ConsFramesExact(x: (seq<Byte>, nat, nat, seq<Dispatch>), buf: seq<Byte>, rcpos: nat,
                                           k: nat, d: Dispatch, modules: seq<int>)
    requires 1 <= k <= rcpos <= |buf|
    requires d.Frame? ==> |d.bytes| >= 3 && |d.bytes| == FrameLen(d.bytes)
    requires var r := RxLoop(Shift(buf, k, rcpos), rcpos - k, 0, modules, Restart);
             x == (r.0, r.1, r.2, [d] + r.3)
    ensures FramesExact(x.3)
    decreases rcpos, 0, 0
  {
    var rest := Shift(buf, k, rcpos);
    RestartFramesExact(rest, rcpos - k, 0, modules);
    FramesExactCons(d, RxLoop(rest, rcpos - k, 0, modules, Restart).3);
  }

  // ---------------------------------------------------------------------
  // One iteration of the check loop at a time

  lemma IncompleteStep(buf: seq<Byte>, rcpos: nat, ckpos: nat, modules: seq<int>, rule: Resync)
    requires ckpos < rcpos <= |buf| && Verify(buf, ckpos + 1, modules) == Incomplete
    ensures RxLoop(buf, rcpos, ckpos, modules, rule) == RxLoop(buf, rcpos, ckpos + 1, modules, rule)
  {
  }

  lemma ValidStep(buf: seq<Byte>, rcpos: nat, ckpos: nat, modules: seq<int>, rule: Resync)
    requires ckpos < rcpos <= |buf| && Verify(buf, ckpos + 1, modules) == Valid
    ensures var r := RxLoop(Shift(buf, ckpos + 1, rcpos), rcpos - (ckpos + 1), 0, modules, rule);
            RxLoop(buf, rcpos, ckpos, modules, rule) == (r.0, r.1, r.2, [Frame(buf[..ckpos + 1])] + r.3)
  {
  }

  lemma MissStep(buf: seq<Byte>, rcpos: nat, ckpos: nat, modules: seq<int>, rule: Resync)
    requires ckpos < rcpos <= |buf|
    requires Verify(buf, ckpos + 1, modules) !in {Incomplete, Valid}
    requires ValidScan(buf, ckpos + 1, modules) == 0
    ensures RxLoop(buf, rcpos, ckpos, modules, rule) == RxLoop(buf, rcpos, ckpos + 1, modules, rule)
  {
  }

  /** A run of incomplete prefixes is stepped over one by one. */
  lemma {:induction false} IncompleteRun(buf: seq<Byte>, rcpos: nat, ckpos: nat, upto: nat, modules: seq<int>, rule: Resync)
    requires ckpos <= upto <= rcpos <= |buf|
    requires forall k :: ckpos < k <= upto ==> Verify(buf, k, modules) == Incomplete
    ensures RxLoop(buf, rcpos, ckpos, modules, rule) == RxLoop(buf, rcpos, upto, modules, rule)
    decreases upto - ckpos
  {
    if ckpos < upto {
      IncompleteStep(buf, rcpos, ckpos, modules, rule);
      IncompleteRun(buf, rcpos, ckpos + 1, upto, modules, rule);
    }
  }

  /** From a fresh check, prefixes shorter than `ck` are incomplete, the
      one of `ck` bytes is rejected and the scan finds a frame `s` bytes
      in: the loop drops those bytes as garbage and goes on behind them. */
  lemma {:induction false} GarbageHead(buf: seq<Byte>, rcpos: nat, ck: nat, s: nat, modules: seq<int>, rule: Resync)
    requires 0 < ck <= rcpos <= |buf|
    requires forall k :: 0 < k < ck ==> Verify(buf, k, modules) == Incomplete
    requires Verify(buf, ck, modules) !in {Incomplete, Valid}
    requires ValidScan(buf, ck, modules) == s && s != 0
    ensures var r := RxLoop(Shift(buf, s, rcpos), rcpos - s,
                            if rule == KeepChecked then ck - s else 0, modules, rule);
            RxLoop(buf, rcpos, 0, modules, rule) == (r.0, r.1, r.2, [Garbage(buf[..s])] + r.3)
  {
    IncompleteRun(buf, rcpos, 0, ck - 1, modules, rule);
    RecoverStep(buf, rcpos, ck - 1, modules, rule, s);
  }

  /** Under the loop as written, when the bytes behind the garbage are a
      valid frame one byte longer than the checked length carried over,
      the loop dispatches the garbage and then that whole frame. */
  lemma {:induction false} GarbageThenLast(buf: seq<Byte>, rcpos: nat, ck: nat, s: nat, modules: seq<int>)
    requires 0 < ck <= rcpos <= |buf|
    requires forall k :: 0 < k < ck ==> Verify(buf, k, modules) == Incomplete
    requires Verify(buf, ck, modules) !in {Incomplete, Valid}
    requires ValidScan(buf, ck, modules) == s && s != 0
    requires ck + 1 == rcpos && Verify(Shift(buf, s, rcpos), rcpos - s, modules) == Valid
    ensures RxLoop(buf, rcpos, 0, modules, KeepChecked).3
            == [Garbage(buf[..s]), Frame(Shift(buf, s, rcpos)[..rcpos - s])]
  {
    GarbageHead(buf, rcpos, ck, s, modules, KeepChecked);
    LastFrame(Shift(buf, s, rcpos), rcpos - s, ck - s, modules, KeepChecked);
  }

  /** A valid prefix that fills the buffer is the last dispatch. */
  lemma LastFrame(buf: seq<Byte>, rcpos: nat, ckpos: nat, modules: seq<int>, rule: Resync)
    requires ckpos + 1 == rcpos <= |buf| && Verify(buf, rcpos, modules) == Valid
    ensures RxLoop(buf, rcpos, ckpos, modules, rule).3 == [Frame(buf[..rcpos])]
  {
    ValidStep(buf, rcpos, ckpos, modules, rule);
  }

  lemma RecoverStep(buf: seq<Byte>, rcpos: nat, ckpos: nat, modules: seq<int>, rule: Resync, s: nat)
    requires ckpos < rcpos <= |buf|
    requires Verify(buf, ckpos + 1, modules) !in {Incomplete, Valid}
    requires ValidScan(buf, ckpos + 1, modules) == s && s != 0
    ensures var r := RxLoop(Shift(buf, s, rcpos), rcpos - s,
                            if rule == KeepChecked then ckpos + 1 - s else 0, modules, rule);
            RxLoop(buf, rcpos, ckpos, modules, rule) == (r.0, r.1, r.2, [Garbage(buf[..s])] + r.3)
  {
  }
}

module LcnRxExample {
  import opened Bytes
  import opened Crc
  import opened LcnFrame
  import opened LcnRx

  /** One garbage byte followed by a 6-byte acknowledgement (source 4,
      `info` 0, checksum 0x10) and two more zero bytes, all arriving in
      one read. */
  const Burst: seq<Byte> := [0, 4, 0, 16, 0, 0, 0, 0, 0]

  /** The burst after the garbage byte has been shifted out. */
  const Shifted: seq<Byte> := [4, 0, 16, 0, 0, 0, 0, 0, 0]

  /** The frame behind the garbage byte, and the same frame with the two
      zero bytes that follow it. */
  const Frame6: seq<Byte> := [4, 0, 16, 0, 0, 0]
  const Frame8: seq<Byte> := [4, 0, 16, 0, 0, 0, 0, 0]

  lemma ShiftedFrameValid()
    ensures forall k :: 1 <= k < 6 ==> Verify(Shifted, k, []) == Incomplete
    ensures forall k :: 6 <= k <= 9 ==> Verify(Shifted, k, []) == Valid
  {
    assert CrcCalc(Shifted, 1) == 16;
    assert CrcCalc(Shifted, 2) == 64;
    assert CrcCalc(Shifted, 3) == 64;
    assert CrcCalc(Shifted, 4) == 1;
    assert CrcCalc(Shifted, 5) == 4;
    assert CrcCalc(Shifted, 6) == 16;
  }

  lemma BurstCrc()
    ensures CrcCalc(Burst, 8) == 64
  {
    assert CrcCalc(Burst, 1) == 0;
    assert CrcCalc(Burst, 2) == 16;
    assert CrcCalc(Burst, 3) == 16;
    assert CrcCalc(Burst, 4) == 128;
    assert CrcCalc(Burst, 5) == 1;
    assert CrcCalc(Burst, 6) == 4;
    assert CrcCalc(Burst, 7) == 16;
  }

  /** Read from offset 0 the burst is an 8-byte command with a wrong
      checksum, so the loop turns to the scan at eight checked bytes. */
  lemma BurstRejectedAtEight()
    ensures forall k :: 1 <= k < 8 ==> Verify(Burst, k, []) == Incomplete
    ensures Verify(Burst, 8, []) == KnownCrcError
  {
    assert ExpLen(Burst[1]) == 8;
    BurstCrc();
  }

  /** The scan finds the frame one byte in. */
  lemma BurstScan()
    ensures ValidScan(Burst, 8, []) == 1
  {
    ShiftedFrameValid();
    var q := Burst[1..];
    assert q[..8] == Shifted[..8];
    forall k | 1 <= k <= 7 ensures Verify(q, k, []) == Verify(Shifted, k, []) {
      VerifyLocal(q, Shifted, k, []);
    }
    assert Probe(q, 6, 7, Incomplete, []) == (Valid, 6);
    assert Probe(q, 5, 7, Incomplete, []) == (Valid, 6);
    assert Probe(q, 4, 7, Incomplete, []) == (Valid, 6);
    assert Probe(q, 3, 7, Incomplete, []) == (Valid, 6);
    assert Probe(q, 2, 7, Incomplete, []) == (Valid, 6);
    assert Probe(q, 1, 7, CrcError, []) == (Valid, 6);
    assert ScanHit(Burst, 1, 8, []);
  }

  lemma ShiftBurst()
    ensures Shift(Burst, 1, 9) == Shifted
    ensures Burst[..1] == [0] && Shifted[..8] == Frame8 && Shifted[..6] == Frame6
  {
  }

  /** Up to the scan, both loops run alike: seven incomplete prefixes, then
      a rejected one and the scan, which shifts one garbage byte out. */
  lemma BurstHead(b: seq<Byte>, sh: seq<Byte>, rule: Resync)
    requires b == Burst && sh == Shifted
    ensures var r := RxLoop(sh, 8, if rule == KeepChecked then 7 else 0, [], rule);
            RxLoop(b, 9, 0, [], rule) == (r.0, r.1, r.2, [Garbage([0])] + r.3)
  {
    BurstRejectedAtEight();
    BurstScan();
    ShiftBurst();
    GarbageHead(b, 9, 8, 1, [], rule);
  }

  /** The loop as written recovers the frame behind the garbage byte but
      keeps checking it from its old checked length, so it passes the
      frame's own length and dispatches eight bytes as one frame. */
  lemma AsWrittenOverlongFrame(b: seq<Byte>, sh: seq<Byte>)
    requires b == Burst && sh == Shifted
    ensures RxLoop(b, 9, 0, [], KeepChecked).3 == [Garbage([0]), Frame(sh[..8])]
  {
    BurstRejectedAtEight();
    BurstScan();
    ShiftBurst();
    ShiftedValidAtEight(sh);
    GarbageThenLast(b, 9, 8, 1, []);
  }

  lemma ShiftedValidAtEight(sh: seq<Byte>)
    requires sh == Shifted
    ensures Verify(sh, 8, []) == Valid
  {
    ShiftedFrameValid();
  }

  /** Restarted on the shifted buffer, the loop accepts the frame at six
      bytes and waits on the two bytes after it. */
  lemma ShiftedRestart(sh: seq<Byte>)
    requires sh == Shifted
    ensures RxLoop(sh, 8, 0, [], Restart).3 == [Frame(sh[..6])]
    ensures RxLoop(sh, 8, 0, [], Restart).1 == 2
  {
    ShiftedFrameValid();
    var k := 0;
    while k < 5
      invariant k <= 5
      invariant RxLoop(sh, 8, 0, [], Restart) == RxLoop(sh, 8, k, [], Restart)
    {
      IncompleteStep(sh, 8, k, [], Restart);
      k := k + 1;
    }
    ValidStep(sh, 8, 5, [], Restart);
    var rest := Shift(sh, 6, 8);
    assert Verify(rest, 1, []) == Incomplete && Verify(rest, 2, []) == Incomplete;
    IncompleteStep(rest, 2, 0, [], Restart);
    IncompleteStep(rest, 2, 1, [], Restart);
    assert RxLoop(rest, 2, 2, [], Restart).3 == [];
  }

  /** The corrected loop dispatches the same frame at its own six bytes and
      keeps the two trailing bytes buffered. */
  lemma RestartExactFrame(b: seq<Byte>, sh: seq<Byte>)
    requires b == Burst && sh == Shifted
    ensures RxLoop(b, 9, 0, [], Restart).3 == [Garbage([0]), Frame(sh[..6])]
    ensures RxLoop(b, 9, 0, [], Restart).1 == 2
  {
    BurstHead(b, sh, Restart);
    ShiftedRestart(sh);
  }
}

=== FILE: lights.dfy ===
/** The light table of the gateway (`struct lights_s`, net_io.h:55-65) and
    its update with change detection (state.c stateLightUpdate). */
module Lights {
  import opened Bytes
  import opened Effects

  /** One configured light. `moduleId` and `output` are `unsigned char`,
      `state` is a `signed char` (-1 while unknown), `time` is the wall-clock
      second of the last report about it. */
  datatype Light = Light(moduleId: Byte, output: Byte, name: seq<Byte>, state: int, time: int)

  predicate Matches(l: Light, m: int, o: int)
  {
    l.moduleId == m && l.output == o
  }

  /** What one detected change emits: a history record, then a status
      report to every connected client. */
  function ChangeEffects(m: int, o: int, v: int, slots: seq<int>): (es: seq<Effect>)
    ensures |es| == 1 + |Active(slots)|
  {
    [Log(LightKind, ToByte(m), ToByte(o), ToByte(v))]
      + Broadcast(slots, LightStatusReport, [ToByte(m), ToByte(o), ToByte(v)])
  }

  /** Number of lights on (m, o) whose state differs from `v`. */
  function Changes(lights: seq<Light>, m: int, o: int, v: int): nat
  {
    if lights == [] then 0
    else (if Matches(lights[0], m, o) && lights[0].state != v then 1 else 0)
         + Changes(lights[1..], m, o, v)
  }

  function Repeat(es: seq<Effect>, n: nat): seq<Effect>
  {
    if n == 0 then [] else es + Repeat(es, n - 1)
  }

  /** The light as stateLightUpdate leaves it. */
  function Updated(l: Light, v: int, now: int): Light
  {
    l.(time := now, state := if l.state != v then ToSChar(v) else l.state)
  }

  /** stateLightUpdate(m, o, v) at wall-clock second `now`: every light on
      (m, o) gets its time refreshed; those whose state differs from `v`
      store `v` (narrowed to `signed char`) and each emits one history
      record and one report per connected client. Lights on other
      addresses are untouched. */
  function Update(lights: seq<Light>, m: int, o: int, v: int, now: int, slots: seq<int>)
    : (r: (seq<Light>, seq<Effect>))
    ensures |r.0| == |lights|
    ensures forall i :: 0 <= i < |lights| ==>
              r.0[i] == (if Matches(lights[i], m, o) then Updated(lights[i], v, now) else lights[i])
    ensures r.1 == Repeat(ChangeEffects(m, o, v, slots), Changes(lights, m, o, v))
  {
    if lights == [] then ([], [])
    else
      var rest := Update(lights[1..], m, o, v, now, slots);
      var l := lights[0];
      if Matches(l, m, o) then
        var es := if l.state != v then ChangeEffects(m, o, v, slots) else [];
        ([Updated(l, v, now)] + rest.0, es + rest.1)
      else
        ([l] + rest.0, rest.1)
  }

  predicate StatesInRange(lights: seq<Light>)
  {
    forall i :: 0 <= i < |lights| ==> -128 <= lights[i].state <= 127
  }

  /** Lights hold `signed char` states, and an update keeps them so. */
  lemma UpdateKeepsStates(lights: seq<Light>, m: int, o: int, v: int, now: int, slots: seq<int>)
    requires StatesInRange(lights)
    ensures StatesInRange(Update(lights, m, o, v, now, slots).0)
  {
  }

  lemma {:induction false} NoChangesAfterUpdate(lights: seq<Light>, m: int, o: int, v: int, now: int, slots: seq<int>)
    requires -128 <= v <= 127
    ensures Changes(Update(lights, m, o, v, now, slots).0, m, o, v) == 0
  {
    if lights != [] {
      NoChangesAfterUpdate(lights[1..], m, o, v, now, slots);
      var r := Update(lights, m, o, v, now, slots).0;
      assert r[1..] == Update(lights[1..], m, o, v, now, slots).0;
    }
  }

  /** Repeating a report with a value a `signed char` can hold logs and
      sends nothing, and changes nothing but the refresh times. */
  lemma UpdateIdempotent(lights: seq<Light>, m: int, o: int, v: int, now: int, later: int, slots: seq<int>)
    requires -128 <= v <= 127
    ensures var once := Update(lights, m, o, v, now, slots).0;
            var twice := Update(once, m, o, v, later, slots);
            twice.1 == []
            && forall i :: 0 <= i < |lights| ==> twice.0[i] == once[i].(time := if Matches(lights[i], m, o) then later else once[i].time)
  {
    NoChangesAfterUpdate(lights, m, o, v, now, slots);
  }

  /** A value outside the `signed char` range is stored wrapped, so the same
      report arriving again is seen as a change and is logged and sent
      again: a bus report with p1 = 100 (value 200) does this. */
  lemma WrappedValueLogsAgain(l: Light, slots: seq<int>)
    requires -128 <= l.state <= 127
    ensures var once := Update([l], l.moduleId, l.output, 200, 0, slots).0;
            Update(once, l.moduleId, l.output, 200, 1, slots).1 == ChangeEffects(l.moduleId, l.output, 200, slots)
  {
    var once := Update([l], l.moduleId, l.output, 200, 0, slots).0;
    assert ToSChar(200) == -56;
    assert once[0].state == -56;
  }

  /** The first light on (m, o), if any (the LIGHTSTATUSGET search). */
  function Find(lights: seq<Light>, m: int, o: int): (r: Option<nat>)
    ensures r.Some? ==> r.value < |lights| && Matches(lights[r.value], m, o)
                        && forall j :: 0 <= j < r.value ==> !Matches(lights[j], m, o)
    ensures r.None? ==> forall j :: 0 <= j < |lights| ==> !Matches(lights[j], m, o)
  {
    if lights == [] then None
    else if Matches(lights[0], m, o) then Some(0)
    else match Find(lights[1..], m, o)
      case None => None
      case Some(k) => Some(k + 1)
  }

  /** One light's entry in the light database packet:
      `[module, output, state] ++ name ++ [0]`. */
  function DbEntry(l: Light): (e: seq<Byte>)
    ensures |e| == 4 + |CStr(l.name)|
  {
    [l.moduleId, l.output, ToByte(l.state)] + CStr(l.name) + [0]
  }

  /** netLightDbSend payload: the entries of all lights in list order. */
  function DbPayload(lights: seq<Light>): (p: seq<Byte>)
    ensures |p| == DbLength(lights)
  {
    if lights == [] then [] else DbEntry(lights[0]) + DbPayload(lights[1..])
  }

  function DbLength(lights: seq<Light>): nat
  {
    if lights == [] then 0 else 4 + |CStr(lights[0].name)| + DbLength(lights[1..])
  }

  /** The database packet is `sum (4 + |name|)` bytes long. */
  lemma {:induction false} DbPayloadLength(lights: seq<Light>)
    ensures |DbPayload(lights)| == DbLength(lights)
  {
    if lights != [] {
      DbPayloadLength(lights[1..]);
    }
  }

  /** With names of at least `k` bytes, every entry takes at least `4 + k`
      bytes. */
  lemma {:induction false} DbPayloadAtLeast(lights: seq<Light>, k: nat)
    requires forall i :: 0 <= i < |lights| ==> |CStr(lights[i].name)| >= k
    ensures |DbPayload(lights)| >= |lights| * (4 + k)
    decreases |lights|
  {
    if lights != [] {
      DbPayloadAtLeast(lights[1..], k);
      assert |lights| * (4 + k) == (4 + k) + (|lights| - 1) * (4 + k);
    }
  }

  /** confLightAdd: append a light with the given state and time 0. */
  function Add(lights: seq<Light>, m: int, o: int, state: int, name: seq<Byte>): (r: seq<Light>)
    ensures |r| == |lights| + 1 && r[..|lights|] == lights
    ensures r[|lights|] == Light(ToByte(m), ToByte(o), CStr(name), ToSChar(state), 0)
  {
    lights + [Light(ToByte(m), ToByte(o), CStr(name), ToSChar(state), 0)]
  }
}

=== FILE: net_packet.dfy ===
/** The packet format of the gateway's TCP protocol. A packet is a 3-byte
    header `[type, len >> 8, len & 0xFF]` and then `len` payload bytes
    (netPakSend, net_io.c; pakReceive, yaliClient.c). This module also holds
    the payloads of the fixed replies: error, version, time and status. */
module NetPacket {
  import opened Bytes
  import opened Effects

  /** `pak.len` is an `unsigned short`, so lengths are taken modulo this. */
  const LenLimit: nat := 0x1_0000

  /** A packet as the server's receive loop hands it on. It has a type and
      a declared payload length. `data` holds every byte the handler can
      read from the payload pointer on: the rest of the receive buffer,
      including stale bytes past the declared length. */
  datatype Pak = Pak(kind: Byte, len: nat, data: seq<Byte>)

  /** The bytes netPakSend writes for a packet of type `kind` whose
      payload is `payload`. The length field holds |payload| narrowed to
      16 bits, and only that many payload bytes are sent. */
  function Wire(kind: Byte, payload: seq<Byte>): (w: seq<Byte>)
    ensures |w| == 3 + |payload| % LenLimit
    ensures w[0] == kind
  {
    var n := |payload| % LenLimit;
    [kind, n / 256, n % 256] + payload[..n]
  }

  /** The header as both receivers read it: the type, and the length
      `256 * b1 + b2` (pakReceive; the `(rcbuf[1]<<8) + rcbuf[2]` of
      netSockDataGet). */
  function Header(w: seq<Byte>): (h: Option<(Byte, nat)>)
    ensures h.Some? <==> |w| >= 3
    ensures h.Some? ==> h.value.0 == w[0] && h.value.1 < LenLimit
  {
    if |w| < 3 then None else Some((w[0], 256 * (w[1] as int) + w[2]))
  }

  /** Encoding and then decoding gives back the type, the length and the
      payload, for every payload shorter than 65536 bytes. */
  lemma WireRoundTrip(kind: Byte, payload: seq<Byte>)
    requires |payload| < LenLimit
    ensures Header(Wire(kind, payload)) == Some((kind, |payload|))
    ensures Wire(kind, payload)[3..] == payload
  {
    var n := |payload|;
    assert 256 * (n / 256) + n % 256 == n;
  }

  /** The other direction: bytes that hold at least their declared length
      begin with the encoding of their own type and payload. */
  lemma HeaderRoundTrip(w: seq<Byte>)
    requires Header(w).Some? && 3 + Header(w).value.1 <= |w|
    ensures Wire(w[0], w[3..3 + Header(w).value.1]) == w[..3 + Header(w).value.1]
  {
    var n := Header(w).value.1;
    assert n / 256 == w[1] && n % 256 == w[2];
    var e := Wire(w[0], w[3..3 + n]);
    assert e[1] == w[1] && e[2] == w[2];
    assert e[3..] == w[3..3 + n];
  }

  /** A payload of 65536 bytes or more is sent with its length reduced
      modulo 65536: the receiver sees a shorter packet. */
  lemma WireTruncates(kind: Byte, payload: seq<Byte>)
    requires LenLimit <= |payload| < 2 * LenLimit
    ensures Header(Wire(kind, payload)) == Some((kind, |payload| - LenLimit))
    ensures Wire(kind, payload)[3..] == payload[..|payload| - LenLimit]
  {
    var n := |payload| - LenLimit;
    assert |payload| % LenLimit == n;
    assert 256 * (n / 256) + n % 256 == n;
  }

  // ---------------------------------------------------------------------
  // Reply payloads

  /** The prefix of the C string `text` that a copy loop bounded by `max`
      takes. */
  function Bounded(text: seq<Byte>, max: nat): (t: seq<Byte>)
    ensures |t| == (if |CStr(text)| < max then |CStr(text)| else max)
    ensures t == CStr(text)[..|t|] && 0 !in t
  {
    CStrCut(text);
    var c := CStr(text);
    if |c| < max then c else c[..max]
  }

  /** netErrorSend: the error code, at most 510 bytes of the message and a
      terminating NUL, so the length is the copied text length plus 2. */
  function ErrorPayload(code: Byte, text: seq<Byte>): (p: seq<Byte>)
    ensures |p| == |Bounded(text, 510)| + 2
    ensures p[0] == code && p[|p| - 1] == 0
  {
    [code] + Bounded(text, 510) + [0]
  }

  /** The client prints the message as the C string after the code byte.
      It reads back the message whenever that is at most 510 bytes long. */
  lemma ErrorTextRecovered(code: Byte, text: seq<Byte>)
    requires |CStr(text)| <= 510
    ensures CStr(ErrorPayload(code, text)[1..]) == CStr(text)
  {
    var t := CStr(text);
    assert ErrorPayload(code, text)[1..] == t + [0];
    CStrTerminated(t);
  }

  /** A NUL-free string followed by a NUL is read back as itself. */
  lemma {:induction false} CStrTerminated(t: seq<Byte>)
    requires 0 !in t
    ensures CStr(t + [0]) == t
  {
    if t != [] {
      assert (t + [0])[1..] == t[1..] + [0];
      CStrTerminated(t[1..]);
    }
  }

  const VersionMajor: int := 1
  const VersionMinor: int := 0
  /** "Yali Server-C V1.0" */
  const VersionText: seq<Byte> := [89, 97, 108, 105, 32, 83, 101, 114, 118, 101, 114, 45, 67, 32, 86, 49, 46, 48]

  /** netVersionSend: major, minor, the protocol byte 1 (LCN), at most 508
      bytes of the version text and a NUL; the length is text + 4. */
  function VersionPayloadOf(major: int, minor: int, text: seq<Byte>): (p: seq<Byte>)
    ensures |p| == |Bounded(text, 508)| + 4
    ensures p[..3] == [ToByte(major), ToByte(minor), 1] && p[|p| - 1] == 0
  {
    [ToByte(major), ToByte(minor), 1] + Bounded(text, 508) + [0]
  }

  /** A version text without NUL bytes and at most 508 bytes long is sent
      whole, and the client reads it back as the C string after the three
      leading bytes. */
  lemma VersionReadBack(major: int, minor: int, text: seq<Byte>)
    requires 0 !in text && |text| <= 508
    ensures VersionPayloadOf(major, minor, text) == [ToByte(major), ToByte(minor), 1] + text + [0]
    ensures CStr(VersionPayloadOf(major, minor, text)[3..]) == text
  {
    CStrNulFree(text);
    assert VersionPayloadOf(major, minor, text)[3..] == text + [0];
    CStrTerminated(text);
  }

  /** The server's own reply: `[1, 0, 1]`, the 18 bytes of its version
      text and a NUL, 22 bytes in all. */
  lemma VersionReply(text: seq<Byte>)
    requires text == VersionText
    ensures VersionPayloadOf(VersionMajor, VersionMinor, text) == [1, 0, 1] + text + [0]
    ensures |VersionPayloadOf(VersionMajor, VersionMinor, text)| == 22
  {
    assert 0 !in text;
    VersionReadBack(VersionMajor, VersionMinor, text);
  }

  /** The big-endian reading of four bytes, as a 32-bit unsigned value. */
  function Be32(b: seq<Byte>): (v: nat)
    requires |b| >= 4
    ensures v < 0x1_0000_0000
  {
    (b[0] as int) * 0x100_0000 + (b[1] as int) * 0x1_0000 + (b[2] as int) * 0x100 + b[3]
  }

  /** netTimeSend: the wall clock narrowed to 32 bits, in network byte
      order. */
  function TimePayload(now: int): (p: seq<Byte>)
    ensures |p| == 4
  {
    var t := now % 0x1_0000_0000;
    [t / 0x100_0000, (t / 0x1_0000) % 256, (t / 0x100) % 256, t % 256]
  }

  /** Reading the time payload big-endian gives the clock modulo 2^32. */
  lemma TimeRoundTrip(now: int)
    ensures Be32(TimePayload(now)) == now % 0x1_0000_0000
  {
    var t := now % 0x1_0000_0000;
    BigEndianDigits(t);
  }

  /** The four bytes of a 32-bit value, most significant first, read back
      as that value; the top byte needs no masking. */
  lemma BigEndianDigits(t: int)
    requires 0 <= t < 0x1_0000_0000
    ensures t / 0x100_0000 < 256 && (t / 0x100_0000) % 256 == t / 0x100_0000
    ensures Be32([t / 0x100_0000, (t / 0x1_0000) % 256, (t / 0x100) % 256, t % 256]) == t
  {
    var d := t % 256;
    var u := t / 256;
    var c := u % 256;
    var u2 := u / 256;
    var b := u2 % 256;
    var a := u2 / 256;
    Split(t, 256, u, d);
    assert t == 256 * u + d;
    assert u == 256 * u2 + c;
    assert u2 == 256 * a + b;
    Split(t, 0x1_0000, u2, 256 * c + d);
    Split(t, 0x100_0000, a, 0x1_0000 * b + 256 * c + d);
    Split(u2, 256, a, b);
    Split(u, 256, u2, c);
  }

  /** Division with remainder is unique. */
  lemma Split(x: int, m: int, q: int, r: int)
    requires m == 256 || m == 0x1_0000 || m == 0x100_0000
    requires x == m * q + r && 0 <= r < m
    ensures x / m == q && x % m == r
  {
    if m == 256 {
      assert x == 256 * q + r;
    } else if m == 0x1_0000 {
      assert x == 0x1_0000 * q + r;
    } else {
      assert x == 0x100_0000 * q + r;
    }
  }

  /** netLightStatusSend and netShutStatusSend: module, output and value,
      each narrowed to a byte. */
  function StatusPayload(m: int, o: int, v: int): (p: seq<Byte>)
    ensures |p| == 3
    ensures 0 <= m < 256 && 0 <= o < 256 && 0 <= v < 256 ==> p == [m, o, v]
  {
    [ToByte(m), ToByte(o), ToByte(v)]
  }
}

=== FILE: net_server.dfy ===
/** The server side of the gateway's TCP protocol (net_io.c): the table of
    four client slots, accepting and closing connections, reassembling
    packets from each client's 128-byte receive buffer, and answering each
    packet (netSockProc).

    Sockets are numbers. What `accept` and `recv` return is a parameter:
    `pending` is the connection `accept` hands over, or None when it would
    block, and `read` holds the bytes one `recv` delivers. An empty `read`
    is the peer closing the connection or an error. */
module NetServer {
  import opened Bytes
  import opened Effects
  import opened NetPacket
  import opened TimeQueue
  import opened LcnFrame
  import Lights
  import Shutters
  import History
  import LcnQueue
  import LcnProc

  /** CLI_NUM (net_io.h:76). */
  const CliNum: nat := 4
  /** The size of a client's receive buffer (net_io.h:81). */
  const RcBufSize: nat := 128

  /** "too many clients" */
  const ServerFullText: seq<Byte> := [116, 111, 111, 32, 109, 97, 110, 121, 32, 99, 108, 105, 101, 110, 116, 115]
  /** "received illegal code" */
  const IllTypeText: seq<Byte> := [114, 101, 99, 101, 105, 118, 101, 100, 32, 105, 108, 108, 101, 103, 97, 108,
                                   32, 99, 111, 100, 101]

  /** `struct netClientDat_s`: the socket (-1 for a free slot), the receive
      buffer, the number of bytes in it, and how many bytes of an overlong
      packet have been thrown away so far. */
  datatype Client = Client(sock: int, buf: seq<Byte>, rcpos: nat, dummy: nat)

  /** The whole length, header included, that the packet at the start of
      the buffer declares. */
  function Declared(buf: seq<Byte>): (n: nat)
    requires |buf| >= 3
    ensures n >= 3 && Header(buf).Some? && n == 3 + Header(buf).value.1
  {
    3 + 256 * (buf[1] as int) + buf[2]
  }

  /** A slot's buffer is full only while an overlong packet is being
      discarded, and then that packet still has bytes to come. */
  predicate ClientOk(c: Client)
  {
    && |c.buf| == RcBufSize && c.rcpos <= RcBufSize
    && (c.rcpos < RcBufSize ==> c.dummy == 0)
    && (c.rcpos == RcBufSize ==> Declared(c.buf) > RcBufSize + c.dummy)
  }

  predicate TableOk(cs: seq<Client>)
  {
    |cs| == CliNum && forall i :: 0 <= i < |cs| ==> ClientOk(cs[i])
  }

  /** The slots as the broadcast loops see them: each slot's socket. */
  function Sockets(cs: seq<Client>): (s: seq<int>)
    ensures |s| == |cs| && forall i :: 0 <= i < |cs| ==> s[i] == cs[i].sock
  {
    seq(|cs|, i requires 0 <= i < |cs| => cs[i].sock)
  }

  /** netServerOpen's initialisation: every slot free and empty. */
  function InitTable(): (cs: seq<Client>)
    ensures TableOk(cs)
    ensures forall i :: 0 <= i < |cs| ==> cs[i].sock == -1 && cs[i].rcpos == 0
  {
    seq(CliNum, i => Client(-1, seq(RcBufSize, j => 0), 0, 0))
  }

  // ---------------------------------------------------------------------
  // Connections

  /** The lowest free slot, if any. */
  function FreeSlot(cs: seq<Client>): (k: Option<nat>)
    ensures k.Some? ==> k.value < |cs| && cs[k.value].sock == -1
                        && forall j :: 0 <= j < k.value ==> cs[j].sock != -1
    ensures k.None? ==> forall j :: 0 <= j < |cs| ==> cs[j].sock != -1
  {
    if cs == [] then None
    else if cs[0].sock == -1 then Some(0)
    else match FreeSlot(cs[1..])
      case None => None
      case Some(k) => Some(k + 1)
  }

  /** netClientAccept. A pending connection takes the lowest free slot;
      with every slot taken it is sent error 1 and closed at once. */
  function Accept(cs: seq<Client>, pending: Option<int>): (r: (seq<Client>, seq<Effect>))
    ensures pending.None? ==> r == (cs, [])
    ensures pending.Some? && FreeSlot(cs).None? ==>
              r.0 == cs
              && r.1 == [Send(pending.value, ErrorReport, ErrorPayload(ErrServerFull, ServerFullText)),
                         Close(pending.value)]
    ensures pending.Some? && FreeSlot(cs).Some? ==>
              var k := FreeSlot(cs).value;
              r.1 == [] && |r.0| == |cs| && r.0[k].sock == pending.value
              && r.0[k].buf == cs[k].buf && r.0[k].rcpos == cs[k].rcpos && r.0[k].dummy == cs[k].dummy
              && forall j :: 0 <= j < |cs| && j != k ==> r.0[j] == cs[j]
  {
    match pending
    case None => (cs, [])
    case Some(s) =>
      match FreeSlot(cs)
      case None => (cs, [Send(s, ErrorReport, ErrorPayload(ErrServerFull, ServerFullText)), Close(s)])
      case Some(k) => (cs[k := cs[k].(sock := s)], [])
  }

  /** netSockTerm: the socket is closed and the slot freed and emptied. */
  function Term(cs: seq<Client>, i: nat): (r: (seq<Client>, seq<Effect>))
    requires i < |cs| && cs[i].sock != -1
    ensures |r.0| == |cs| && r.1 == [Close(cs[i].sock)]
    ensures r.0[i].sock == -1 && r.0[i].rcpos == 0 && r.0[i].dummy == 0 && r.0[i].buf == cs[i].buf
    ensures forall j :: 0 <= j < |cs| && j != i ==> r.0[j] == cs[j]
  {
    (cs[i := Client(-1, cs[i].buf, 0, 0)], [Close(cs[i].sock)])
  }

  /** Accepting and closing keep every slot well formed. */
  lemma ConnectionsKeepTable(cs: seq<Client>, pending: Option<int>, i: nat)
    requires TableOk(cs)
    ensures TableOk(Accept(cs, pending).0)
    ensures i < |cs| && cs[i].sock != -1 ==> TableOk(Term(cs, i).0)
  {
  }

  /** A fifth client is refused while four are connected, and any of
      them leaving frees its slot for the next one. */
  lemma FifthClientRefused(cs: seq<Client>, s: int, i: nat, s2: int)
    requires TableOk(cs) && forall j :: 0 <= j < |cs| ==> cs[j].sock != -1
    requires i < |cs|
    ensures Accept(cs, Some(s)).0 == cs
    ensures Accept(cs, Some(s)).1[0] == Send(s, ErrorReport, ErrorPayload(ErrServerFull, ServerFullText))
    ensures var cs1 := Term(cs, i).0;
            FreeSlot(cs1) == Some(i) && Accept(cs1, Some(s2)).0[i].sock == s2
  {
    var cs1 := Term(cs, i).0;
    assert cs1[i].sock == -1;
    assert forall j :: 0 <= j < |cs1| && j != i ==> cs1[j].sock != -1;
    var k := FreeSlot(cs1);
    assert k.Some?;
    assert k.value == i;
  }

  // ---------------------------------------------------------------------
  // Reassembly

  /** The framing loop of netSockDataGet over the first `rcpos` bytes of
      the buffer. While a whole packet is at the front, it is taken off
      and the rest moves down. The bytes behind the moved data are left
      as they were. The result is the packets in arrival order, the buffer
      after the moves, and the bytes left in it. */
  function Split(buf: seq<Byte>, rcpos: nat): (r: (seq<Pak>, seq<Byte>, nat))
    requires |buf| == RcBufSize && rcpos <= RcBufSize
    ensures |r.1| == RcBufSize && r.2 <= rcpos
    ensures r.2 < 3 || r.2 < Declared(r.1)
    ensures forall k :: 0 <= k < |r.0| ==> 3 + r.0[k].len <= RcBufSize && |r.0[k].data| == RcBufSize - 3
    ensures r.0 == [] ==> r.1 == buf && r.2 == rcpos
    decreases rcpos
  {
    if rcpos < 3 || rcpos < Declared(buf) then ([], buf, rcpos)
    else
      var len := Declared(buf);
      var pak := Pak(buf[0], len - 3, buf[3..]);
      var rest := Split(buf[len..rcpos] + buf[rcpos - len..], rcpos - len);
      ([pak] + rest.0, rest.1, rest.2)
  }

  /** The bytes of a packet as they arrived: header and declared payload. */
  function Arrived(p: Pak): seq<Byte>
    requires p.len <= |p.data|
  {
    Wire(p.kind, p.data[..p.len])
  }

  function ArrivedAll(ps: seq<Pak>): seq<Byte>
    requires forall k :: 0 <= k < |ps| ==> ps[k].len <= |ps[k].data|
  {
    if ps == [] then [] else Arrived(ps[0]) + ArrivedAll(ps[1..])
  }

  /** Nothing is lost or reordered: the bytes that were in the buffer are
      the dispatched packets, in order, followed by the remainder that is
      left at the start of the buffer. */
  lemma {:induction false} SplitConserves(buf: seq<Byte>, rcpos: nat)
    requires |buf| == RcBufSize && rcpos <= RcBufSize
    ensures var r := Split(buf, rcpos);
            buf[..rcpos] == ArrivedAll(r.0) + r.1[..r.2]
    decreases rcpos
  {
    if !(rcpos < 3 || rcpos < Declared(buf)) {
      var len := Declared(buf);
      var buf1 := buf[len..rcpos] + buf[rcpos - len..];
      var r1 := Split(buf1, rcpos - len);
      SplitConserves(buf1, rcpos - len);
      var pak := Pak(buf[0], len - 3, buf[3..]);
      ArrivedHead(buf);
      SplitUnfold(buf, rcpos);
      assert buf1[..rcpos - len] == buf[len..rcpos];
      ConservesStep(buf, rcpos, len, r1, pak);
    }
  }

  /** The packet at the front followed by what the rest of the buffer
      splits into gives back the whole buffer. */
  lemma ConservesStep(buf: seq<Byte>, rcpos: nat, len: nat, r1: (seq<Pak>, seq<Byte>, nat), pak: Pak)
    requires len <= rcpos <= |buf| && r1.2 <= |r1.1|
    requires pak.len <= |pak.data| && forall k :: 0 <= k < |r1.0| ==> r1.0[k].len <= |r1.0[k].data|
    requires Arrived(pak) == buf[..len]
    requires buf[len..rcpos] == ArrivedAll(r1.0) + r1.1[..r1.2]
    ensures buf[..rcpos] == ArrivedAll([pak] + r1.0) + r1.1[..r1.2]
  {
    ArrivedCons(pak, r1.0);
    assert buf[..rcpos] == buf[..len] + buf[len..rcpos];
  }

  /** One round of the framing loop. */
  lemma SplitUnfold(buf: seq<Byte>, rcpos: nat)
    requires |buf| == RcBufSize && rcpos <= RcBufSize && 3 <= Declared(buf) <= rcpos
    ensures var len := Declared(buf);
            var r1 := Split(buf[len..rcpos] + buf[rcpos - len..], rcpos - len);
            Split(buf, rcpos) == ([Pak(buf[0], len - 3, buf[3..])] + r1.0, r1.1, r1.2)
  {
  }

  lemma ArrivedHead(buf: seq<Byte>)
    requires |buf| >= 3 && Declared(buf) <= |buf|
    ensures Arrived(Pak(buf[0], Declared(buf) - 3, buf[3..])) == buf[..Declared(buf)]
  {
    HeaderRoundTrip(buf);
    var n := Declared(buf) - 3;
    assert buf[3..][..n] == buf[3..3 + n];
  }

  lemma ArrivedCons(p: Pak, ps: seq<Pak>)
    requires p.len <= |p.data| && forall k :: 0 <= k < |ps| ==> ps[k].len <= |ps[k].data|
    ensures ArrivedAll([p] + ps) == Arrived(p) + ArrivedAll(ps)
  {
    assert ([p] + ps)[1..] == ps;
  }

  /** A packet whose payload fits the buffer, sent to an empty slot, is
      dispatched whole at once: one packet of that type whose first `len`
      data bytes are the payload, and nothing is left. */
  lemma OnePacketDelivered(buf: seq<Byte>, kind: Byte, payload: seq<Byte>)
    requires |buf| == RcBufSize && |payload| <= RcBufSize - 3
    ensures var w := Wire(kind, payload);
            var (ps, b, n) := Split(w + buf[|w|..], |w|);
            |ps| == 1 && ps[0].kind == kind && ps[0].len == |payload|
            && ps[0].data[..|payload|] == payload && n == 0
  {
    var w := Wire(kind, payload);
    var buf1 := w + buf[|w|..];
    WireRoundTrip(kind, payload);
    assert buf1[..3] == w[..3];
    assert Declared(buf1) == |w|;
    assert buf1[3..][..|payload|] == payload;
  }

  /** A packet declaring more than 125 payload bytes is never dispatched:
      it stays in the buffer until the buffer is full. */
  lemma OverlongNeverDispatched(buf: seq<Byte>, rcpos: nat)
    requires |buf| == RcBufSize && 3 <= rcpos <= RcBufSize && Declared(buf) > RcBufSize
    ensures Split(buf, rcpos) == ([], buf, rcpos)
  {
  }

  // ---------------------------------------------------------------------
  // Answering a packet

  /** The inputs the gateway takes from outside: the wall-clock second
      (`_yaliTime`), the 100 ms tick, and whether a bus interface is
      configured. */
  datatype Env = Env(now: nat, tick: nat, iface: bool)

  /** The state netSockProc reads and writes. */
  datatype Server = Server(tables: LcnProc.Tables, timed: seq<Timed>, hist: History.Hist, clients: seq<Client>)

  predicate ServerOk(sv: Server)
  {
    LcnProc.TablesOk(sv.tables) && Sorted(sv.timed) && History.Valid(sv.hist) && TableOk(sv.clients)
  }

  /** How handling a packet ends: normally with the new state and the
      effects; with a failed `assert`, which ends the process; or in
      undefined behaviour. */
  datatype Reply = Done(sv: Server, effects: seq<Effect>) | Aborted | Unspecified

  /** Adds timed commands one after the other (timeQueueAdd). */
  function InsertAll(q: seq<Timed>, cmds: seq<Timed>): (r: seq<Timed>)
    requires Sorted(q)
    ensures Sorted(r)
    ensures multiset(r) == multiset(q) + multiset(cmds)
    decreases |cmds|
  {
    if cmds == [] then q
    else
      InsertSorted(q, cmds[0]);
      InsertCounts(q, cmds[0]);
      assert cmds == [cmds[0]] + cmds[1..];
      InsertAll(Insert(q, cmds[0]), cmds[1..])
  }

  /** The output command of a LIGHTSTATUSSET: 4, 5 and 3 for outputs 1, 2
      and 3. */
  function OutputCommand(o: int): int
    requires 1 <= o <= 3
  {
    if o == 1 then 4 else if o == 2 then 5 else 3
  }

  /** The frame LIGHTSTATUSSET queues for output `o`: the value capped at
      100 and halved, ramp 4. */
  function LightCommand(m: int, o: int, v: Byte): (f: seq<Byte>)
    requires 1 <= o <= 3
    ensures |f| == 8 && f[5] == OutputCommand(o) && f[6] == (if v > 100 then 100 else v) / 2 && f[7] == 4
  {
    QueuedCommand(m, OutputCommand(o), (if v > 100 then 100 else v) / 2, 4)
  }

  /** The LIGHTSTATUSSET branch. With a bus interface, outputs 1 to 3
      queue a bus command and other outputs are ignored. Without one (test
      mode), the light table is updated directly, with the value
      unclamped. */
  function SetLight(sv: Server, d: seq<Byte>, env: Env): (r: (Server, seq<Effect>))
    requires ServerOk(sv) && |d| >= 3
    ensures ServerOk(r.0) && r.0.clients == sv.clients && r.0.timed == sv.timed
  {
    var t := sv.tables;
    if env.iface then
      if 1 <= d[1] <= 3 then
        (sv.(tables := t.(sendq := LcnQueue.Add(t.sendq, LightCommand(d[0], d[1], d[2])))), [])
      else (sv, [])
    else
      var slots := Sockets(sv.clients);
      Lights.UpdateKeepsStates(t.lights, d[0], d[1], d[2], env.now, slots);
      var u := Lights.Update(t.lights, d[0], d[1], d[2], env.now, slots);
      (sv.(tables := t.(lights := u.0), hist := History.Apply(sv.hist, env.now, u.1)), u.1)
  }

  /** The LIGHTSTATUSGET branch: the first light on the module and output. */
  function GetLight(sv: Server, sock: int, d: seq<Byte>): (es: seq<Effect>)
    requires |d| >= 2
    ensures |es| <= 1
  {
    match Lights.Find(sv.tables.lights, d[0], d[1])
    case None => []
    case Some(k) =>
      var l := sv.tables.lights[k];
      [Send(sock, LightStatusReport, StatusPayload(l.moduleId, l.output, l.state))]
  }

  /** The SHUTSTATUSSET branch. With a bus interface and a known shutter,
      stateShutCommand first asserts `inMin <= inMax`; the timed commands it
      plans go into the delayed-command queue. Without an interface the
      request is ignored. */
  function SetShutter(sv: Server, d: seq<Byte>, env: Env): (r: Reply)
    requires ServerOk(sv) && |d| >= 4
    ensures r.Done? ==> ServerOk(r.sv) && r.sv.clients == sv.clients
    ensures r.Aborted? <==> env.iface && Shutters.PtrGet(sv.tables.shutters, d[0], d[1]).Some? && d[2] > d[3]
    ensures r.Unspecified? ==> !Shutters.ShiftDefined(d[1])
  {
    var t := sv.tables;
    if env.iface && Shutters.PtrGet(t.shutters, d[0], d[1]).Some? then
      if d[2] > d[3] then Aborted
      else
        match Shutters.Command(t.shutters, d[0], d[1], d[2], d[3], env.tick, Sockets(sv.clients))
        case Undefined => Unspecified
        case Defined(mv) =>
          Done(sv.(tables := t.(shutters := mv.0), timed := InsertAll(sv.timed, mv.2),
                   hist := History.Apply(sv.hist, env.now, mv.1)), mv.1)
    else Done(sv, [])
  }

  /** Where the database replies are assembled: in the shared 2512-byte
      `_yaliBuf` (lcn_io.c:34), as written, with no bound on the write, or
      in a buffer as long as the reply. */
  datatype DbBuffer = Shared | Sized

  const YaliBufSize: nat := 2512

  /** A database reply: a write past the shared buffer is undefined. */
  function DbReply(sv: Server, sock: int, kind: Byte, payload: seq<Byte>, buf: DbBuffer): (r: Reply)
    ensures r.Unspecified? <==> buf == Shared && |payload| > YaliBufSize
    ensures !r.Unspecified? ==> r == Done(sv, [Send(sock, kind, payload)])
  {
    if buf == Shared && |payload| > YaliBufSize then Unspecified
    else Done(sv, [Send(sock, kind, payload)])
  }

  /** netSockProc for a packet from socket `sock`, the database replies
      assembled in `buf`. History records among the effects are written to
      the ring at once, stamped with `now`, as stateLightLog and
      stateShutLog do. */
  function SockProcWith(sv: Server, sock: int, p: Pak, env: Env, buf: DbBuffer): (r: Reply)
    requires ServerOk(sv) && |p.data| >= 4
    ensures r.Done? ==> ServerOk(r.sv) && r.sv.clients == sv.clients
    ensures r.Aborted? <==>
              p.kind == ShutStatusSet && env.iface
              && Shutters.PtrGet(sv.tables.shutters, p.data[0], p.data[1]).Some? && p.data[2] > p.data[3]
    ensures r.Unspecified? ==>
              p.kind == ShutStatusGet
              || (p.kind == ShutStatusSet && !Shutters.ShiftDefined(p.data[1]))
              || (buf == Shared && p.kind == ShutterDbGet && |Shutters.DbPayload(sv.tables.shutters)| > YaliBufSize)
              || (buf == Shared && p.kind == LightDbGet && |Lights.DbPayload(sv.tables.lights)| > YaliBufSize)
  {
    var k := p.kind;
    if k == EmptyType then Done(sv, [])
    else if k == VersionGet then
      Done(sv, [Send(sock, VersionReport, VersionPayloadOf(VersionMajor, VersionMinor, VersionText))])
    else if k == TimeGet then Done(sv, [Send(sock, TimeReport, TimePayload(env.now))])
    else if k == LightStatusSet then
      var u := SetLight(sv, p.data, env);
      Done(u.0, u.1)
    else if k == LightStatusGet then Done(sv, GetLight(sv, sock, p.data))
    else if k == ShutStatusSet then SetShutter(sv, p.data, env)
    else if k == ShutStatusGet then Unspecified
    else if k == ShutterDbGet then DbReply(sv, sock, ShutterDbReport, Shutters.DbPayload(sv.tables.shutters), buf)
    else if k == LightDbGet then DbReply(sv, sock, LightDbReport, Lights.DbPayload(sv.tables.lights), buf)
    else if k == NetHistGet then Done(sv, [Send(sock, NetHistReport, History.Export(sv.hist))])
    else Done(sv, [Send(sock, ErrorReport, ErrorPayload(ErrIllType, IllTypeText))])
  }

  /** netSockProc with the database replies assembled in the shared
      2512-byte buffer, as written: a table too large for it makes the
      reply undefined, and every other request is answered as `SockProc`
      answers it. That includes SHUTSTATUSSET, which goes through the
      corrected stateShutCommand in both: the command as written
      (`Shutters.CommandAsWritten`) can store an inverted interval
      (`Shutters.AdaptAsWrittenInverts`), which breaks the invariant
      `ServerOk` that every later request relies on, so it is modelled on
      its own. */
  function SockProcSharedBuffer(sv: Server, sock: int, p: Pak, env: Env): (r: Reply)
    requires ServerOk(sv) && |p.data| >= 4
    ensures p.kind != LightDbGet && p.kind != ShutterDbGet ==> r == SockProc(sv, sock, p, env)
    ensures p.kind == LightDbGet ==> (r.Unspecified? <==> |Lights.DbPayload(sv.tables.lights)| > YaliBufSize)
    ensures p.kind == ShutterDbGet ==> (r.Unspecified? <==> |Shutters.DbPayload(sv.tables.shutters)| > YaliBufSize)
  {
    SockProcWith(sv, sock, p, env, Shared)
  }

  /** netSockProc with the database replies in a buffer of their own size:
      a database request is always answered with the whole table, and the
      server is undefined only for SHUTSTATUSGET and for a relay number the
      shift cannot take. */
  function SockProc(sv: Server, sock: int, p: Pak, env: Env): (r: Reply)
    requires ServerOk(sv) && |p.data| >= 4
    ensures r.Unspecified? ==>
              p.kind == ShutStatusGet || (p.kind == ShutStatusSet && !Shutters.ShiftDefined(p.data[1]))
    ensures p.kind == LightDbGet ==> r == Done(sv, [Send(sock, LightDbReport, Lights.DbPayload(sv.tables.lights))])
    ensures p.kind == ShutterDbGet ==> r == Done(sv, [Send(sock, ShutterDbReport, Shutters.DbPayload(sv.tables.shutters))])
  {
    SockProcWith(sv, sock, p, env, Sized)
  }

  /** Either way, a database reply that fits the shared buffer is sent
      whole; a longer one is sent whole only from a buffer of its own
      size, and is undefined as written. */
  lemma DbGetReply(sv: Server, sock: int, p: Pak, env: Env, buf: DbBuffer)
    requires ServerOk(sv) && |p.data| >= 4 && (p.kind == LightDbGet || p.kind == ShutterDbGet)
    ensures var light := p.kind == LightDbGet;
            var payload := if light then Lights.DbPayload(sv.tables.lights) else Shutters.DbPayload(sv.tables.shutters);
            var r := SockProcWith(sv, sock, p, env, buf);
            (|payload| <= YaliBufSize || buf == Sized ==>
               r == Done(sv, [Send(sock, if light then LightDbReport else ShutterDbReport, payload)]))
            && (|payload| > YaliBufSize && buf == Shared ==> r == Unspecified)
  {
  }

  /** As written, a light table of more than 2512 bytes overflows the
      shared buffer: for instance 100 lights with names of 22 bytes each
      need 2600. */
  lemma LightDbOverflowsAsWritten(sv: Server, sock: int, p: Pak, env: Env, k: nat)
    requires ServerOk(sv) && |p.data| >= 4 && p.kind == LightDbGet
    requires forall i :: 0 <= i < |sv.tables.lights| ==> |CStr(sv.tables.lights[i].name)| >= k
    requires |sv.tables.lights| * (4 + k) > YaliBufSize
    ensures SockProcSharedBuffer(sv, sock, p, env) == Unspecified
    ensures SockProc(sv, sock, p, env) == Done(sv, [Send(sock, LightDbReport, Lights.DbPayload(sv.tables.lights))])
  {
    Lights.DbPayloadAtLeast(sv.tables.lights, k);
  }

  /** The same for the shutter table, whose entries take one byte more. */
  lemma ShutterDbOverflowsAsWritten(sv: Server, sock: int, p: Pak, env: Env, k: nat)
    requires ServerOk(sv) && |p.data| >= 4 && p.kind == ShutterDbGet
    requires forall i :: 0 <= i < |sv.tables.shutters| ==> |CStr(sv.tables.shutters[i].name)| >= k
    requires |sv.tables.shutters| * (5 + k) > YaliBufSize
    ensures SockProcSharedBuffer(sv, sock, p, env) == Unspecified
    ensures SockProc(sv, sock, p, env) == Done(sv, [Send(sock, ShutterDbReport, Shutters.DbPayload(sv.tables.shutters))])
  {
    Shutters.DbPayloadAtLeast(sv.tables.shutters, k);
  }

  /** The packet types netSockProc has a branch for. */
  predicate Known(kind: Byte)
  {
    kind <= ShutStatusSet
  }

  /** Every other type, the raw-send type 0x70 included, is answered with
      error 2 and changes nothing. */
  lemma UnknownTypeRejected(sv: Server, sock: int, p: Pak, env: Env)
    requires ServerOk(sv) && |p.data| >= 4 && !Known(p.kind)
    ensures SockProc(sv, sock, p, env) == Done(sv, [Send(sock, ErrorReport, ErrorPayload(ErrIllType, IllTypeText))])
  {
    var k := p.kind;
    assert k != EmptyType && k != VersionGet && k != TimeGet && k != LightStatusSet && k != LightStatusGet;
    assert k != ShutStatusSet && k != ShutStatusGet && k != ShutterDbGet && k != LightDbGet && k != NetHistGet;
  }

  /** With a bus interface, LIGHTSTATUSSET on output 1, 2 or 3 only queues
      one bus frame, which the gateway itself later reads back as that
      output set to the even value at or below min(v, 100). Other outputs
      change nothing. */
  lemma LightStatusSetQueues(sv: Server, sock: int, p: Pak, env: Env)
    requires ServerOk(sv) && |p.data| >= 4 && p.kind == LightStatusSet && env.iface
    ensures var r := SockProc(sv, sock, p, env);
            r.Done? && r.effects == []
            && if 1 <= p.data[1] <= 3 then
                 var q := r.sv.tables.sendq.queue;
                 r.sv == sv.(tables := sv.tables.(sendq := r.sv.tables.sendq))
                 && q == sv.tables.sendq.queue + [q[|q| - 1]]
                 && LcnProc.Decode(q[|q| - 1])
                    == [LcnProc.LightSet(p.data[0], p.data[1], 2 * ((if p.data[2] > 100 then 100 else p.data[2]) / 2))]
               else r.sv == sv
  {
    var d := p.data;
    if 1 <= d[1] <= 3 {
      LcnProc.LightCommandRoundTrip(d[0], d[1], d[2]);
      var q := SockProc(sv, sock, p, env).sv.tables.sendq.queue;
      assert q[|q| - 1] == LightCommand(d[0], d[1], d[2]);
    }
  }

  /** LIGHTSTATUSGET answers with the state of the first light on the
      requested module and output, and with nothing when there is none. */
  lemma LightStatusGetFirstMatch(sv: Server, sock: int, p: Pak, env: Env)
    requires ServerOk(sv) && |p.data| >= 4 && p.kind == LightStatusGet
    ensures var r := SockProc(sv, sock, p, env);
            r.Done? && r.sv == sv
            && match Lights.Find(sv.tables.lights, p.data[0], p.data[1])
               case None => r.effects == []
               case Some(k) =>
                 r.effects == [Send(sock, LightStatusReport,
                                    [p.data[0], p.data[1], ToByte(sv.tables.lights[k].state)])]
  {
  }

  /** Processing a run of packets in order; the first one that aborts or
      is undefined ends the run. */
  function ProcAll(sv: Server, sock: int, ps: seq<Pak>, env: Env): (r: Reply)
    requires ServerOk(sv) && forall k :: 0 <= k < |ps| ==> |ps[k].data| >= 4
    ensures r.Done? ==> ServerOk(r.sv) && r.sv.clients == sv.clients
    ensures ps == [] ==> r == Done(sv, [])
    decreases |ps|
  {
    if ps == [] then Done(sv, [])
    else
      match SockProc(sv, sock, ps[0], env)
      case Aborted => Aborted
      case Unspecified => Unspecified
      case Done(sv1, e1) =>
        match ProcAll(sv1, sock, ps[1..], env)
        case Aborted => Aborted
        case Unspecified => Unspecified
        case Done(sv2, e2) => Done(sv2, e1 + e2)
  }

  // ---------------------------------------------------------------------
  // Reading from a client

  /** Stores `read` at the fill position and runs the framing loop; the
      slot's buffer and fill count are written back before the packets are
      answered (answers never look at them). */
  function Receive(sv: Server, i: nat, read: seq<Byte>, env: Env): (r: Reply)
    requires ServerOk(sv) && i < CliNum && sv.clients[i].sock != -1
    requires sv.clients[i].rcpos < RcBufSize && 0 < |read| <= RcBufSize - sv.clients[i].rcpos
    ensures r.Done? ==> ServerOk(r.sv)
  {
    var c := sv.clients[i];
    var buf := c.buf[..c.rcpos] + read + c.buf[c.rcpos + |read|..];
    var (ps, b, n) := Split(buf, c.rcpos + |read|);
    assert n == RcBufSize ==> Declared(b) > RcBufSize;
    ProcAll(sv.(clients := sv.clients[i := Client(c.sock, b, n, 0)]), c.sock, ps, env)
  }

  /** Closing a slot whose read failed. */
  function Closed(sv: Server, i: nat): (r: Reply)
    requires ServerOk(sv) && i < CliNum && sv.clients[i].sock != -1
    ensures r.Done? && ServerOk(r.sv)
  {
    var (cs, es) := Term(sv.clients, i);
    Done(sv.(clients := cs), es)
  }

  /** netSockDataGet for slot `i` as written. With a full buffer it
      computes the bytes still to discard from `pak.len`, a local that
      nothing has assigned yet in this call: undefined. (Were it defined,
      the following `recv` of 0 bytes would return 0 and close the
      client.) */
  function SockDataGetAsWritten(sv: Server, i: nat, read: seq<Byte>, env: Env): (r: Reply)
    requires ServerOk(sv) && i < CliNum && sv.clients[i].sock != -1
    requires |read| <= RcBufSize - sv.clients[i].rcpos
    ensures r.Unspecified? <== sv.clients[i].rcpos == RcBufSize
  {
    var c := sv.clients[i];
    if c.rcpos >= RcBufSize then Unspecified
    else if read == [] then Closed(sv, i)
    else Receive(sv, i, read, env)
  }

  /** How many bytes one `recv` may deliver: the free room in the buffer,
      or while discarding, at most the rest of the overlong packet and at
      most 128. */
  function ReadLimit(c: Client): nat
    requires ClientOk(c)
  {
    if c.rcpos < RcBufSize then RcBufSize - c.rcpos
    else
      var rest := Declared(c.buf) - RcBufSize - c.dummy;
      if rest < RcBufSize then rest else RcBufSize
  }

  /** netSockDataGet as intended. With a full buffer, the bytes of the
      overlong packet at its start are read and thrown away, up to the
      length its header declares; then the slot is empty again. A failed
      read closes the client once. */
  function SockDataGet(sv: Server, i: nat, read: seq<Byte>, env: Env): (r: Reply)
    requires ServerOk(sv) && i < CliNum && sv.clients[i].sock != -1
    requires |read| <= ReadLimit(sv.clients[i])
    ensures r.Done? ==> ServerOk(r.sv)
    ensures r.Done? ==> forall j :: 0 <= j < CliNum && j != i ==> r.sv.clients[j] == sv.clients[j]
    ensures read == [] ==> r == Closed(sv, i)
    ensures sv.clients[i].rcpos == RcBufSize && read != [] ==>
              r.Done? && r.effects == [] && r.sv.tables == sv.tables
              && var c := r.sv.clients[i];
                 c.sock == sv.clients[i].sock
                 && (c.rcpos == 0 <==> sv.clients[i].dummy + |read| == Declared(sv.clients[i].buf) - RcBufSize)
  {
    var c := sv.clients[i];
    if read == [] then Closed(sv, i)
    else if c.rcpos == RcBufSize then
      var dummy := c.dummy + |read|;
      var c1 := if dummy == Declared(c.buf) - RcBufSize then c.(rcpos := 0, dummy := 0) else c.(dummy := dummy);
      Done(sv.(clients := sv.clients[i := c1]), [])
    else Receive(sv, i, read, env)
  }

  /** Both agree whenever the buffer is not full. */
  lemma SockDataGetAgrees(sv: Server, i: nat, read: seq<Byte>, env: Env)
    requires ServerOk(sv) && i < CliNum && sv.clients[i].sock != -1
    requires sv.clients[i].rcpos < RcBufSize && |read| <= RcBufSize - sv.clients[i].rcpos
    ensures SockDataGetAsWritten(sv, i, read, env) == SockDataGet(sv, i, read, env)
  {
  }

  /** The header of a packet declaring 256 payload bytes, followed by the
      125 payload bytes that still fit the buffer. */
  function OverlongStart(): (w: seq<Byte>)
    ensures |w| == RcBufSize && Declared(w) == 259
  {
    [NetHistGet, 1, 0] + seq(125, j => 0)
  }

  /** As written, a packet longer than the buffer jams the slot: the
      buffer fills without any packet being dispatched, and the next call
      for that client is undefined, whatever arrives. */
  lemma OverlongPacketAsWritten(sv: Server, i: nat, env: Env)
    requires ServerOk(sv) && i < CliNum && sv.clients[i].sock != -1 && sv.clients[i].rcpos == 0
    ensures var r := SockDataGetAsWritten(sv, i, OverlongStart(), env);
            r.Done? && r.effects == [] && r.sv.clients[i].rcpos == RcBufSize
            && SockDataGetAsWritten(r.sv, i, [], env).Unspecified?
  {
    var c := sv.clients[i];
    var w := OverlongStart();
    assert c.buf[..0] + w + c.buf[RcBufSize..] == w;
  }

  /** As intended, the remaining 131 bytes of that packet are read and
      thrown away, 128 and then 3, and the slot is empty again: nothing is
      answered and no table changes. */
  lemma OverlongPacketDiscarded(sv: Server, i: nat, env: Env, more: seq<Byte>, last: seq<Byte>)
    requires ServerOk(sv) && i < CliNum && sv.clients[i].sock != -1 && sv.clients[i].rcpos == 0
    requires |more| == RcBufSize && |last| == 3
    ensures var r1 := SockDataGet(sv, i, OverlongStart(), env);
            r1.Done? && r1.sv.clients[i].rcpos == RcBufSize && r1.sv.clients[i].dummy == 0
            && var r2 := SockDataGet(r1.sv, i, more, env);
               r2.Done? && r2.sv.clients[i].rcpos == RcBufSize && r2.sv.clients[i].dummy == RcBufSize
               && var r3 := SockDataGet(r2.sv, i, last, env);
                  r3.Done? && r3.sv.clients[i].rcpos == 0 && r3.sv.clients[i].dummy == 0
                  && r3.sv.tables == sv.tables && r1.effects + r2.effects + r3.effects == []
  {
    var c := sv.clients[i];
    var w := OverlongStart();
    assert c.buf[..0] + w + c.buf[RcBufSize..] == w;
  }
}

=== FILE: serv.dfy ===
/** The periodic work of yaliServ.c: the status refresh that keeps every
    light's state fresh by asking its module for a status report, and the
    hand-over of due timed commands to the bus queue.

    `now` is the wall-clock second (`_yaliTime`, read by yaliTimeAdapt) and
    `tick` the 100 ms counter; both are parameters. */
module Serv {
  import opened Bytes
  import opened Effects
  import opened Lights
  import opened LcnFrame
  import opened TimeQueue
  import opened LcnQueue

  /** Seconds after which a light's state counts as stale. */
  const RefreshAge: int := 600
  /** How much yaliScheduleRefresh ages a light. */
  const Advance: int := 55

  /** The status request for a module: command 0x6E with 0xFB, 0x01. */
  function StatusRequest(m: int): (f: seq<Byte>)
    ensures |f| == 8 && f[4] == ToByte(m) && f[5] == 0x6E && f[6] == 0xFB && f[7] == 1
  {
    QueuedCommand(m, 0x6E, 0xFB, 0x01)
  }

  /** How many seconds past its refresh age a light is at `now`. */
  function Overdue(l: Light, now: int): int
  {
    now - (l.time + RefreshAge)
  }

  /** yaliScheduleRefresh(m): every light on module `m` is aged by 55
      seconds of staleness, so that it is requested earlier; other lights
      are untouched. */
  function ScheduleRefresh(lights: seq<Light>, m: int, now: int): (r: seq<Light>)
    ensures |r| == |lights|
    ensures forall i :: 0 <= i < |lights| ==>
              if lights[i].moduleId == m
              then r[i] == lights[i].(time := now - Advance) && Overdue(r[i], now) == Advance - RefreshAge
              else r[i] == lights[i]
  {
    seq(|lights|, i requires 0 <= i < |lights| =>
      if lights[i].moduleId == m then lights[i].(time := now - Advance) else lights[i])
  }

  /** The scan of yaliRefresh from index `i`: `best` is the light chosen so
      far and `max` its overdue time (0 before any). A light replaces the
      choice only when it is strictly more overdue. */
  function StalestFrom(lights: seq<Light>, now: int, i: nat, best: Option<nat>, max: int): (r: Option<nat>)
    requires i <= |lights| && max >= 0
    requires best.None? ==> max == 0 && forall j :: 0 <= j < i ==> Overdue(lights[j], now) <= 0
    requires best.Some? ==> best.value < i && max == Overdue(lights[best.value], now) && max > 0
                            && (forall j :: 0 <= j < i ==> Overdue(lights[j], now) <= max)
                            && (forall j :: 0 <= j < best.value ==> Overdue(lights[j], now) < max)
    ensures r.None? ==> forall j :: 0 <= j < |lights| ==> Overdue(lights[j], now) <= 0
    ensures r.Some? ==> r.value < |lights| && Overdue(lights[r.value], now) > 0
                        && (forall j :: 0 <= j < |lights| ==> Overdue(lights[j], now) <= Overdue(lights[r.value], now))
                        && (forall j :: 0 <= j < r.value ==> Overdue(lights[j], now) < Overdue(lights[r.value], now))
    decreases |lights| - i
  {
    if i == |lights| then best
    else if Overdue(lights[i], now) > max then StalestFrom(lights, now, i + 1, Some(i), Overdue(lights[i], now))
    else StalestFrom(lights, now, i + 1, best, max)
  }

  /** The light to refresh: the most overdue one, the first of several
      equally overdue, or none when no light is overdue. */
  function Stalest(lights: seq<Light>, now: int): (r: Option<nat>)
    ensures r.None? ==> forall j :: 0 <= j < |lights| ==> Overdue(lights[j], now) <= 0
    ensures r.Some? ==> r.value < |lights| && Overdue(lights[r.value], now) > 0
                        && (forall j :: 0 <= j < |lights| ==> Overdue(lights[j], now) <= Overdue(lights[r.value], now))
                        && (forall j :: 0 <= j < r.value ==> Overdue(lights[j], now) < Overdue(lights[r.value], now))
  {
    StalestFrom(lights, now, 0, None, 0)
  }

  /** The state yaliRefresh reads and writes: the lights, the timed queue,
      the bus send queue, and the second of the last status request (the
      static `ltime`). */
  datatype Refreshing = Refreshing(lights: seq<Light>, timed: seq<Timed>, sendq: SendQueue, lastRequest: int)

  /** yaliRefresh at wall-clock second `now` and tick `tick`. A due timed
      command is moved to the send queue and nothing else happens in that
      call. Otherwise, at most once per second, the most overdue light's
      module is asked for its status and that light counts as fresh. */
  function Refresh(st: Refreshing, now: int, tick: int): (r: Refreshing)
    ensures |r.lights| == |st.lights|
    ensures r.sendq.wait == st.sendq.wait && r.sendq.rep == st.sendq.rep
    ensures |st.sendq.queue| <= |r.sendq.queue| <= |st.sendq.queue| + 1
    ensures r.sendq.queue[..|st.sendq.queue|] == st.sendq.queue
    ensures PopDue(st.timed, tick).0.Some? ==>
              r.timed == st.timed[1..] && r.lights == st.lights && r.lastRequest == st.lastRequest
              && r.sendq.queue == st.sendq.queue + [st.timed[0].frame]
    ensures PopDue(st.timed, tick).0.None? ==> r.timed == st.timed
    ensures r.lastRequest != st.lastRequest ==> r.lastRequest == now
    ensures forall j :: 0 <= j < |st.lights| && r.lights[j] != st.lights[j] ==>
              Overdue(st.lights[j], now) > 0 && r.lights[j] == st.lights[j].(time := now)
  {
    match PopDue(st.timed, tick).0
    case Some(t) => st.(timed := st.timed[1..], sendq := LcnQueue.Add(st.sendq, t.frame))
    case None =>
      if st.lastRequest == now then st
      else
        match Stalest(st.lights, now)
        case None => st
        case Some(k) =>
          st.(lights := st.lights[k := st.lights[k].(time := now)],
              sendq := LcnQueue.Add(st.sendq, StatusRequest(st.lights[k].moduleId)),
              lastRequest := now)
  }

  /** At most one status request is queued per wall-clock second: a second
      call in the same second only ever hands over timed commands. */
  lemma OneRequestPerSecond(st: Refreshing, now: int, tick: int, tick2: int)
    requires PopDue(st.timed, tick).0.None?
    requires |Refresh(st, now, tick).sendq.queue| > |st.sendq.queue|
    ensures var r := Refresh(st, now, tick);
            var r2 := Refresh(r, now, tick2);
            r.lastRequest == now
            && (PopDue(r.timed, tick2).0.None? ==> r2 == r)
  {
  }

  /** The light that was asked about is no longer overdue, and no other
      light's refresh time moved. */
  lemma RequestedLightFresh(st: Refreshing, now: int, tick: int)
    requires PopDue(st.timed, tick).0.None? && st.lastRequest != now
    requires Stalest(st.lights, now).Some?
    ensures var k := Stalest(st.lights, now).value;
            var r := Refresh(st, now, tick);
            Overdue(r.lights[k], now) == -RefreshAge
            && forall j :: 0 <= j < |st.lights| && j != k ==> r.lights[j] == st.lights[j]
  {
  }

  /** A light not refreshed for more than 600 seconds makes the call
      queue a status request, unless a timed command is due or a request
      was already made in this second. */
  lemma OverdueLightTriggersRequest(st: Refreshing, now: int, tick: int, k: nat)
    requires PopDue(st.timed, tick).0.None? && st.lastRequest != now
    requires k < |st.lights| && Overdue(st.lights[k], now) > 0
    ensures |Refresh(st, now, tick).sendq.queue| == |st.sendq.queue| + 1
    ensures Refresh(st, now, tick).lastRequest == now
  {
  }
}

=== FILE: shutters.dfy ===
/** The shutter table of state.c: for every shutter the gateway keeps an
    interval [posMin, posMax] (0 closed, 1 open) known to contain the
    shutter's position, widened by timing uncertainty while it moves and
    narrowed when it reaches an end stop.

    Positions and times are `real`; the source computes in `float` and
    `double`, and `floor(0.5 + x)` is modelled by `Round`. Ticks are 100 ms,
    so the clock of a shutter is `0.1 * tick` seconds. */
module Shutters {
  import opened Bytes
  import opened Effects
  import opened LcnFrame
  import opened TimeQueue

  /** `struct shutter_s` (state.h:36-48): travel times for a full run up
      and down, the position interval, the time of the last update and the
      current direction (1 up, -1 down, 0 still). */
  datatype Shutter = Shutter(name: seq<Byte>, moduleId: int, rnum: int,
                             upTime: real, downTime: real,
                             posMin: real, posMax: real, time: real, move: int)

  /** Travel times are positive and the interval lies within [0, 1]. */
  predicate Sane(s: Shutter)
  {
    s.upTime > 0.0 && s.downTime > 0.0 && 0.0 <= s.posMin <= s.posMax <= 1.0
  }

  predicate AllSane(ss: seq<Shutter>)
  {
    forall i :: 0 <= i < |ss| ==> Sane(ss[i])
  }

  predicate SameIdentity(a: Shutter, b: Shutter)
  {
    a.name == b.name && a.moduleId == b.moduleId && a.rnum == b.rnum
    && a.upTime == b.upTime && a.downTime == b.downTime
  }

  /** The 32-bit tick counter wraps after 429496729.6 seconds. */
  const WrapSeconds: real := 429496729.6
  /** Timing uncertainty of one observation, in seconds. */
  const Jitter: real := 0.064

  function Clock(tick: nat): real
  {
    0.1 * tick as real
  }

  /** `while (diff < 0) diff += 429496729.6;` */
  function Unwrap(d: real): (r: real)
    ensures r >= 0.0
    ensures d >= 0.0 ==> r == d
    decreases if d < 0.0 then (-d / WrapSeconds).Floor + 1 else 0
  {
    if d >= 0.0 then d
    else
      assert (-(d + WrapSeconds) / WrapSeconds) == -d / WrapSeconds - 1.0;
      Unwrap(d + WrapSeconds)
  }

  function Max(a: real, b: real): real
  {
    if a >= b then a else b
  }

  function Min(a: real, b: real): real
  {
    if a <= b then a else b
  }

  /** Clamping to [0, 1]. */
  function Clamp(x: real): (r: real)
    ensures 0.0 <= r <= 1.0
    ensures 0.0 <= x <= 1.0 ==> r == x
  {
    if x < 0.0 then 0.0 else if x > 1.0 then 1.0 else x
  }

  lemma ClampMonotone(x: real, y: real)
    requires x <= y
    ensures Clamp(x) <= Clamp(y)
  {
  }

  /** The reported position: the rounded midpoint, in percent. */
  function Percent(s: Shutter): int
  {
    Round(50.0 * (s.posMin + s.posMax))
  }

  /** `[module, shutter, percent]`, the payload of a shutter report and
      of a history record. */
  function StatusPayload(s: Shutter): seq<Byte>
  {
    [ToByte(s.moduleId), ToByte(s.rnum), ToByte(Percent(s))]
  }

  function LogOf(s: Shutter): Effect
  {
    Log(ShutterKind, ToByte(s.moduleId), ToByte(s.rnum), ToByte(Percent(s)))
  }

  function Report(s: Shutter, slots: seq<int>): seq<Effect>
  {
    Broadcast(slots, ShutStatusReport, StatusPayload(s))
  }

  /** The interval after `elapsed` seconds of the current movement, each
      bound moved by the elapsed time plus or minus the jitter and clamped:
      it stays within [0, 1], and moves in the direction of travel. */
  function Advance(s: Shutter, elapsed: real): (r: (real, real))
    requires Sane(s) && elapsed >= 0.0
    ensures 0.0 <= r.0 <= r.1 <= 1.0
    ensures s.move == 0 ==> r == (s.posMin, s.posMax)
    ensures s.move > 0 ==> r.0 >= s.posMin && r.1 >= s.posMax
    ensures s.move < 0 ==> r.0 <= s.posMin && r.1 <= s.posMax
  {
    var dMin := Max(elapsed - Jitter, 0.0);
    var dMax := elapsed + Jitter;
    if s.move > 0 then
      DivMonotone(dMin, dMax, s.upTime);
      (Min(s.posMin + dMin / s.upTime, 1.0), Min(s.posMax + dMax / s.upTime, 1.0))
    else if s.move < 0 then
      DivMonotone(dMin, dMax, s.downTime);
      (Max(s.posMin - dMax / s.downTime, 0.0), Max(s.posMax - dMin / s.downTime, 0.0))
    else
      (s.posMin, s.posMax)
  }

  lemma DivMonotone(a: real, b: real, t: real)
    requires 0.0 <= a <= b && t > 0.0
    ensures 0.0 <= a / t <= b / t
  {
  }

  /** stateShutUpdate2(p, dir) at tick `tick`: advance the interval over the
      time since the last update, stamp the time, log the position, report
      it to the clients only if the shutter was moving, then record the new
      direction. */
  function Update2(s: Shutter, dir: int, tick: nat, slots: seq<int>): (r: (Shutter, seq<Effect>))
    requires Sane(s)
    ensures Sane(r.0) && SameIdentity(r.0, s)
    ensures r.0.move == dir && r.0.time == Clock(tick)
    ensures s.move == 0 ==> r.0.posMin == s.posMin && r.0.posMax == s.posMax
    ensures s.move > 0 ==> r.0.posMin >= s.posMin && r.0.posMax >= s.posMax
    ensures s.move < 0 ==> r.0.posMin <= s.posMin && r.0.posMax <= s.posMax
    ensures r.1 == [LogOf(r.0)] + (if s.move != 0 then Report(r.0, slots) else [])
  {
    var iv := Advance(s, Unwrap(Clock(tick) - s.time));
    var s1 := s.(time := Clock(tick), posMin := iv.0, posMax := iv.1, move := dir);
    (s1, [LogOf(s1)] + (if s.move != 0 then Report(s1, slots) else []))
  }

  /** The interval estimate is sound: if the shutter really was inside the
      old interval and really ran `elapsed` seconds (within the jitter of
      the measured time) in its direction, it is inside the new interval. */
  lemma AdvanceSound(s: Shutter, measured: real, elapsed: real, pos: real)
    requires Sane(s) && measured >= 0.0 && elapsed >= 0.0
    requires measured - Jitter <= elapsed <= measured + Jitter
    requires s.posMin <= pos <= s.posMax
    ensures var (lo, hi) := Advance(s, measured);
            var truth := if s.move > 0 then Min(pos + elapsed / s.upTime, 1.0)
                         else if s.move < 0 then Max(pos - elapsed / s.downTime, 0.0)
                         else pos;
            lo <= truth <= hi
  {
    var dMin := Max(measured - Jitter, 0.0);
    var dMax := measured + Jitter;
    DivMonotone(dMin, elapsed, s.upTime);
    DivMonotone(elapsed, dMax, s.upTime);
    DivMonotone(dMin, elapsed, s.downTime);
    DivMonotone(elapsed, dMax, s.downTime);
  }

  /** Index of the first shutter on (module, rnum) (stateShutPtrGet). */
  function PtrGet(ss: seq<Shutter>, m: int, r: int): (k: Option<nat>)
    ensures k.Some? ==> k.value < |ss| && ss[k.value].moduleId == m && ss[k.value].rnum == r
                        && forall j :: 0 <= j < k.value ==> !(ss[j].moduleId == m && ss[j].rnum == r)
    ensures k.None? ==> forall j :: 0 <= j < |ss| ==> !(ss[j].moduleId == m && ss[j].rnum == r)
  {
    if ss == [] then None
    else if ss[0].moduleId == m && ss[0].rnum == r then Some(0)
    else match PtrGet(ss[1..], m, r)
      case None => None
      case Some(k) => Some(k + 1)
  }

  /** stateShutGet: the rounded midpoint in percent, or -1 when unknown. */
  function Get(ss: seq<Shutter>, m: int, r: int): (v: int)
    ensures PtrGet(ss, m, r).None? ==> v == -1
    ensures AllSane(ss) ==> (v == -1 <==> PtrGet(ss, m, r).None?)
    ensures AllSane(ss) && PtrGet(ss, m, r).Some? ==> 0 <= v <= 100
  {
    match PtrGet(ss, m, r)
    case None => -1
    case Some(k) => Percent(ss[k])
  }

  /** stateShutUpdate: the first shutter on (module, rnum) gets Update2;
      a command for an unknown shutter is ignored. */
  function Update(ss: seq<Shutter>, m: int, r: int, dir: int, tick: nat, slots: seq<int>)
    : (res: (seq<Shutter>, seq<Effect>))
    requires AllSane(ss)
    ensures AllSane(res.0) && |res.0| == |ss|
    ensures PtrGet(ss, m, r).None? ==> res == (ss, [])
    ensures PtrGet(ss, m, r).Some? ==>
              var k := PtrGet(ss, m, r).value;
              res.0 == ss[k := Update2(ss[k], dir, tick, slots).0]
              && res.1 == Update2(ss[k], dir, tick, slots).1
  {
    match PtrGet(ss, m, r)
    case None => (ss, [])
    case Some(k) =>
      var u := Update2(ss[k], dir, tick, slots);
      (ss[k := u.0], u.1)
  }

  /** stateShutCreate: prepend a shutter in an unknown position, still. */
  function Create(ss: seq<Shutter>, m: int, r: int, name: seq<Byte>, up: real, down: real): (res: seq<Shutter>)
    ensures |res| == |ss| + 1 && res[1..] == ss
    ensures res[0].moduleId == m && res[0].rnum == r && res[0].name == CStr(name)
    ensures res[0].upTime == up && res[0].downTime == down && res[0].time == 0.0
    ensures res[0].posMin == 0.0 && res[0].posMax == 1.0 && res[0].move == 0
    ensures up > 0.0 && down > 0.0 && AllSane(ss) ==> AllSane(res)
  {
    [Shutter(CStr(name), m, r, up, down, 0.0, 1.0, 0.0, 0)] + ss
  }

  /** A created shutter is the one stateShutPtrGet finds from then on, and
      stateShutGet reports it at 50 percent, the midpoint of its unknown
      position; every other (module, rnum) finds what it found before. */
  lemma CreateFinds(ss: seq<Shutter>, m: int, r: int, name: seq<Byte>, up: real, down: real, m2: int, r2: int)
    ensures PtrGet(Create(ss, m, r, name, up, down), m, r) == Some(0)
    ensures Get(Create(ss, m, r, name, up, down), m, r) == 50
    ensures (m2, r2) != (m, r) ==>
              match PtrGet(ss, m2, r2)
              case None => PtrGet(Create(ss, m, r, name, up, down), m2, r2).None?
              case Some(k) => PtrGet(Create(ss, m, r, name, up, down), m2, r2) == Some(k + 1)
  {
    var c := Create(ss, m, r, name, up, down);
    assert c[1..] == ss;
  }

  // ---------------------------------------------------------------------
  // End-stop detection

  /** Seconds since the shutter's last update, across a wrap of the tick
      counter. */
  function Elapsed(s: Shutter, tick: nat): (e: real)
    ensures e >= 0.0
  {
    Unwrap(Clock(tick) - s.time)
  }

  /** One shutter in stateShutCheck: a shutter moving up whose lower bound
      would pass 1 is at the top, one moving down whose upper bound would
      pass 0 is at the bottom. Only then it stops, is pinned there, and the
      position is logged and reported. */
  function CheckOne(s: Shutter, tick: nat, slots: seq<int>): (r: (Shutter, seq<Effect>))
    requires Sane(s)
    ensures Sane(r.0) && SameIdentity(r.0, s) && r.0.time == s.time
    ensures r.1 == [] <==> r.0 == s
    ensures r.1 != [] ==>
              r.0.move == 0 && r.0.posMin == r.0.posMax && (r.0.posMin == 0.0 || r.0.posMin == 1.0)
              && r.1 == [LogOf(r.0)] + Report(r.0, slots)
  {
    var dMin := Max(Elapsed(s, tick) - Jitter, 0.0);
    if s.move > 0 && s.posMin < 1.0 && s.posMin + dMin / s.upTime > 1.0 then
      var s1 := s.(move := 0, posMin := 1.0, posMax := 1.0);
      (s1, [LogOf(s1)] + Report(s1, slots))
    else if !(s.move > 0 && s.posMin < 1.0) && s.move < 0 && s.posMax > 0.0
            && s.posMax - dMin / s.downTime < 0.0 then
      var s1 := s.(move := 0, posMin := 0.0, posMax := 0.0);
      (s1, [LogOf(s1)] + Report(s1, slots))
    else
      (s, [])
  }

  /** A shutter moving up has reached the top once it has run, less the
      jitter, longer than the rest of a full upward run takes. */
  predicate AtTop(s: Shutter, tick: nat)
  {
    s.move > 0 && s.posMin < 1.0 && Elapsed(s, tick) - Jitter > (1.0 - s.posMin) * s.upTime
  }

  /** The mirror image: a shutter moving down has run longer than its
      upper bound's worth of a full downward run. */
  predicate AtBottom(s: Shutter, tick: nat)
  {
    s.move < 0 && s.posMax > 0.0 && Elapsed(s, tick) - Jitter > s.posMax * s.downTime
  }

  /** `a / t > c` exactly when `a > c * t`, for a positive time `t`. */
  lemma {:induction false} OverRun(a: real, t: real, c: real)
    requires t > 0.0
    ensures a / t > c <==> a > c * t
  {
    assert a == (a / t) * t;
    if a / t > c {
      assert (a / t) * t > c * t;
    }
  }

  lemma {:induction false} CheckTop(s: Shutter, tick: nat, slots: seq<int>)
    requires Sane(s) && AtTop(s, tick)
    ensures var s1 := s.(move := 0, posMin := 1.0, posMax := 1.0);
            CheckOne(s, tick, slots) == (s1, [LogOf(s1)] + Report(s1, slots))
  {
    OverRun(Max(Elapsed(s, tick) - Jitter, 0.0), s.upTime, 1.0 - s.posMin);
  }

  lemma {:induction false} CheckBottom(s: Shutter, tick: nat, slots: seq<int>)
    requires Sane(s) && AtBottom(s, tick)
    ensures var s1 := s.(move := 0, posMin := 0.0, posMax := 0.0);
            CheckOne(s, tick, slots) == (s1, [LogOf(s1)] + Report(s1, slots))
  {
    OverRun(Max(Elapsed(s, tick) - Jitter, 0.0), s.downTime, s.posMax);
  }

  lemma {:induction false} CheckNeither(s: Shutter, tick: nat, slots: seq<int>)
    requires Sane(s) && !AtTop(s, tick) && !AtBottom(s, tick)
    ensures CheckOne(s, tick, slots) == (s, [])
  {
    var dMin := Max(Elapsed(s, tick) - Jitter, 0.0);
    OverRun(dMin, s.upTime, 1.0 - s.posMin);
    OverRun(dMin, s.downTime, s.posMax);
  }

  /** The check stops a shutter exactly when it has reached an end stop:
      at the top it is pinned to [1, 1], at the bottom to [0, 0], and then
      it emits one history record and one report per client. Any other
      shutter is left as it is and emits nothing. */
  lemma {:induction false} CheckOneCases(s: Shutter, tick: nat, slots: seq<int>)
    requires Sane(s)
    ensures var (s1, es) := CheckOne(s, tick, slots);
            Sane(s1) && SameIdentity(s1, s) && s1.time == s.time
            && (AtTop(s, tick) ==>
                  s1 == s.(move := 0, posMin := 1.0, posMax := 1.0) && es == [LogOf(s1)] + Report(s1, slots))
            && (AtBottom(s, tick) ==>
                  s1 == s.(move := 0, posMin := 0.0, posMax := 0.0) && es == [LogOf(s1)] + Report(s1, slots))
            && (!AtTop(s, tick) && !AtBottom(s, tick) ==> s1 == s && es == [])
  {
    if AtTop(s, tick) {
      CheckTop(s, tick, slots);
    } else if AtBottom(s, tick) {
      CheckBottom(s, tick, slots);
    } else {
      CheckNeither(s, tick, slots);
    }
  }

  /** Convergence upwards: a shutter moving up from below the top is stopped
      at [1, 1] once its run, less the jitter, exceeds the time the rest of
      the way up takes. */
  lemma StopsAtTop(s: Shutter, tick: nat, slots: seq<int>)
    requires Sane(s) && s.move > 0 && s.posMin < 1.0
    requires Elapsed(s, tick) - Jitter > (1.0 - s.posMin) * s.upTime
    ensures CheckOne(s, tick, slots).0 == s.(move := 0, posMin := 1.0, posMax := 1.0)
  {
    CheckOneCases(s, tick, slots);
  }

  /** Convergence downwards, the mirror image. */
  lemma StopsAtBottom(s: Shutter, tick: nat, slots: seq<int>)
    requires Sane(s) && s.move < 0 && s.posMax > 0.0
    requires Elapsed(s, tick) - Jitter > s.posMax * s.downTime
    ensures CheckOne(s, tick, slots).0 == s.(move := 0, posMin := 0.0, posMax := 0.0)
  {
    CheckOneCases(s, tick, slots);
  }

  /** A still shutter is never changed by the check. */
  lemma CheckStillUnchanged(s: Shutter, tick: nat, slots: seq<int>)
    requires Sane(s) && s.move == 0
    ensures CheckOne(s, tick, slots) == (s, [])
  {
  }

  /** The effects of the check, shutter by shutter, in list order. */
  function CheckEffects(ss: seq<Shutter>, tick: nat, slots: seq<int>): (r: seq<seq<Effect>>)
    requires AllSane(ss)
    ensures |r| == |ss|
    ensures forall i :: 0 <= i < |ss| ==> r[i] == CheckOne(ss[i], tick, slots).1
  {
    if ss == [] then [] else [CheckOne(ss[0], tick, slots).1] + CheckEffects(ss[1..], tick, slots)
  }

  function Concat(xs: seq<seq<Effect>>): seq<Effect>
  {
    if xs == [] then [] else xs[0] + Concat(xs[1..])
  }

  /** stateShutCheck: every shutter in list order. The effects are those of
      the shutters one after the other. */
  function Check(ss: seq<Shutter>, tick: nat, slots: seq<int>): (r: (seq<Shutter>, seq<Effect>))
    requires AllSane(ss)
    ensures |r.0| == |ss|
    ensures forall i :: 0 <= i < |ss| ==> r.0[i] == CheckOne(ss[i], tick, slots).0
    ensures r.1 == Concat(CheckEffects(ss, tick, slots))
  {
    if ss == [] then ([], [])
    else
      var (s1, es) := CheckOne(ss[0], tick, slots);
      var rest := Check(ss[1..], tick, slots);
      var xs := CheckEffects(ss, tick, slots);
      assert xs[1..] == CheckEffects(ss[1..], tick, slots);
      ([s1] + rest.0, es + rest.1)
  }

  lemma CheckKeepsSane(ss: seq<Shutter>, tick: nat, slots: seq<int>)
    requires AllSane(ss)
    ensures AllSane(Check(ss, tick, slots).0)
  {
    forall i | 0 <= i < |ss|
      ensures Sane(Check(ss, tick, slots).0[i])
    {
      CheckOneCases(ss[i], tick, slots);
    }
  }

  /** The shutter database payload (stateShutDbSend): per shutter
      `[module, rnum, round(100 posMin), round(100 posMax)] ++ name ++ [0]`,
      in list order. */
  function DbEntry(s: Shutter): (e: seq<Byte>)
    ensures |e| == 5 + |CStr(s.name)|
  {
    [ToByte(s.moduleId), ToByte(s.rnum), ToByte(Round(100.0 * s.posMin)), ToByte(Round(100.0 * s.posMax))]
      + CStr(s.name) + [0]
  }

  function DbPayload(ss: seq<Shutter>): seq<Byte>
  {
    if ss == [] then [] else DbEntry(ss[0]) + DbPayload(ss[1..])
  }

  /** With names of at least `k` bytes, every entry takes at least `5 + k`
      bytes. */
  lemma {:induction false} DbPayloadAtLeast(ss: seq<Shutter>, k: nat)
    requires forall i :: 0 <= i < |ss| ==> |CStr(ss[i].name)| >= k
    ensures |DbPayload(ss)| >= |ss| * (5 + k)
    decreases |ss|
  {
    if ss != [] {
      DbPayloadAtLeast(ss[1..], k);
      assert |ss| * (5 + k) == (5 + k) + (|ss| - 1) * (5 + k);
    }
  }

  // ---------------------------------------------------------------------
  // Moving a shutter to a target position (stateShutAdapt)

  const Up: int := 0x32
  const Down: int := 0x30

  function Pow4(n: nat): (p: nat)
    ensures p >= 1
  {
    if n == 0 then 1 else 4 * Pow4(n - 1)
  }

  /** The reference the movement is planned from: beyond the far end for
      the targets 0 and 1 (so the shutter runs into its end stop), the
      midpoint otherwise. */
  function From(s: Shutter, target: real): real
  {
    if target == 0.0 then s.posMax + 0.5
    else if target == 1.0 then s.posMin - 0.5
    else 0.5 * (s.posMin + s.posMax)
  }

  /** Seconds the relay is to run. */
  function RunTime(s: Shutter, target: real): (tm: real)
    requires Sane(s)
    ensures tm >= 0.0
  {
    var diff := target - From(s, target);
    if diff > 0.0 then diff * s.upTime else -diff * s.downTime
  }

  function Direction(s: Shutter, target: real): int
  {
    if target - From(s, target) > 0.0 then Up else Down
  }

  /** The relay pair of shutter `rnum` sits at bit `2 * (rnum - 1)` of
      the relay byte. The C shift is defined only for `1 <= rnum <= 15`
      (a negative count, or a result past `int`, is undefined behaviour);
      the frame keeps the low byte of the shifted value. */
  predicate ShiftDefined(rnum: int)
  {
    1 <= rnum <= 15
  }

  /** The two timed bus commands: start the relay pair of shutter `rnum`
      in the direction's bit pattern one tick from now, then stop it
      (pattern 0x11) after the run time, rounded to ticks. */
  function Plan(s: Shutter, target: real, tick: nat): (cmds: seq<Timed>)
    requires Sane(s) && ShiftDefined(s.rnum)
    ensures |cmds| == 2 && cmds[0].time == tick + 1 <= cmds[1].time
  {
    var i := Pow4(s.rnum - 1);
    var cmd := Direction(s, target);
    var tm := RunTime(s, target);
    assert Round(10.0 * tm) >= 0;
    [Timed(tick + 1, QueuedCommand(s.moduleId, 0x13, ((cmd / 16) % 4) * i, (cmd % 4) * i)),
     Timed(tick + 1 + Round(10.0 * tm), QueuedCommand(s.moduleId, 0x13, i, i))]
  }

  /** The interval the code computes before clamping, as written: the
      downward branch adds, and divides by the upward travel time. */
  function ShiftAsWritten(s: Shutter, target: real): (r: (real, real))
    requires Sane(s)
    ensures target - From(s, target) > 0.0 ==> r == Shift(s, target)
    ensures target - From(s, target) <= 0.0 ==> r.0 > s.posMin
  {
    var tm := RunTime(s, target);
    if target - From(s, target) > 0.0 then
      (s.posMin + (tm - 0.1) / s.upTime, s.posMax + (tm + 0.1) / s.upTime)
    else
      (s.posMin + (tm + 0.1) / s.upTime, s.posMax + (tm - 0.1) / s.upTime)
  }

  /** The interval before clamping as intended: moving down subtracts the
      run time over the downward travel time, widened by 0.1 s each way,
      mirroring the upward branch. */
  function Shift(s: Shutter, target: real): (r: (real, real))
    requires Sane(s)
    ensures target - From(s, target) > 0.0 ==> r.1 > s.posMax
    ensures target - From(s, target) <= 0.0 ==> r.0 < s.posMin
  {
    var tm := RunTime(s, target);
    if target - From(s, target) > 0.0 then
      (s.posMin + (tm - 0.1) / s.upTime, s.posMax + (tm + 0.1) / s.upTime)
    else
      (s.posMin - (tm + 0.1) / s.downTime, s.posMax - (tm - 0.1) / s.downTime)
  }

  /** What stateShutAdapt produces: the shutter, the reports to the
      clients, and the timed commands. */
  type Moved = (Shutter, seq<Effect>, seq<Timed>)

  /** stateShutAdapt as written: shift and clamp the interval, report the
      new position to the clients, schedule the relay commands. */
  function AdaptAsWritten(s: Shutter, target: real, tick: nat, slots: seq<int>): (r: Outcome<Moved>)
    requires Sane(s)
    ensures r.Defined? <==> ShiftDefined(s.rnum)
  {
    if !ShiftDefined(s.rnum) then Undefined
    else
      var (lo, hi) := ShiftAsWritten(s, target);
      var s1 := s.(posMin := Clamp(lo), posMax := Clamp(hi));
      Defined((s1, Report(s1, slots), Plan(s, target, tick)))
  }

  /** stateShutAdapt with the downward branch corrected: the estimate stays
      a sane interval, only the position changes, and one start and one
      later stop are planned. */
  function Adapt(s: Shutter, target: real, tick: nat, slots: seq<int>): (r: Outcome<Moved>)
    requires Sane(s)
    ensures r.Defined? <==> ShiftDefined(s.rnum)
    ensures r.Defined? ==>
              var (s1, es, cmds) := r.value;
              Sane(s1) && SameIdentity(s1, s) && s1.move == s.move && s1.time == s.time
              && es == Report(s1, slots)
              && |cmds| == 2 && cmds[0].time == tick + 1 <= cmds[1].time
  {
    if !ShiftDefined(s.rnum) then Undefined
    else
      var (lo, hi) := Shift(s, target);
      ShiftOrdered(s, target);
      ClampMonotone(lo, hi);
      var s1 := s.(posMin := Clamp(lo), posMax := Clamp(hi));
      Defined((s1, Report(s1, slots), Plan(s, target, tick)))
  }

  lemma ShiftOrdered(s: Shutter, target: real)
    requires Sane(s)
    ensures Shift(s, target).0 <= Shift(s, target).1
  {
    var tm := RunTime(s, target);
    DivMonotone(0.0, 0.2, s.upTime);
    DivMonotone(0.0, 0.2, s.downTime);
    assert (tm + 0.1) / s.upTime == (tm - 0.1) / s.upTime + 0.2 / s.upTime;
    assert (tm + 0.1) / s.downTime == (tm - 0.1) / s.downTime + 0.2 / s.downTime;
  }

  /** The corrected shift moves the centre of the interval by exactly the
      planned distance: to the target itself for a target strictly between
      the end stops. */
  lemma ShiftCentres(s: Shutter, target: real)
    requires Sane(s)
    ensures var (lo, hi) := Shift(s, target);
            0.5 * (lo + hi) == 0.5 * (s.posMin + s.posMax) + (target - From(s, target))
    ensures target != 0.0 && target != 1.0 ==>
              0.5 * (Shift(s, target).0 + Shift(s, target).1) == target
  {
    var diff := target - From(s, target);
    var tm := RunTime(s, target);
    if diff > 0.0 {
      CentreMoves(s.posMin, s.posMax, tm, s.upTime, diff);
    } else {
      CentreMoves(s.posMin, s.posMax, -tm, s.downTime, diff);
      assert (-tm - 0.1) / s.downTime == -((tm + 0.1) / s.downTime);
      assert (-tm + 0.1) / s.downTime == -((tm - 0.1) / s.downTime);
    }
  }

  /** Widening a shift of `tm / t` by 0.1 s each way keeps its centre. */
  lemma CentreMoves(lo: real, hi: real, tm: real, t: real, diff: real)
    requires t > 0.0 && tm == diff * t
    ensures 0.5 * ((lo + (tm - 0.1) / t) + (hi + (tm + 0.1) / t)) == 0.5 * (lo + hi) + diff
  {
    assert (tm - 0.1) / t + (tm + 0.1) / t == 2.0 * (tm / t);
    assert tm / t == diff;
  }

  /** As written, a downward move can leave posMin above posMax: from
      [0.5, 0.5] with both travel times 10 s, the target 0.25 gives
      [0.76, 0.74], and the estimate moves up instead of down. */
  lemma AdaptAsWrittenInverts(s: Shutter, slots: seq<int>)
    requires s == Shutter([], 7, 1, 10.0, 10.0, 0.5, 0.5, 0.0, 0)
    ensures AdaptAsWritten(s, 0.25, 0, slots).Defined?
    ensures AdaptAsWritten(s, 0.25, 0, slots).value.0.posMin == 0.76
    ensures AdaptAsWritten(s, 0.25, 0, slots).value.0.posMax == 0.74
  {
    ShiftAsWrittenInverts(s);
    AdaptAsWrittenClamps(s, 0.25, 0, slots);
  }

  /** The unclamped bounds of that example. */
  lemma ShiftAsWrittenInverts(s: Shutter)
    requires s == Shutter([], 7, 1, 10.0, 10.0, 0.5, 0.5, 0.0, 0)
    ensures ShiftAsWritten(s, 0.25) == (0.76, 0.74)
  {
    assert From(s, 0.25) == 0.5;
    assert RunTime(s, 0.25) == 2.5;
  }

  /** The adapted estimate is the clamped shift. */
  lemma AdaptAsWrittenClamps(s: Shutter, target: real, tick: nat, slots: seq<int>)
    requires Sane(s) && ShiftDefined(s.rnum)
    ensures AdaptAsWritten(s, target, tick, slots).Defined?
    ensures AdaptAsWritten(s, target, tick, slots).value.0.posMin == Clamp(ShiftAsWritten(s, target).0)
    ensures AdaptAsWritten(s, target, tick, slots).value.0.posMax == Clamp(ShiftAsWritten(s, target).1)
  {
  }

  // ---------------------------------------------------------------------
  // Choosing the target of a shutter command (stateShutCommand)

  /** C's `(a + b) / 2` on `int`: division truncating toward zero. */
  function CHalf(x: int): int
  {
    if x >= 0 then x / 2 else -((-x) / 2)
  }

  /** The target in percent for a requested range [inMin, inMax] percent,
      or None when the shutter is to stay. As written, the percentages are
      compared with the bounds of the interval, which are fractions. */
  function TargetAsWritten(s: Shutter, inMin: int, inMax: int): (t: Option<int>)
    ensures 0 <= inMin <= inMax && t.Some? ==> inMin <= t.value <= inMax
  {
    var lo := s.posMin;
    var hi := s.posMax;
    if inMax == 0 || (inMin == 0 && inMax as real > hi) then Some(0)
    else if inMin == 100 || (inMax == 100 && (inMin as real) < lo) then Some(100)
    else if (inMax as real) < lo || inMin as real > hi then Some(CHalf(inMin + inMax))
    else if (inMin as real) < lo && inMax as real > hi then None
    else Some(CHalf(inMin + inMax))
  }

  /** The same decision with the interval in percent. */
  function Target(s: Shutter, inMin: int, inMax: int): (t: Option<int>)
    ensures 0 <= inMin <= inMax && t.Some? ==> inMin <= t.value <= inMax
    ensures (Sane(s) && 0 < inMin <= inMax < 100
             && (inMin as real) < 100.0 * s.posMin && 100.0 * s.posMax < inMax as real) ==> t.None?
  {
    var lo := 100.0 * s.posMin;
    var hi := 100.0 * s.posMax;
    if inMax == 0 || (inMin == 0 && inMax as real > hi) then Some(0)
    else if inMin == 100 || (inMax == 100 && (inMin as real) < lo) then Some(100)
    else if (inMax as real) < lo || inMin as real > hi then Some(CHalf(inMin + inMax))
    else if (inMin as real) < lo && inMax as real > hi then None
    else Some(CHalf(inMin + inMax))
  }

  /** The chosen target always lies inside the requested range. */
  lemma TargetInRange(s: Shutter, inMin: int, inMax: int)
    requires 0 <= inMin <= inMax
    ensures Target(s, inMin, inMax).Some? ==> inMin <= Target(s, inMin, inMax).value <= inMax
    ensures TargetAsWritten(s, inMin, inMax).Some? ==>
              inMin <= TargetAsWritten(s, inMin, inMax).value <= inMax
  {
  }

  /** A shutter whose whole estimate lies strictly inside a range away from
      the end stops is left where it is. */
  lemma TargetStaysInside(s: Shutter, inMin: int, inMax: int)
    requires Sane(s)
    requires 0 < inMin <= inMax < 100
    requires (inMin as real) < 100.0 * s.posMin && 100.0 * s.posMax < inMax as real
    ensures Target(s, inMin, inMax).None?
  {
  }

  /** A shutter whose estimate lies entirely outside such a range goes to
      the middle of the range. */
  lemma TargetDisjointMidpoint(s: Shutter, inMin: int, inMax: int)
    requires Sane(s)
    requires 0 < inMin <= inMax < 100
    requires (inMax as real) < 100.0 * s.posMin || 100.0 * s.posMax < inMin as real
    ensures Target(s, inMin, inMax) == Some((inMin + inMax) / 2)
  {
  }

  /** As written, a shutter at 20% asked for 10..30% is moved to 20% even
      though it already is inside the range, and a shutter at 50% asked for
      0..30% runs all the way to 0 instead of to 15%. */
  lemma TargetAsWrittenMisjudges(s: Shutter, t: Shutter)
    requires s.posMin == 0.2 && s.posMax == 0.2
    requires t.posMin == 0.5 && t.posMax == 0.5
    ensures TargetAsWritten(s, 10, 30) == Some(20) && Target(s, 10, 30) == None
    ensures TargetAsWritten(t, 0, 30) == Some(0) && Target(t, 0, 30) == Some(15)
  {
  }

  /** stateShutCommand as written: the first shutter on (module, rnum)
      is sent towards the target `TargetAsWritten` chooses; an unknown
      shutter or the answer "stay" changes nothing. The source asserts
      `inMin <= inMax`. */
  function CommandAsWritten(ss: seq<Shutter>, m: int, r: int, inMin: int, inMax: int, tick: nat, slots: seq<int>)
    : (res: Outcome<Moves>)
    requires AllSane(ss) && inMin <= inMax
    ensures PtrGet(ss, m, r).None? ==> res == Defined((ss, [], []))
  {
    match PtrGet(ss, m, r)
    case None => Defined((ss, [], []))
    case Some(k) =>
      match TargetAsWritten(ss[k], inMin, inMax)
      case None => Defined((ss, [], []))
      case Some(pos) =>
        match AdaptAsWritten(ss[k], 0.01 * pos as real, tick, slots)
        case Undefined => Undefined
        case Defined(a) => Defined((ss[k := a.0], a.1, a.2))
  }

  /** The shutter table after a command, its reports and timed commands. */
  type Moves = (seq<Shutter>, seq<Effect>, seq<Timed>)

  /** stateShutCommand with the interval compared in percent and the
      corrected adaptation: every estimate stays sane, only the addressed
      shutter changes, and either nothing happens or one start and one
      later stop are planned. */
  function Command(ss: seq<Shutter>, m: int, r: int, inMin: int, inMax: int, tick: nat, slots: seq<int>)
    : (res: Outcome<Moves>)
    requires AllSane(ss) && inMin <= inMax
    ensures res.Undefined? ==> PtrGet(ss, m, r).Some? && !ShiftDefined(r)
    ensures res.Defined? ==>
              var (ss1, es, cmds) := res.value;
              AllSane(ss1) && |ss1| == |ss|
              && (forall j :: 0 <= j < |ss| && !(ss[j].moduleId == m && ss[j].rnum == r) ==> ss1[j] == ss[j])
              && (cmds == [] ==> ss1 == ss && es == [])
              && (cmds != [] ==> |cmds| == 2 && cmds[0].time == tick + 1 <= cmds[1].time)
  {
    match PtrGet(ss, m, r)
    case None => Defined((ss, [], []))
    case Some(k) =>
      match Target(ss[k], inMin, inMax)
      case None => Defined((ss, [], []))
      case Some(pos) =>
        match Adapt(ss[k], 0.01 * pos as real, tick, slots)
        case Undefined => Undefined
        case Defined(a) => Defined((ss[k := a.0], a.1, a.2))
  }

  /** A command whose range contains the whole estimate, away from the end
      stops, leaves the table alone and sends nothing. */
  lemma CommandInsideDoesNothing(ss: seq<Shutter>, m: int, r: int, inMin: int, inMax: int, tick: nat, slots: seq<int>)
    requires AllSane(ss) && 0 < inMin <= inMax < 100
    requires PtrGet(ss, m, r).Some?
    requires var s := ss[PtrGet(ss, m, r).value];
             (inMin as real) < 100.0 * s.posMin && 100.0 * s.posMax < inMax as real
    ensures Command(ss, m, r, inMin, inMax, tick, slots) == Defined((ss, [], []))
  {
    TargetStaysInside(ss[PtrGet(ss, m, r).value], inMin, inMax);
  }
}

=== FILE: time_queue.dfy ===
/** The delayed-command queue of time_queue.c: bus commands to be sent at a
    later tick, kept sorted by time in a doubly linked list
    (`struct timeQueue_s`, time_queue.h).

    `Insert` is the insertion the code is evidently meant to perform, on the
    queue read front to back. `AddAsWritten` runs the C loop on an arena of
    nodes with explicit `prev`/`next` links and shows how its tail append
    corrupts the list. */
module TimeQueue {
  import opened Bytes
  import opened Effects

  /** A scheduled bus command: the tick it is due and its 8-byte frame. */
  datatype Timed = Timed(time: int, frame: seq<Byte>)

  predicate Sorted(q: seq<Timed>)
  {
    forall i, j :: 0 <= i < j < |q| ==> q[i].time <= q[j].time
  }

  /** Index of the first entry due strictly later than `t`, or the length
      of the queue when there is none. */
  function InsertPos(q: seq<Timed>, t: Timed): (k: nat)
    ensures k <= |q|
    ensures forall j :: 0 <= j < k ==> q[j].time <= t.time
    ensures k < |q| ==> q[k].time > t.time
  {
    if q == [] || q[0].time > t.time then 0 else 1 + InsertPos(q[1..], t)
  }

  /** timeQueueAdd as intended: the new entry goes just before the first
      entry due strictly later, or at the end. */
  function Insert(q: seq<Timed>, t: Timed): (r: seq<Timed>)
    ensures |r| == |q| + 1
  {
    var k := InsertPos(q, t);
    q[..k] + [t] + q[k..]
  }

  lemma {:induction false} InsertAt(q: seq<Timed>, t: Timed, i: nat)
    requires i <= |q|
    ensures |Insert(q, t)| == |q| + 1
    ensures var k := InsertPos(q, t);
            Insert(q, t)[i] == (if i < k then q[i] else if i == k then t else q[i - 1])
  {
  }

  /** Insertion keeps the queue sorted. */
  lemma {:induction false} InsertSorted(q: seq<Timed>, t: Timed)
    requires Sorted(q)
    ensures Sorted(Insert(q, t))
  {
    var k := InsertPos(q, t);
    var r := Insert(q, t);
    forall i, j | 0 <= i < j < |r|
      ensures r[i].time <= r[j].time
    {
      InsertAt(q, t, i);
      InsertAt(q, t, j);
    }
  }

  /** Insertion adds exactly the new entry. */
  lemma {:induction false} InsertCounts(q: seq<Timed>, t: Timed)
    ensures |Insert(q, t)| == |q| + 1
    ensures multiset(Insert(q, t)) == multiset(q) + multiset{t}
  {
    var k := InsertPos(q, t);
    assert q == q[..k] + q[k..];
  }

  /** Removing the new entry gives back the old queue: the other entries
      keep their relative order. */
  lemma {:induction false} InsertStable(q: seq<Timed>, t: Timed)
    ensures var k := InsertPos(q, t);
            Insert(q, t)[k] == t && Insert(q, t)[..k] + Insert(q, t)[k + 1..] == q
  {
    var k := InsertPos(q, t);
    var r := Insert(q, t);
    assert r[..k] == q[..k];
    assert r[k + 1..] == q[k..];
  }

  /** The new entry becomes the head exactly when the queue was empty or
      its head is due strictly later (the `_timeQueue = pNew` case). */
  lemma {:induction false} InsertHead(q: seq<Timed>, t: Timed)
    ensures Insert(q, t)[0] == t <==> (q == [] || q[0].time > t.time || q[0] == t)
  {
  }

  /** Ties go after: an entry inserted after another with the same or an
      earlier time stays behind it. So a start/stop pair scheduled in that
      order is sent in that order even when both fall on the same tick. */
  lemma {:induction false} InsertKeepsTieOrder(q: seq<Timed>, a: Timed, b: Timed)
    requires Sorted(q)
    requires a.time <= b.time
    ensures var r := Insert(Insert(q, a), b);
            exists i, j :: 0 <= i < j < |r| && r[i] == a && r[j] == b
  {
    var q1 := Insert(q, a);
    var ka := InsertPos(q, a);
    InsertStable(q, a);
    InsertSorted(q, a);
    var kb := InsertPos(q1, b);
    InsertPosAfter(q1, ka, b);
    var r := Insert(q1, b);
    InsertAt(q1, b, ka);
    InsertStable(q1, b);
    assert 0 <= ka < kb < |r| && r[ka] == a && r[kb] == b;
  }

  /** In a sorted queue, an entry is inserted after every entry due no
      later than it. */
  lemma InsertPosAfter(q: seq<Timed>, i: nat, t: Timed)
    requires Sorted(q) && i < |q| && q[i].time <= t.time
    ensures i < InsertPos(q, t)
  {
  }

  /** The head of the queue is taken off when it is due (yaliRefresh), with
      the list left well linked, as `Pop` does on the arena. */
  function PopDue(q: seq<Timed>, tick: int): (r: (Option<Timed>, seq<Timed>))
    ensures r.0.Some? <==> q != [] && q[0].time <= tick
    ensures r.0.Some? ==> r.0.value == q[0] && r.1 == q[1..]
    ensures r.0.None? ==> r.1 == q
  {
    if q != [] && q[0].time <= tick then (Some(q[0]), q[1..]) else (None, q)
  }

  // ---------------------------------------------------------------------
  // The C insertion loop, on an arena of linked nodes

  const Null: int := -1

  datatype Node = Node(time: int, prev: int, next: int)

  /** The list: a map from node identifiers to nodes, and the head. */
  datatype Arena = Arena(nodes: map<int, Node>, head: int)

  /** Sets `next` of node `p` (a no-op on an identifier with no node). */
  function SetNext(a: Arena, p: int, n: int): Arena
  {
    if p in a.nodes then a.(nodes := a.nodes[p := a.nodes[p].(next := n)]) else a
  }

  function SetPrev(a: Arena, p: int, n: int): Arena
  {
    if p in a.nodes then a.(nodes := a.nodes[p := a.nodes[p].(prev := n)]) else a
  }

  /** timeQueueAdd(pNew) with `pNew` the node `id` of the arena. The loop
      walks at most `fuel` nodes; a walk that would not stop (a cyclic
      list) or that reaches a dangling link is `Undefined`. */
  function AddAsWritten(a: Arena, id: int, fuel: nat): (r: Outcome<Arena>)
    requires id in a.nodes
    ensures a.head == Null ==> r.Defined? && r.value.head == id
    ensures r.Defined? ==> r.value.nodes.Keys == a.nodes.Keys
    ensures r.Defined? ==> forall x :: x in a.nodes ==> r.value.nodes[x].time == a.nodes[x].time
  {
    if a.head == Null then
      Defined(SetNext(SetPrev(a.(head := id), id, Null), id, Null))
    else
      Walk(a, id, a.head, fuel)
  }

  /** One pass of the `while (p != NULL)` loop body, from node `p`. A
      link to a node no longer in the arena is a pointer to freed memory:
      writing through it is `Undefined`. */
  function Walk(a: Arena, id: int, p: int, fuel: nat): (r: Outcome<Arena>)
    requires id in a.nodes
    ensures r.Defined? ==> r.value.nodes.Keys == a.nodes.Keys
    ensures r.Defined? ==> forall x :: x in a.nodes ==> r.value.nodes[x].time == a.nodes[x].time
    decreases fuel
  {
    if p == Null then Defined(a)
    else if fuel == 0 || p !in a.nodes then Undefined
    else if a.nodes[p].time > a.nodes[id].time then
      // insert before p
      var a1 := SetNext(a, id, p);
      var a2 := SetPrev(a1, id, a1.nodes[p].prev);
      var a3 := SetPrev(a2, p, id);
      var pp := a3.nodes[id].prev;
      if pp == Null then Defined(a3.(head := id))
      else if pp !in a3.nodes then Undefined
      else Defined(SetNext(a3, pp, id))
    else
      // add at end of list when p is the tail; then step to p->next
      var a1 := if a.nodes[p].next == Null
                then SetNext(SetPrev(SetNext(a, p, id), id, p), id, Null)
                else a;
      Walk(a1, id, a1.nodes[p].next, fuel - 1)
  }

  /** yaliRefresh's pop as written: a due head is freed and `_timeQueue`
      moves to its successor, whose `prev` still names the freed node. */
  function PopAsWritten(a: Arena, tick: int): (r: Arena)
    ensures Due(a, tick) ==> r.head == a.nodes[a.head].next && r.nodes == a.nodes - {a.head}
    ensures !Due(a, tick) ==> r == a
  {
    if Due(a, tick) then Arena(a.nodes - {a.head}, a.nodes[a.head].next) else a
  }

  /** The list is not empty and its head is due. */
  predicate Due(a: Arena, tick: int)
  {
    a.head != Null && a.head in a.nodes && a.nodes[a.head].time <= tick
  }

  /** The pop with the new head's `prev` cleared, as unlinking the first
      node of a doubly linked list needs. */
  function Pop(a: Arena, tick: int): (r: Arena)
    ensures Due(a, tick) ==> r.head == a.nodes[a.head].next && r.nodes.Keys == a.nodes.Keys - {a.head}
    ensures Due(a, tick) && r.head in r.nodes ==> r.nodes[r.head].prev == Null
    ensures !Due(a, tick) ==> r == a
  {
    if Due(a, tick) then
      SetPrev(Arena(a.nodes - {a.head}, a.nodes[a.head].next), a.nodes[a.head].next, Null)
    else a
  }

  /** After the head of a well-linked list is popped as written, adding a
      node earlier than the new head inserts it before that head and then
      writes its `next` link into the freed node: the C writes freed
      memory, `_timeQueue` is left on the old successor, and the new
      command is never reached from the head. */
  lemma PopThenAddAsWritten(a: Arena, tick: int, id: int, fuel: nat)
    requires Due(a, tick)
    requires var h := a.nodes[a.head].next;
             h != Null && h in a.nodes && h != a.head && a.nodes[h].prev == a.head
    requires id in a.nodes && id != a.head && id != a.nodes[a.head].next
    requires a.nodes[id].time < a.nodes[a.nodes[a.head].next].time && fuel > 0
    ensures var p := PopAsWritten(a, tick);
            id in p.nodes && AddAsWritten(p, id, fuel).Undefined?
  {
    var p := PopAsWritten(a, tick);
    var h := a.nodes[a.head].next;
    assert p.head == h && p.nodes[h] == a.nodes[h];
    var a1 := SetNext(p, id, h);
    assert a1.nodes[h].prev == a.head;
    var a2 := SetPrev(a1, id, a.head);
    var a3 := SetPrev(a2, h, id);
    assert a3.nodes.Keys == p.nodes.Keys && a3.nodes[id].prev == a.head;
    assert Walk(p, id, h, fuel).Undefined?;
  }

  /** With the `prev` link cleared, the same add makes the new node the
      head, linked in front of the old successor. */
  lemma PopThenAdd(a: Arena, tick: int, id: int, fuel: nat)
    requires Due(a, tick)
    requires var h := a.nodes[a.head].next;
             h != Null && h in a.nodes && h != a.head
    requires id in a.nodes && id != a.head && id != a.nodes[a.head].next
    requires a.nodes[id].time < a.nodes[a.nodes[a.head].next].time && fuel > 0
    ensures var p := Pop(a, tick);
            id in p.nodes && AddAsWritten(p, id, fuel).Defined?
            && var r := AddAsWritten(p, id, fuel).value;
               r.head == id && id in r.nodes && r.nodes[id].next == p.head && r.nodes[id].prev == Null
               && p.head in r.nodes && r.nodes[p.head].prev == id
  {
    var p := Pop(a, tick);
    var h := a.nodes[a.head].next;
    assert p.head == h && p.nodes[h].time == a.nodes[h].time && p.nodes[h].prev == Null;
    var a1 := SetNext(p, id, h);
    var a2 := SetPrev(a1, id, Null);
    var a3 := SetPrev(a2, h, id);
    assert a3.nodes[id] == p.nodes[id].(next := h, prev := Null);
    assert Walk(p, id, h, fuel) == Defined(a3.(head := id));
  }

  /** Three nodes: times 5, 1 and 3, none in the list yet. */
  const FiveOneThree: Arena := Arena(map[0 := Node(5, Null, Null), 1 := Node(1, Null, Null), 2 := Node(3, Null, Null)], Null)

  /** Adding times 5 then 1 links the list 1, 5 correctly. Popping time 1
      at tick 1 as written and then adding time 3 writes freed memory;
      with the corrected pop, time 3 becomes the head, before time 5. */
  lemma PopThenAddExample(a: Arena)
    requires a == FiveOneThree
    ensures AddAsWritten(a, 0, 3).Defined?
    ensures var a1 := AddAsWritten(a, 0, 3).value;
            1 in a1.nodes && AddAsWritten(a1, 1, 3).Defined?
            && var a2 := AddAsWritten(a1, 1, 3).value;
               2 in PopAsWritten(a2, 1).nodes && AddAsWritten(PopAsWritten(a2, 1), 2, 3).Undefined?
               && 2 in Pop(a2, 1).nodes && AddAsWritten(Pop(a2, 1), 2, 3).Defined?
               && AddAsWritten(Pop(a2, 1), 2, 3).value.head == 2
  {
    var a1 := AddAsWritten(a, 0, 3).value;
    assert a1.head == 0 && Holds(a1, 0, Node(5, Null, Null)) && Holds(a1, 1, Node(1, Null, Null));
    var a2 := AddAsWritten(a1, 1, 3).value;
    assert a2.head == 1 && Holds(a2, 1, Node(1, Null, 0)) && Holds(a2, 0, Node(5, 1, Null))
           && Holds(a2, 2, Node(3, Null, Null));
    PopThenAddAsWritten(a2, 1, 2, 3);
    PopThenAdd(a2, 1, 2, 3);
  }

  /** Three nodes: times 1, 5 and 3, added in that order to an empty list. */
  const Three: Arena := Arena(map[0 := Node(1, Null, Null), 1 := Node(5, Null, Null), 2 := Node(3, Null, Null)], Null)

  function AddThree(a: Arena): Outcome<Arena>
    requires 0 in a.nodes && 1 in a.nodes && 2 in a.nodes
  {
    match AddAsWritten(a, 0, 3)
    case Undefined => Undefined
    case Defined(a1) =>
      if 1 !in a1.nodes then Undefined else
      match AddAsWritten(a1, 1, 3)
      case Undefined => Undefined
      case Defined(a2) =>
        if 2 !in a2.nodes then Undefined else AddAsWritten(a2, 2, 3)
  }

  /** The tail append revisits the new node and leaves its `prev` pointing
      at itself: after adding times 1 then 5, the node of time 5 is its
      own predecessor. */
  lemma TailAppendSelfLoop(a: Arena)
    requires a == Three
    ensures AddAsWritten(a, 0, 3).Defined?
    ensures var a1 := AddAsWritten(a, 0, 3).value;
            1 in a1.nodes && AddAsWritten(a1, 1, 3).Defined?
            && var a2 := AddAsWritten(a1, 1, 3).value;
               1 in a2.nodes && a2.nodes[1].prev == 1 && a2.nodes[1].next == Null
  {
    FirstAdd(a);
    SecondAdd(AddAsWritten(a, 0, 3).value);
  }

  /** Node `id` of the arena holds `n`. */
  predicate Holds(a: Arena, id: int, n: Node)
  {
    id in a.nodes && a.nodes[id] == n
  }

  /** The first node added to the empty list becomes its head. */
  lemma FirstAdd(a: Arena)
    requires a == Three
    ensures AddAsWritten(a, 0, 3).Defined?
    ensures var a1 := AddAsWritten(a, 0, 3).value;
            a1.head == 0 && Holds(a1, 0, Node(1, Null, Null))
            && Holds(a1, 1, Node(5, Null, Null)) && Holds(a1, 2, Node(3, Null, Null))
  {
  }

  /** The second, later node is appended at the tail, and the walk then
      steps onto it and appends it once more, to itself. */
  lemma SecondAdd(a1: Arena)
    requires a1.head == 0 && Holds(a1, 0, Node(1, Null, Null))
    requires Holds(a1, 1, Node(5, Null, Null)) && Holds(a1, 2, Node(3, Null, Null))
    ensures AddAsWritten(a1, 1, 3).Defined?
    ensures var a2 := AddAsWritten(a1, 1, 3).value;
            a2.head == 0 && Holds(a2, 0, Node(1, Null, 1))
            && Holds(a2, 1, Node(5, 1, Null)) && Holds(a2, 2, Node(3, Null, Null))
  {
  }

  /** The third node goes before the self-linked one, whose `prev` is
      itself, so the node before the new one is that same node. */
  lemma ThirdAdd(a2: Arena)
    requires a2.head == 0 && Holds(a2, 0, Node(1, Null, 1))
    requires Holds(a2, 1, Node(5, 1, Null)) && Holds(a2, 2, Node(3, Null, Null))
    ensures AddAsWritten(a2, 2, 3).Defined?
    ensures var r := AddAsWritten(a2, 2, 3).value;
            r.head == 0 && 0 in r.nodes && 1 in r.nodes && 2 in r.nodes
            && r.nodes[0].next == 1 && r.nodes[1].next == 2 && r.nodes[2].next == 1
  {
  }

  /** Inserting time 3 before that node then closes a cycle: the nodes of
      time 5 and 3 point at each other, so walking the list from its head
      (time 1) never ends. The intended insertion gives 1, 3, 5. */
  lemma ThirdInsertMakesCycle(a: Arena)
    requires a == Three
    ensures AddThree(a).Defined?
    ensures var r := AddThree(a).value;
            r.head == 0 && 0 in r.nodes && 1 in r.nodes && 2 in r.nodes
            && r.nodes[0].next == 1 && r.nodes[1].next == 2 && r.nodes[2].next == 1
    ensures Insert(Insert(Insert([], Timed(1, [])), Timed(5, [])), Timed(3, []))
            == [Timed(1, []), Timed(3, []), Timed(5, [])]
  {
    FirstAdd(a);
    var a1 := AddAsWritten(a, 0, 3).value;
    SecondAdd(a1);
    ThirdAdd(AddAsWritten(a1, 1, 3).value);
    InsertOneFiveThree();
  }

  /** The intended insertion of times 1, 5 and 3 sorts them. */
  lemma InsertOneFiveThree()
    ensures Insert(Insert(Insert([], Timed(1, [])), Timed(5, [])), Timed(3, []))
            == [Timed(1, []), Timed(3, []), Timed(5, [])]
  {
    var q1 := Insert([], Timed(1, []));
    assert q1 == [Timed(1, [])];
    var q2 := Insert(q1, Timed(5, []));
    assert InsertPos(q1, Timed(5, [])) == 1;
    assert q2 == [Timed(1, []), Timed(5, [])];
    assert InsertPos(q2, Timed(3, [])) == 1;
  }
}
